=== FILE: README.md ===
# A Dafny model of the Vue 2 runtime core

This project models, in Dafny, the decision logic at the core of a Vue 2
runtime. It covers:

- **Option merging** (`mergeOptions`): data, hooks, assets, watch and hash
  strategies, normalisation of props, inject and directives, and asset
  resolution.
- **The component event bus** (`$on`, `$once`, `$off`, `$emit`).
- **Listener diffing** (`updateListeners`), with its invokers and once-handlers.
- **provide/inject.**
- **Class rendering and the class module** of the web platform.
- **The `ref` registry.**
- **Scoped slots:** `resolveScopedSlots`, `normalizeScopedSlots` and `renderSlot`.
- **`v-bind` objects** (`bindObjectProps`).
- **Component vnodes:** `createComponent`, component hook installation and
  `v-model` transformation.
- **`createElement`**: argument shifting, dispatch and namespaces.
- **The vnode helpers** `isAsyncPlaceholder` and `getFirstComponentChild`.
- **`Vue.use`.**
- **The state-initialisation rules of `state.js`.**

JavaScript values are an explicit datatype (`JsValue.Val`):

- Functions and foreign objects are identities, so `===` is equality.
- Prototype delegation is an explicit `proto` chain that lookups walk.
- Records are immutable maps, and every operation is a pure function from
  the state before to the state after.
- Everything the core calls but does not define is a parameter. This covers
  user functions (their outcome is a `Ret`: a value or an exception), platform
  hooks (`isReservedTag`, `mustUseProp`, `getTagNamespace`), `normalizeChildren`
  and `resolveAsyncComponent`.

Files, one module each:

| file | models |
|---|---|
| js_value.dfy | values, truthiness, property lookup along `proto`, `camelize`/`hyphenate`/`capitalize` |
| options.dfy | src/core/util/options.js |
| events.dfy | src/core/instance/events.js |
| update_listeners.dfy | src/core/vdom/helpers/update-listeners.js |
| inject.dfy | src/core/instance/inject.js |
| class_util.dfy | src/platforms/web/util/class.js |
| class_module.dfy | src/platforms/web/runtime/modules/class.js |
| ref.dfy | src/core/vdom/modules/ref.js |
| resolve_scoped_slots.dfy | src/core/instance/render-helpers/resolve-scoped-slots.js |
| normalize_scoped_slots.dfy | src/core/vdom/helpers/normalize-scoped-slots.js |
| render_slot.dfy | src/core/instance/render-helpers/render-slot.js |
| bind_object_props.dfy | src/core/instance/render-helpers/bind-object-props.js |
| create_component.dfy | src/core/vdom/create-component.js |
| create_element.dfy | src/core/vdom/create-element.js |
| vnode_helpers.dfy | src/core/vdom/helpers/is-async-placeholder.js, get-first-component-child.js |
| use.dfy | src/core/global-api/use.js |
| state.dfy | src/core/instance/state.js |

## Model

| member | source | states |
|---|---|---|
| Options.MergeRecords | src/core/util/options.js:90-129 | every key of the target keeps its value unless both sides hold distinct records; `__ob__` is never copied; keys come from the source's own keys only |
| Options.MergeData | src/core/util/options.js:90-129 | no source keys leaves the target as is; copying into a non-record target throws, as the reactive `set` does |
| Options.MergeDataOrFn | src/core/util/options.js:137-219 | without a vm, a missing side yields the other side unchanged; otherwise the result is a deferred merge closure that evaluates child first, then parent |
| Options.StratData | src/core/util/options.js:227-252 | in a component definition, a non-function child `data` is rejected and the parent's is kept |
| Options.KeepFirstSpec | src/core/util/options.js:290-298 | the deduplicated list is duplicate-free, contains exactly the input's elements and is no longer than the input |
| Options.KeepFirstOrder | src/core/util/options.js:290-298 | deduplication keeps the values in the order of their first occurrences in the input |
| Options.DedupeHooks | src/core/util/options.js:290-298 | the loop computes `KeepFirst` of the input |
| Options.MergeHook | src/core/util/options.js:270-284 | without any hook the parent's value is kept; otherwise an array holding the parent's hooks followed by the child's, each kept at its first occurrence |
| Options.MergeAssets | src/core/util/options.js:315-341 | a fresh record holding the child's own entries that delegates to the parent's registry |
| Options.StratWatch | src/core/util/options.js:356-391 | each key watched on both sides holds the parent's handlers followed by the child's; the other side is returned when one is missing |
| Options.StratHash | src/core/util/options.js:399-416 | a shallow record with the parent's entries overridden by the child's; the child as is without a parent |
| Options.DefaultStrat | src/core/util/options.js:426-430 | the child's value unless it is `undefined`, then the parent's |
| Options.FieldOverrides | src/core/util/options.js:399-430 | one merge of a `defaultStrat` key offers the child's value when it is defined and the parent's otherwise; one merge of a hash key offers, for each entry, the child's when the child defines it and the parent's otherwise |
| Options.HashEntryOverrides | src/core/util/options.js:399-416 | an entry of the merged hash is found exactly when either side defines it, with the child's definition winning |
| Options.MergeField | src/core/util/options.js:718-721 | lifecycle hooks concatenate parent then child, deduplicated; asset registries delegate to the parent's; hashes let the child's entries win; `data` and `provide` become functions under an instance; any other key takes the child's value unless it is `undefined` |
| Options.NormalizeProps | src/core/util/options.js:481-544 | array syntax maps each camelized string to `{type: null}`; record syntax maps each camelized key to its definition, wrapped unless it is a record; any other shape gives `{}` |
| Options.NormalizePropsIdempotent | src/core/util/options.js:481-544 | normalised props are left as they are when normalised again, unless a normalised name still holds a `-` before a word character (`a--b` gives `a-B`, which gives `aB`) |
| Options.NormalizeInject | src/core/util/options.js:550-605 | array syntax maps each string to `{from: key}`; record syntax maps each key to `{from: key}` extended by a record, or to `{from: val}` |
| Options.NormalizeInjectIdempotent | src/core/util/options.js:550-605 | normalising `inject` a second time changes nothing |
| Options.NormalizeDirectives | src/core/util/options.js:611-621 | every function directive of a record, own or inherited, becomes an own `{bind: f, update: f}`; an array has its function elements rewritten the same way; other entries and other values are untouched |
| Options.NormalizeDirectivesIdempotent | src/core/util/options.js:611-621 | normalising `directives` a second time changes nothing |
| Options.MergeFields | src/core/util/options.js:698-723 | the result has every key of either side exactly once and keeps the merged-options shape |
| Options.MergeOptionsFields | src/core/util/options.js:642-724 | the merged options hold the keys of the folded parent and every key of the child, own or inherited, each merged by its strategy from the folded parent's value and the normalised child's |
| Options.MergedHookField | src/core/util/options.js:660-724 | a lifecycle hook is merged from the folded parent's list and the child's hooks, own or inherited, normalisation aside |
| Options.MergedHooksInOrder | src/core/util/options.js:642-724 | for every lifecycle hook the merged list is the parent's hooks, then those of `extends`, then those of each mixin in order, then the child's own, each kept at its first occurrence |
| Options.MergedOverridesInOrder | src/core/util/options.js:642-724 | for every input, a `defaultStrat` key ends with the child's defined value, else the last mixin's, else the `extends`' (each folded the same way), else the parent's; each entry of `props`, `methods`, `inject` or `computed` comes from the innermost of those sides that defines it |
| Options.FoldedOverridesInOrder | src/core/util/options.js:682-691 | the parent after folding offers what the mixins offer, a later mixin winning, then what `extends` offers, over its own value; nothing changes for a `_base` child or a constructor |
| Options.MixinOverridesInOrder | src/core/util/options.js:686-690 | folding mixins left to right lets the last one that defines a value win over the earlier ones and over the parent |
| Options.FoldedHooksInOrder | src/core/util/options.js:682-691 | `extends` reaches the folded parent before the mixins, and a child carrying `_base` folds nothing |
| Options.MixinHooksInOrder | src/core/util/options.js:686-690 | mixins are merged into the parent left to right |
| Options.ResolveAsset | src/core/util/options.js:732-763 | a non-string id gives `undefined`; own entries are tried as the id, its camelized form, then that form capitalized; without one the chain is searched and a truthy answer under any spelling is found; anything found is registered under one of the spellings |
| Options.RegisteredAssetFound | src/core/util/options.js:732-763 | an asset registered locally is resolved to that entry, and a globally registered one the local registry does not shadow is resolved to the global entry |
| Options.MergeRecordsKeepsTarget | src/core/util/options.js:90-129 | the child's data survives the merge at every depth |
| Options.MergeRecordsCoversSource | src/core/util/options.js:90-129 | every parent data key except `__ob__` is present in the result at every depth |
| Options.MergedDataIsMergeOfBoth | src/core/util/options.js:137-219 | when both sides evaluate to records, the merged data is the child's merged over the parent's |
| Options.MergedDataWithoutChild | src/core/util/options.js:137-219 | without child data, the merged data evaluates to the parent's, failures included |
| Options.MergedDataWithoutParent | src/core/util/options.js:137-219 | without parent data, the merged data evaluates to the child's |
| Options.KeepFirstOfDistinct | src/core/util/options.js:290-298 | deduplication leaves a duplicate-free list unchanged |
| Options.KeepFirstAbsorbs | src/core/util/options.js:290-298 | appending values that are already present changes nothing after deduplication |
| Options.MergeHookParentFirst | src/core/util/options.js:270-284 | the parent's distinct hooks come first, in their order |
| Options.MergeHookIdempotent | src/core/util/options.js:270-284 | merging the same child hooks a second time changes nothing |
| Options.MergeHookDropsRepeat | src/core/util/options.js:270-298 | a parent `[A]` and a child `[B, A]` merge to `[A, B]` |
| Options.AssetLookupDelegates | src/core/util/options.js:315-341 | a merged registry answers with the child's entries and delegates every other name to the parent's |
| Options.WatchHandlersParentFirst | src/core/util/options.js:356-391 | on a key watched by both sides, the parent's handlers run first |
| Options.MergedChildNotRefolded | src/core/util/options.js:682 | the options of an already-merged child are not re-applied as mixins |
| Options.MixinHookRunsFirst | src/core/util/options.js:686-690 | a mixin's `created` hook runs before the component's own |
| Events.InitEvents | src/core/instance/events.js:17-36 | a fresh bus has no listeners and the hook-event flag is cleared |
| Events.OnName | src/core/instance/events.js:100-122 | `$on` appends the listener under the name and leaves every other name unchanged; a `hook:` name sets the flag |
| Events.On | src/core/instance/events.js:100-122 | every name gains one copy of the listener per time it is listed, after its earlier listeners; unlisted names are unchanged; the flag is set exactly when a listed name starts with `hook:` |
| Events.OnEach | src/core/instance/events.js:104-108 | an array of names registers under each element in turn, with the same effect per name |
| Events.Once | src/core/instance/events.js:130-147 | `$once` registers one wrapper, under every listed name, that knows its handler and its event |
| Events.RemoveLast | src/core/instance/events.js:198-206 | `$off` removes at most one listener |
| Events.RemoveLastNoMatch | src/core/instance/events.js:198-206 | when no listener matches, nothing is removed |
| Events.RemoveLastSplices | src/core/instance/events.js:198-206 | exactly the last listener matching by function or by `.fn` is spliced out, the rest keeping their order |
| Events.OffName | src/core/instance/events.js:176-207 | other names are unchanged; without a function the event is cleared; with one, its last match is removed |
| Events.Off | src/core/instance/events.js:155-208 | every name loses one matching listener per time it is listed (all of them without a function); unlisted names keep theirs; the flag is kept |
| Events.OffEach | src/core/instance/events.js:165-170 | an array of names applies `$off` to each element in turn, with the same effect per name |
| Events.OffAll | src/core/instance/events.js:159-162 | `$off()` with no arguments clears every event |
| Events.EmitStep | src/core/instance/events.js:130-147 | a `$once` wrapper unregisters itself from every event it names and then calls its handler; calling an invoker never throws |
| Events.EmitFrom | src/core/instance/events.js:245-261 | the snapshot taken at the start is called in order, one invocation per entry; errors are reported and the loop continues |
| Events.Emit | src/core/instance/events.js:215-263 | every listener registered when the emit starts is called exactly once, in order |
| Events.ApplyOps | src/core/instance/events.js:41-48 | the diff's `add` and `remove` calls act as `$on` and `$off` on each event, in order |
| Events.UpdateComponentListeners | src/core/instance/events.js:79-87 | events no key names keep their listeners; a new key's wrapper is registered under its event unless an old key for the same event is removed; a removed key whose old handler is missing clears its event |
| Events.OffUndoesOn | src/core/instance/events.js:100-208 | `$off(event, fn)` right after `$on(event, fn)` restores every event's listeners, for a single name or an array |
| Events.OffResultCopies | src/core/instance/events.js:164-206 | `k` rounds of `$off` take back `k` trailing copies of a matching listener |
| Events.RemoveLastCount | src/core/instance/events.js:198-206 | `$off` never adds a match and takes one away from the listener it removes |
| Events.OffNeverAdds | src/core/instance/events.js:155-208 | `$off` never adds a listener |
| Events.OffRemovesWrapper | src/core/instance/events.js:137-141 | a once-wrapper removes one copy of itself from every event it was registered for |
| Events.EmitDrainsWrapper | src/core/instance/events.js:130-147 | once the emit has run through its snapshot, no copy of a once-wrapper is left |
| Events.OnceFiresOnce | src/core/instance/events.js:130-147 | a `$once` listener runs on the first emit and not on the second, whatever else is registered |
| Events.BoundOnceUnregisters | src/core/instance/events.js:51-59 | a diff once-handler calls its invoker, which swallows errors, and unregisters itself unless the handler returned `null` |
| Events.InitialListenersRegistered | src/core/instance/events.js:79-87 | initial parent listeners end up registered under their event names |
| Events.RemovedWrapperGone | src/core/instance/events.js:79-87 | a key the new listeners drop leaves nothing under its event that `$off` with its old wrapper would match |
| UpdateListeners.NormalizeEvent | src/core/vdom/helpers/update-listeners.js:19-39 | the `&`, `~` and `!` prefixes are each read at most once, in that order |
| UpdateListeners.EncodeNormalized | src/core/vdom/helpers/update-listeners.js:19-39 | decoding loses nothing: re-encoding gives back the raw name |
| UpdateListeners.NormalizeEncoded | src/core/vdom/helpers/update-listeners.js:19-39 | encoded flags decode back to themselves |
| UpdateListeners.CallHandler | src/core/vdom/helpers/update-listeners.js:41-56 | calling an invoker never throws and answers with its handler's result, or `undefined` |
| UpdateListeners.BoundInvokerCallsHandler | src/core/vdom/helpers/update-listeners.js:41-56 | the invoker a new key is bound to calls the key's handler: a single function's result comes back, `undefined` when it threw or for an array |
| UpdateListeners.Bind | src/core/vdom/helpers/update-listeners.js:101-109 | a handler that is not yet an invoker gets a fresh invoker holding it as `fns`; a `~` event then gets a fresh once-handler wrapping that invoker; existing objects are untouched |
| UpdateListeners.Update | src/core/vdom/helpers/update-listeners.js:69-134 | the whole diff: binds new keys, re-points surviving wrappers, removes vanished keys |
| UpdateListeners.UpdateBindings | src/core/vdom/helpers/update-listeners.js:69-134 | a key has a registered wrapper exactly when it has a handler, and surviving keys keep their wrapper |
| UpdateListeners.UpdateAdds | src/core/vdom/helpers/update-listeners.js:78-123 | a warning for every key without a handler; `add` exactly once for each key that has a handler now and had none before, in enumeration order, and for no other key |
| UpdateListeners.AddPassAddsInOrder | src/core/vdom/helpers/update-listeners.js:78-123 | the first loop's `add` calls are those of its new keys, one each, in enumeration order |
| UpdateListeners.UpdateRemoves | src/core/vdom/helpers/update-listeners.js:128-133 | `remove` is called exactly for the old keys that lost their handler, after every `add` |
| UpdateListeners.SurvivingInvokerReachesNewHandler | src/core/vdom/helpers/update-listeners.js:113-122 | a surviving binding is re-pointed (`old.fns = cur`), not re-registered |
| UpdateListeners.UpdateAgainstSelfIsQuiet | src/core/vdom/helpers/update-listeners.js:69-134 | diffing a processed record against itself makes no calls |
| UpdateListeners.OnceHandlerKeepsFirstTarget | src/core/vdom/helpers/update-listeners.js:107-121 | a re-pointed once-handler keeps calling the handler it was created with |
| Inject.InitProvide | src/core/instance/inject.js:15-22 | a function `provide` is called and its outcome is the provided value; any other truthy value is stored as is; a falsy one leaves `_provided` alone |
| Inject.ProvideReachesChildren | src/core/instance/inject.js:15-22 | what an instance provides is found by its children under each provided key |
| Inject.FindProvided | src/core/instance/inject.js:117-124 | the value comes from the nearest ancestor (or the instance itself) that owns the key |
| Inject.ResolveKey | src/core/instance/inject.js:109-142 | a provided value wins; otherwise a non-function default as is, or a function default's result, the key failing when it throws; otherwise nothing |
| Inject.ResolveInject | src/core/instance/inject.js:73-146 | keys found nowhere are left out; a throwing default aborts the whole resolution |
| Inject.InitInjections | src/core/instance/inject.js:30-71 | resolution starts at the parent; when it succeeds the injected record is exactly the resolved values, under exactly the keys that resolve |
| Inject.OwnProvideInvisible | src/core/instance/inject.js:30-35 | lookup starts at the parent |
| Inject.AllKeysFound | src/core/instance/inject.js:73-146 | when every injected key resolves, the result holds exactly the resolved values under exactly those keys |
| Inject.GrandchildInjection | src/core/instance/inject.js:73-146 | through an intermediate instance that provides nothing, a key provided higher up is found and a missing one takes its default |
| ClassUtil.Concat | src/platforms/web/util/class.js:59-61 | joined with one space, an empty side dropped |
| ClassUtil.ConcatAssoc | src/platforms/web/util/class.js:59-61 | `concat` is associative |
| ClassUtil.StringifyArray | src/platforms/web/util/class.js:77-87 | the loop skips empty renderings and joins the rest with single spaces, equal to the recursive definition |
| ClassUtil.StringifyItemsAppend | src/platforms/web/util/class.js:77-87 | rendering two lists one after the other is concatenating their renderings |
| ClassUtil.ArrayRendersFlat | src/platforms/web/util/class.js:63-87 | any class value renders as the list of its non-array leaves, so nesting of arrays never matters |
| ClassUtil.ObjectEmptyKeyQuirk | src/platforms/web/util/class.js:89-98 | a truthy empty key leaves a trailing space after the earlier keys |
| ClassUtil.RenderClassIsConcat | src/platforms/web/util/class.js:48-57 | `renderClass` is always the concatenation of the static and dynamic parts |
| ClassUtil.MergeClassData | src/platforms/web/util/class.js:36-46 | static classes are concatenated, child first; the dynamic part renders as the child's followed by the parent's |
| ClassUtil.GenClassOrder | src/platforms/web/util/class.js:10-34 | the rendered class lists all static classes (innermost component root, the vnode, then its placeholders outward), then the dynamic ones in the same order |
| ClassModule.WriteClass | src/platforms/web/runtime/modules/class.js:55-58 | the cache holds the target string afterwards; the attribute is written when the string changed |
| ClassModule.UpdateClass | src/platforms/web/runtime/modules/class.js:20-58 | the update skips only when neither the old nor the new vnode binds a class; otherwise it writes the generated class plus the transition classes |
| ClassModule.CreateClass | src/platforms/web/runtime/modules/class.js:61-64 | the create hook patches from an empty vnode |
| ClassModule.AsWrittenAgreesWithClassData | src/platforms/web/runtime/modules/class.js:20-38 | the code as written and the corrected code agree whenever the new vnode binds a class |
| ClassModule.UpdateClassIdempotent | src/platforms/web/runtime/modules/class.js:20-58 | a second identical update changes nothing |
| ClassModule.UpdateClassKeepsCache | src/platforms/web/runtime/modules/class.js:55-58 | the cached previous class stays in sync with the attribute |
| Ref.RemoveFirst | src/core/vdom/modules/ref.js:53-55 | one occurrence is removed, and only it |
| Ref.RemoveFirstSplits | src/core/vdom/modules/ref.js:53-55 | the first occurrence is spliced out and the others keep their order |
| Ref.RegisterRef | src/core/vdom/modules/ref.js:39-72 | other names are untouched; a plain ref sets the target; a `v-for` ref is appended to the array unless already listed, the others kept in order; removal splices it out of the array or unregisters it |
| Ref.Create | src/core/vdom/modules/ref.js:11-13 | the vnode's ref is registered |
| Ref.Update | src/core/vdom/modules/ref.js:19-24 | the registry is unchanged for the same ref; otherwise the old name is unregistered and the new one registered |
| Ref.Destroy | src/core/vdom/modules/ref.js:29-31 | the vnode's ref is unregistered |
| Ref.InForRegistrationIdempotent | src/core/vdom/modules/ref.js:61-67 | a `v-for` target is listed once, however often it registers |
| Ref.DestroySparesNewerOwner | src/core/vdom/modules/ref.js:53-58 | destroying an older owner leaves a newer owner of the same name registered |
| Ref.InForCreateThenDestroy | src/core/vdom/modules/ref.js:11-31 | create then destroy gives back the `v-for` array it started from |
| ResolveScopedSlots.Resolve | src/core/instance/render-helpers/resolve-scoped-slots.js:24-48 | `$stable` is set unless there are dynamic keys; `$key` is set when the content hash is truthy |
| ResolveScopedSlots.ResolveIntoIsFlatWrite | src/core/instance/render-helpers/resolve-scoped-slots.js:32-43 | resolving equals flattening the nested arrays and writing the entries in order |
| ResolveScopedSlots.ResolveLastWins | src/core/instance/render-helpers/resolve-scoped-slots.js:38-41 | a later entry with the same key overwrites an earlier one |
| ResolveScopedSlots.NestingIsTransparent | src/core/instance/render-helpers/resolve-scoped-slots.js:34-35 | nesting a slot list inside an array changes nothing |
| NormalizeScopedSlots.BuildResult | src/core/vdom/helpers/normalize-scoped-slots.js:40-52 | the result has exactly the truthy slot keys not starting with `$`, plus proxies for the remaining normal slots |
| NormalizeScopedSlots.Normalize | src/core/vdom/helpers/normalize-scoped-slots.js:13-63 | a cached `_normalized` result is returned as is |
| NormalizeScopedSlots.NormalizePaths | src/core/vdom/helpers/normalize-scoped-slots.js:23-62 | each of the three paths: what it returns, what it caches, and what it writes to the normal slots |
| NormalizeScopedSlots.SecondCallHitsCache | src/core/vdom/helpers/normalize-scoped-slots.js:25-27 | after a general-path call on extensible slots, the next call returns the same result |
| NormalizeScopedSlots.ProxiesReadNormalSlots | src/core/vdom/helpers/normalize-scoped-slots.js:48-52 | a proxy reads back the normal slot it was made for |
| NormalizeScopedSlots.PostProcess | src/core/vdom/helpers/normalize-scoped-slots.js:73-85 | a single vnode becomes a one-element list; an empty list or a lone comment becomes `undefined` |
| NormalizeScopedSlots.SlotReadsAgree | src/core/vdom/helpers/normalize-scoped-slots.js:65-105 | on the general path, calling a slot key's function post-processes what the user's function returns; for a `v-slot` without scope, reading the normal slot gives the same, so `$slots` and `$scopedSlots` agree |
| RenderSlot.SlotProps | src/core/instance/render-helpers/render-slot.js:29 | `props` entries override the `bindObject` entries |
| RenderSlot.Render | src/core/instance/render-helpers/render-slot.js:10-50 | a scoped slot's nodes (props merged over `bindObject`) else the fallback; otherwise the normal slot else the fallback; wrapped in a `template` exactly when the final props name a slot, with that slot |
| RenderSlot.BindObjectOnlyForScopedSlots | src/core/instance/render-helpers/render-slot.js:20-38 | without a scoped slot, `bindObject` and the slot function make no difference |
| RenderSlot.SlotTargetKeepsNodes | src/core/instance/render-helpers/render-slot.js:44-49 | a slot target wraps exactly the nodes that would be returned without it |
| RenderSlot.BoundSlotTargetWraps | src/core/instance/render-helpers/render-slot.js:29-46 | a `slot` key that comes only from `bindObject` still causes wrapping |
| BindObjectProps.Bind | src/core/instance/render-helpers/bind-object-props.js:26-35 | a falsy or primitive value leaves the data unchanged |
| BindObjectProps.BindWrites | src/core/instance/render-helpers/bind-object-props.js:33-79 | each key is written at most once, holding its bound value in a target hash; no hash gains any other key; `update:` listeners are added only for written keys, and none without `.sync`; every key of a bound object that was not written is turned away by a spelling some hash binds at the end |
| BindObjectProps.StepSpec | src/core/instance/render-helpers/bind-object-props.js:37-79 | one key is written into its target hash only if neither spelling is bound there; otherwise every hash stays as it was |
| BindObjectProps.ExistingBindingsKept | src/core/instance/render-helpers/bind-object-props.js:64-67 | existing bindings whose name is its own camelized or hyphenated form keep their value |
| BindObjectProps.StepWritesOrBlocks | src/core/instance/render-helpers/bind-object-props.js:64-67 | one key step only adds hash keys and either writes its key or leaves it turned away by a bound spelling |
| BindObjectProps.SyncSettersForWrittenKeys | src/core/instance/render-helpers/bind-object-props.js:72-77 | with `.sync`, every written key gets its `update:key` listener |
| BindObjectProps.RawKeyNotGuarded | src/core/instance/render-helpers/bind-object-props.js:64-67 | a binding under a spelling that is neither form of itself (`a-B`) gets overwritten |
| CreateComponent.MergeHook | src/core/vdom/create-component.js:337-345 | the merged hook calls the first hook's functions, then the second's, and is marked `_merged` |
| CreateComponent.InstallComponentHooks | src/core/vdom/create-component.js:284-335 | every component hook name is installed |
| CreateComponent.InstalledHooks | src/core/vdom/create-component.js:284-335 | an existing user hook is wrapped so the internal hook runs first; an already merged hook, or the internal hook itself, is kept |
| CreateComponent.UserHookRunsSecond | src/core/vdom/create-component.js:325-330 | a user hook runs after the internal one |
| CreateComponent.InstallIdempotent | src/core/vdom/create-component.js:284-335 | installing twice is installing once |
| CreateComponent.TransformModel | src/core/vdom/create-component.js:357-391 | the value lands in `attrs[prop]`; the callback is registered under the event |
| CreateComponent.ModelCallbackRegistered | src/core/vdom/create-component.js:370-390 | the callback alone when nothing was bound, in front of the old listeners when it was missing, else the old value unchanged |
| CreateComponent.TransformModelIdempotent | src/core/vdom/create-component.js:357-391 | transforming twice adds the callback once |
| CreateComponent.PlaceholderTag | src/core/vdom/create-component.js:242-248 | `vue-component-<cid>`, followed by `-<name>` when there is a name |
| CreateComponent.Create | src/core/vdom/create-component.js:127-259 | no constructor gives no vnode; an async placeholder exactly for a factory still loading, holding that factory; a functional constructor gives the functional tag; a placeholder has every hook installed, a non-functional constructor and the async factory it came from |
| CreateComponent.AsyncFactoryResolves | src/core/vdom/create-component.js:157-200 | a factory still loading gives its placeholder; once resolved, the same call gives the constructor's placeholder remembering the factory, or the functional tag |
| CreateComponent.ListenersMoveToPlaceholder | src/core/vdom/create-component.js:208-218 | the placeholder's listeners are the data's `on`, and the data keeps only the `.native` listeners |
| CreateComponent.DestroyHook | src/core/vdom/create-component.js:105-114 | a live instance is destroyed, or deactivated when it is kept alive |
| CreateComponent.DestroyHookSettles | src/core/vdom/create-component.js:105-114 | once the hook has destroyed an instance, running it again leaves the instance alone, kept alive or not; a kept-alive instance is deactivated and not destroyed, and a second run changes no flag |
| CreateElement.ShiftArgs | src/core/vdom/create-element.js:55-72 | an array or primitive `data` is taken as the children and the other arguments shift; `alwaysNormalize` forces full normalisation |
| CreateElement.ShiftedDataIsNeverChildren | src/core/vdom/create-element.js:63-67 | the shift happens at most once: shifting again changes nothing |
| CreateElement.ApplyNS | src/core/vdom/create-element.js:179-195 | the vnode takes the namespace; tag and child count are kept |
| CreateElement.ApplyNSIdempotent | src/core/vdom/create-element.js:179-195 | applying a namespace twice is applying it once |
| CreateElement.ChildNamespaces | src/core/vdom/create-element.js:183-194 | children without a namespace inherit it; inside `foreignObject`, every child but `svg` is forcibly reset |
| CreateElement.ScopedSlotChildren | src/core/vdom/create-element.js:114-120 | a function as the first child becomes `scopedSlots.default` and the children are emptied |
| CreateElement.Make | src/core/vdom/create-element.js:75-171 | observed data or a falsy tag gives an empty vnode; reserved and unknown tags give elements in the resolved namespace; the data passed on carries the scoped slot |
| CreateElement.Routing | src/core/vdom/create-element.js:82-161 | the routing rules: observed data, the `is` override, a falsy tag, reserved tags, registered components unless `pre`, non-string tags |
| CreateElement.IsOverridesTag | src/core/vdom/create-element.js:93-95 | with `data.is` set, the tag argument makes no difference to what `_createElement` produces |
| CreateElement.PlatformChildrenNamespaced | src/core/vdom/create-element.js:126-165 | a platform element created in a namespace gives every tagged child a namespace, unless it is `foreignObject` |
| VNodeHelpers.AsyncPlaceholder | src/core/vdom/helpers/is-async-placeholder.js:8-10 | `false` for a non-comment, the `asyncFactory` itself for a comment; truthy exactly for a comment with a factory |
| VNodeHelpers.FirstComponentChild | src/core/vdom/helpers/get-first-component-child.js:11-20 | `undefined` for a non-array; otherwise the first entry with component options or an async placeholder, every earlier entry failing that test |
| VNodeHelpers.FirstIndex | src/core/vdom/helpers/get-first-component-child.js:13-18 | reference definition: the index of the first component child |
| VNodeHelpers.FirstComponentChildIsFirstIndex | src/core/vdom/helpers/get-first-component-child.js:11-20 | the loop returns the entry at the reference index, and nothing exactly when there is none |
| VNodeHelpers.PlaceholderCounts | src/core/vdom/helpers/get-first-component-child.js:15 | a loading async component counts as a component child; a non-comment does not |
| Use.Use | src/core/global-api/use.js:15-33 | an installed plugin returns at once; otherwise `install` if it is a function, else the plugin itself if it is one, and the plugin is recorded unless the call threw |
| Use.UsePreservesUnique | src/core/global-api/use.js:16-32 | the installed list never holds a plugin twice |
| Use.SecondUseIsNoOp | src/core/global-api/use.js:15-18 | a second `use` of the same plugin makes no call and changes nothing |
| Use.ThrownInstallIsRetried | src/core/global-api/use.js:24-32 | a plugin whose install threw is not recorded, so it is called again next time |
| Use.InstallWinsOverCallingThePlugin | src/core/global-api/use.js:24-29 | `install` wins even when the plugin is itself a function |
| State.InitStateSteps | src/core/instance/state.js:67-91 | each step runs exactly when its option is truthy; data falls back to an empty observed object; watch is skipped when it is the native one |
| State.InitStateOrder | src/core/instance/state.js:67-91 | the steps run in the order props, methods, data, computed, watch |
| State.NativeWatchIsSkipped | src/core/instance/state.js:88-90 | the host's native `watch` never becomes watchers |
| State.GetData | src/core/instance/state.js:242-253 | a throwing data function gives `{}` |
| State.InitDataOf | src/core/instance/state.js:162-231 | `vm._data` is the function's result or `data \|\| {}`; a non-plain result is kept in `vm._data` while `{}` is observed; a key is proxied exactly when it is neither a prop nor reserved |
| State.ProxiedKeysReadData | src/core/instance/state.js:192-226 | proxied keys read back the data value |
| State.NonPlainDataResult | src/core/instance/state.js:170-186 | a non-object result stays in `vm._data` and nothing is proxied; a throwing function behaves as one returning `{}` |
| State.InitMethodsOf | src/core/instance/state.js:356-405 | each method key becomes the bound function, or `noop` for a non-function; other instance keys are untouched |
| State.MethodsAreCallable | src/core/instance/state.js:403 | every method slot is callable |
| State.CreateWatcher | src/core/instance/state.js:420-434 | a plain-object handler supplies the options and its `handler`; a string handler names an instance property |
| State.WatchersFor | src/core/instance/state.js:409-416 | one watcher per element of an array handler, otherwise one |
| State.WatchersPerKey | src/core/instance/state.js:407-418 | every watch key gets exactly as many watchers as its handler asks for |
| State.ObjectHandlerNamingMethod | src/core/instance/state.js:426-432 | a string inside an object handler is still resolved on the instance |
| State.DefineComputed | src/core/instance/state.js:298-327 | function definitions get no setter; object definitions get their `set` or `noop`; `cache: false` or server rendering gives an uncached invoker; no `get` gives `noop` |
| State.InitComputedOf | src/core/instance/state.js:257-296 | one lazy, dirty watcher per key unless server rendering, running the user's getter or a `noop` distinct from every user function; properties are defined only for keys not already on the instance |
| State.FirstReadRunsGetter | src/core/instance/state.js:275-280 | the first read of a computed without a getter gives `undefined`; with one, what calling the getter gives |
| State.ReadComputed | src/core/instance/state.js:329-342 | no watcher reads `undefined`; a dirty watcher re-evaluates; a clean one returns its cached value |
| State.ReadProperty | src/core/instance/state.js:329-348 | reading an installed computed property never adds or removes a watcher, and a read whose getter throws leaves every watcher as it was, the one read still dirty |
| State.CachedPropertyReads | src/core/instance/state.js:329-342 | a cached property's first read runs the watcher's getter; once that has returned, the next read returns the same value without calling anything, and after invalidation the getter runs again; after a throw the next read runs it again |
| State.ComputedPropertyReads | src/core/instance/state.js:257-348 | for every computed definition, a cached property sits on a fresh dirty watcher over `getter \|\| noop`; an uncached one calls the definition's getter on every read; one without a getter reads `undefined`; neither of the last two touches the watchers |
| State.Invalidate | src/core/instance/state.js:329-342 | invalidation marks only that watcher dirty |
| State.ComputedCaching | src/core/instance/state.js:329-342 | a second read without invalidation returns the cached value; after invalidation the value is recomputed |
| State.FirstReadEvaluates | src/core/instance/state.js:275-280 | the first read after initialisation evaluates the getter |

## Left out

- Reactivity internals (`observe`, `defineReactive`, the reactive `set`, `Watcher`, `Dep`, `traverse`, `toggleObserving`): observed objects and watchers are plain records of what they were created with.
- `registerDeepBindings` in create-element.js: it only calls `traverse`.
- The scheduler, patching and diffing: not part of these files.
- `proxy`, the `$data`/`$props` accessors, `$watch` itself, and instance creation and mounting in `componentVNodeHooks.init`, `prepatch` and `insert`: these are host-object and lifecycle plumbing. The hooks are installed as opaque internal hooks.
- `initProps` and `validateProp`: `validateProp` lives in a file that is not part of this model.
- Warnings, `tip` and the production/development split: no diagnostic changes a result. `handleError` is modelled only as "the error is reported and execution continues".
- Promise rejections of handlers (`invokeWithErrorHandling`): outcomes are a value or an exception.
- Re-entrancy: user handlers cannot modify the bus or the data while they run; their outcome is a parameter.
- Symbol keys, `Reflect.ownKeys` and `Object.prototype` names. For the `in` checks of `bindObjectProps` and `initComputed`, a record's keys are its own and inherited enumerable keys.
- Key order of records: the `for..in` order is an explicit `order`/`keys` parameter wherever it matters.
- `for..in` over strings and numbers in `extend` and `toObject`: primitives contribute no entries.
- Unicode case mapping: `camelize`, `hyphenate` and `capitalize` map ASCII letters only.
- Options.NormalizeProps: when two keys camelize to the same name, the source keeps the last one enumerated. Records here carry no order, so the contract only says that the kept definition belongs to one of them.
- Non-string `model.prop`/`model.event` and non-string component names: the model reads strings only.
- `resolveAsyncComponent` and `Vue.extend` (`baseCtor.extend`) are the parameters `resolveAsync` and `extend` of `CreateComponent.Create`.
- CreateComponent.Create: `resolveConstructorOptions` and `extractPropsFromVNodeData` are not modelled, so no `propsData` is computed, and the functional path returns the bare tag `Functional(ctor)` instead of calling `createFunctionalComponent`, which lives in a file that is not part of this model.
- MergeField: the strategies are fixed. In the source they are read from `config.optionMergeStrategies`, which user code may extend or override; a user strategy is not modelled.
- MergeOptions: the child must be a constructor or a record (RawShape), at every level of its `extends` and `mixins`. The source throws at `normalizeProps` for an `undefined` or `null` child, and for a plain function child, whose `options` is `undefined`. It accepts a primitive or an array child and merges its `for..in` indices. None of these children is modelled. A non-array `mixins` is ignored by the model; the source loops over its `length`, so a string merges each of its characters.
- MergeOptions: a child `watch` must be falsy, an object or a function (ChildFieldsShape). The source returns a truthy primitive `watch` unchanged when the parent has none. A later merge with no child `watch` then throws at `Object.create`. That throw is not modelled.
- MergeData: an array or function `from` is treated as having no keys, so `to` is returned unchanged, while the source copies an array's indices and `length`. A record `from` merged into an array or function `to` also leaves `to` unchanged, while the source's `set` writes the keys onto it.
- NormalizeInject: array syntax keeps only string elements. The source writes `{from: x}` for every element `x`, coercing a non-string to a property name.
- InjectNames: non-string elements are dropped, as for NormalizeInject.
- Inject.ResolveKey: `from` must be a string. A non-string `from`, which `hasOwn` would coerce to a property name, is outside the model.
- NormalizeProps: `normalizeProps` stores its result back into the child (`options.props = res`), and `normalizeInject` and `normalizeDirectives` do the same. The model normalises a copy, so an options object merged twice, such as a shared mixin, is normalised from its raw form both times. For `inject` and `directives` the two readings agree (NormalizeInjectIdempotent, NormalizeDirectivesIdempotent). For `props` they differ only for a name that camelizes again after one pass, as `a--b` does.
- NormalizeDirectives: a constructor given as `directives` is left unchanged. In the source `for..in` would visit its enumerable statics, and the function-valued ones (`extend`, `mixin`, `use`) would be rewritten.
- InitProvide: `provide.call(vm)` and a function `default.call(vm)` are modelled as the call's outcome; the `this` binding is not.
- CallHandler: a wrapper called through another wrapper is not followed. When an invoker's `fns` is another invoker or a once-handler, the model answers `undefined`, while the source returns what that inner wrapper returns and, for a once-handler, runs its handler. Only a wrapper registered directly on the bus (Events.EmitStep) or a bare invoker over user functions is followed.
- BindWrites: states that each written key holds its value in some target hash, not in which one. Which hash is chosen depends on `data.attrs.type` at that step; StepSpec states the choice for one key.
- Normalisation of children (`normalizeChildren`, `simpleNormalizeChildren`) and `config.isReservedTag`, `getTagNamespace`, `parsePlatformTagName` and `mustUseProp`: these are parameters.
- The arguments a scoped slot function is called with: its result is a parameter.
- CreateElement.Make: a truthy non-record `data` (a function, say) given together with function children does not receive the `scopedSlots` property in the model.
- CreateElement.Make: the component path's result is whatever the `createComponent` parameter returns. Only the routing to it is stated.
- State.InitComputedOf: a computed entry that is `null` or `undefined` makes the source throw on `.get`. The model reads `undefined` instead.
- `Vue.use` returns the constructor. The model returns the list and the call instead.
- The `debugger` statement at the top of `normalizeScopedSlots`, and Weex-only branches.

## Findings

| source | as written | input that shows it | evidently intended | confidence | as-written member | corrected member |
|---|---|---|---|---|---|---|
| src/platforms/web/runtime/modules/class.js:23 | the early exit reads `oldVnode.dat`, a property no vnode has, so only the new vnode's data is checked | the old vnode has `staticClass: "a"`; the new vnode has no class data; the element's class and cache are `"a"` | skip only when neither the old nor the new vnode binds a class, so removing the binding clears the class | not executed | ClassModule.UpdateClassAsWritten, ClassModule.StaleClassAfterUnbinding | ClassModule.UpdateClass |

=== FILE: bind_object_props.dfy ===
/**
 * `bindObjectProps` of src/core/instance/render-helpers/bind-object-props.js
 * (the `_b` render helper): spreads a `v-bind="object"` over a vnode's data,
 * routing each key to the data itself, `domProps` or `attrs`, and never
 * writing over a key already bound under its camelized or hyphenated name.
 */
module BindObjectProps {
  import opened JsValue

  /** A listener in `data.on`: one already there, or the `update:key` setter `.sync` adds. */
  datatype OnVal = Listener(v: Val) | SyncSetter(key: string)

  /**
   * The vnode data as the helper sees it: its other top-level keys, and the
   * `attrs`, `domProps` and `on` records when present.
   */
  datatype VData = VData(top: map<string, Val>, attrs: Option<map<string, Val>>, domProps: Option<map<string, Val>>,
                         on: Option<map<string, OnVal>>)

  /** Where a key goes. */
  datatype Target = TopLevel | DomProps | Attrs

  /** The helper's result: the data and the keys it wrote, in order. */
  datatype Bound = Bound(data: VData, written: seq<string>)

  /** `isReservedAttribute` */
  predicate IsReservedAttribute(key: string)
  {
    key in {"key", "ref", "slot", "slot-scope", "is"}
  }

  function HashOf(d: VData, t: Target): map<string, Val>
  {
    match t
    case TopLevel => d.top
    case DomProps => if d.domProps.Some? then d.domProps.value else map[]
    case Attrs => if d.attrs.Some? then d.attrs.value else map[]
  }

  function WithHash(d: VData, t: Target, h: map<string, Val>): (r: VData)
    ensures HashOf(r, t) == h
    ensures forall u :: u != t ==> HashOf(r, u) == HashOf(d, u)
    ensures r.on == d.on
  {
    match t
    case TopLevel => d.(top := h)
    case DomProps => d.(domProps := Some(h))
    case Attrs => d.(attrs := Some(h))
  }

  /** `data.attrs && data.attrs.type`, read afresh for every key. */
  function TypeAttr(d: VData): Val
  {
    if d.attrs.Some? then Get(d.attrs.value, "type") else Undef
  }

  /** The routing rule: class, style and reserved attributes on the data; else `domProps` or `attrs`. */
  function TargetOf(d: VData, tag: string, key: string, asProp: bool, mustUseProp: (string, Val, string) -> bool): Target
  {
    if key == "class" || key == "style" || IsReservedAttribute(key) then TopLevel
    else if asProp || mustUseProp(tag, TypeAttr(d), key) then DomProps
    else Attrs
  }

  /** `hash = data.domProps || (data.domProps = {})` and its `attrs` twin: the hash exists once chosen. */
  function Ensure(d: VData, t: Target): (r: VData)
    ensures HashOf(r, t) == HashOf(d, t)
    ensures forall u :: HashOf(r, u) == HashOf(d, u)
    ensures r.on == d.on
  {
    match t
    case TopLevel => d
    case DomProps => if d.domProps.Some? then d else d.(domProps := Some(map[]))
    case Attrs => if d.attrs.Some? then d else d.(attrs := Some(map[]))
  }

  /** The guard: neither spelling of the key is bound in the chosen hash. */
  predicate MayWrite(h: map<string, Val>, key: string)
  {
    Camelize(key) !in h && Hyphenate(key) !in h
  }

  /** One iteration of the `for..in` loop. */
  function Step(b: Bound, tag: string, entries: map<string, Val>, key: string, asProp: bool, isSync: bool,
                mustUseProp: (string, Val, string) -> bool): (r: Bound)
    requires key in entries
  {
    var t := TargetOf(b.data, tag, key, asProp, mustUseProp);
    var d := Ensure(b.data, t);
    var h := HashOf(d, t);
    if MayWrite(h, key) then
      var d1 := WithHash(d, t, h[key := entries[key]]);
      var d2 := if isSync then
                  var on := if d1.on.Some? then d1.on.value else map[];
                  d1.(on := Some(on["update:" + key := SyncSetter(key)]))
                else d1;
      Bound(d2, b.written + [key])
    else Bound(d, b.written)
  }

  /** The loop over the keys in enumeration order. */
  function Loop(b: Bound, tag: string, entries: map<string, Val>, keys: seq<string>, asProp: bool, isSync: bool,
                mustUseProp: (string, Val, string) -> bool): Bound
    requires forall i :: 0 <= i < |keys| ==> keys[i] in entries
    decreases |keys|
  {
    if |keys| == 0 then b
    else Loop(Step(b, tag, entries, keys[0], asProp, isSync, mustUseProp), tag, entries, keys[1..], asProp, isSync, mustUseProp)
  }

  /** `toObject(arr)`: the truthy elements' enumerable entries, later ones overriding. */
  function ToObject(items: seq<Val>): (r: map<string, Val>)
    ensures forall k :: k in r ==> exists i :: 0 <= i < |items| && Truthy(items[i]) && HasProp(items[i], k)
  {
    if |items| == 0 then map[]
    else
      var prefix := ToObject(items[..|items| - 1]);
      var last := items[|items| - 1];
      assert forall i :: 0 <= i < |items| - 1 ==> items[..|items| - 1][i] == items[i];
      if Truthy(last) then prefix + Flatten(last) else prefix
  }

  /** The enumerable entries of the bound value. */
  function Entries(value: Val): map<string, Val>
  {
    if value.Arr? then ToObject(value.items) else Flatten(value)
  }

  /**
   * `bindObjectProps(data, tag, value, asProp, isSync)`; `order` is the
   * `for..in` order of the value's keys, and `mustUseProp` the platform's
   * `config.mustUseProp`. A falsy or primitive value leaves the data as it is.
   */
  function Bind(data: VData, tag: string, value: Val, order: seq<string>, asProp: bool, isSync: bool,
                mustUseProp: (string, Val, string) -> bool): (r: Bound)
    requires NoDup(order) && forall k :: k in order <==> k in Entries(value)
    ensures !Truthy(value) || !IsObject(value) ==> r == Bound(data, [])
  {
    if !Truthy(value) || !IsObject(value) then Bound(data, [])
    else Loop(Bound(data, []), tag, Entries(value), order, asProp, isSync, mustUseProp)
  }

  // =====================================================================
  // laws
  // =====================================================================

  /** What one step does: it writes the key into its hash, or leaves every hash as it was. */
  lemma StepSpec(b: Bound, tag: string, entries: map<string, Val>, key: string, asProp: bool, isSync: bool,
                 mustUseProp: (string, Val, string) -> bool)
    requires key in entries
    ensures var r := Step(b, tag, entries, key, asProp, isSync, mustUseProp);
      var t := TargetOf(b.data, tag, key, asProp, mustUseProp);
      && (MayWrite(HashOf(b.data, t), key) ==>
            r.written == b.written + [key]
            && HashOf(r.data, t) == HashOf(b.data, t)[key := entries[key]]
            && (forall u :: u != t ==> HashOf(r.data, u) == HashOf(b.data, u)))
      && (!MayWrite(HashOf(b.data, t), key) ==>
            r.written == b.written && r.data.on == b.data.on && forall u :: HashOf(r.data, u) == HashOf(b.data, u))
  {
  }

  /** A key that equals one of its own spellings is never overwritten: its entry survives a step. */
  predicate Keeps(before: VData, after: VData)
  {
    forall t, k :: k in HashOf(before, t) && (Camelize(k) == k || Hyphenate(k) == k) ==>
      k in HashOf(after, t) && HashOf(after, t)[k] == HashOf(before, t)[k]
  }

  lemma {:induction false} LoopKeeps(b: Bound, tag: string, entries: map<string, Val>, keys: seq<string>, asProp: bool,
                                     isSync: bool, mustUseProp: (string, Val, string) -> bool)
    requires forall i :: 0 <= i < |keys| ==> keys[i] in entries
    ensures Keeps(b.data, Loop(b, tag, entries, keys, asProp, isSync, mustUseProp).data)
    decreases |keys|
  {
    if |keys| > 0 {
      var next := Step(b, tag, entries, keys[0], asProp, isSync, mustUseProp);
      StepKeeps(b, tag, entries, keys[0], asProp, isSync, mustUseProp);
      LoopKeeps(next, tag, entries, keys[1..], asProp, isSync, mustUseProp);
      KeepsTrans(b.data, next.data, Loop(next, tag, entries, keys[1..], asProp, isSync, mustUseProp).data);
    }
  }

  /** One step keeps every entry stored under one of its own spellings. */
  lemma StepKeeps(b: Bound, tag: string, entries: map<string, Val>, key: string, asProp: bool, isSync: bool,
                  mustUseProp: (string, Val, string) -> bool)
    requires key in entries
    ensures Keeps(b.data, Step(b, tag, entries, key, asProp, isSync, mustUseProp).data)
  {
    StepSpec(b, tag, entries, key, asProp, isSync, mustUseProp);
  }

  lemma KeepsTrans(a: VData, b: VData, c: VData)
    requires Keeps(a, b) && Keeps(b, c)
    ensures Keeps(a, c)
  {
  }

  /**
   * Existing bindings win: an entry already in the data, `attrs` or
   * `domProps` under a name that is its own camelized or hyphenated form
   * keeps its value.
   */
  lemma ExistingBindingsKept(data: VData, tag: string, value: Val, order: seq<string>, asProp: bool, isSync: bool,
                             mustUseProp: (string, Val, string) -> bool)
    requires NoDup(order) && forall k :: k in order <==> k in Entries(value)
    ensures Keeps(data, Bind(data, tag, value, order, asProp, isSync, mustUseProp).data)
  {
    if Truthy(value) && IsObject(value) {
      LoopKeeps(Bound(data, []), tag, Entries(value), order, asProp, isSync, mustUseProp);
    }
  }

  /** With `.sync`, a key that was written gets its `update:key` setter. */
  lemma {:induction false} LoopSyncSetters(b: Bound, tag: string, entries: map<string, Val>, keys: seq<string>,
                                           asProp: bool, mustUseProp: (string, Val, string) -> bool)
    requires forall i :: 0 <= i < |keys| ==> keys[i] in entries
    requires NoDup(keys)
    requires forall i :: 0 <= i < |keys| ==> keys[i] !in b.written
    requires b.data.on.Some? ==> forall k :: k in b.written ==> "update:" + k in b.data.on.value && b.data.on.value["update:" + k] == SyncSetter(k)
    requires |b.written| > 0 ==> b.data.on.Some?
    ensures var r := Loop(b, tag, entries, keys, asProp, true, mustUseProp);
      (|r.written| > 0 ==> r.data.on.Some?)
      && (r.data.on.Some? ==> forall k :: k in r.written ==> "update:" + k in r.data.on.value && r.data.on.value["update:" + k] == SyncSetter(k))
    decreases |keys|
  {
    if |keys| > 0 {
      var next := Step(b, tag, entries, keys[0], asProp, true, mustUseProp);
      forall k | k in next.written && next.data.on.Some?
        ensures "update:" + k in next.data.on.value && next.data.on.value["update:" + k] == SyncSetter(k)
      {
        if k != keys[0] {
          assert k in b.written;
          assert "update:" + k != "update:" + keys[0] by {
            assert ("update:" + k)[7..] == k;
            assert ("update:" + keys[0])[7..] == keys[0];
          }
        }
      }
      assert forall i :: 0 <= i < |keys[1..]| ==> keys[1..][i] !in next.written by {
        forall i | 0 <= i < |keys[1..]| ensures keys[1..][i] !in next.written {
          assert keys[1..][i] == keys[i + 1];
          assert keys[i + 1] != keys[0];
        }
      }
      LoopSyncSetters(next, tag, entries, keys[1..], asProp, mustUseProp);
    }
  }

  /** Every key `bindObjectProps` wrote with `isSync` has its `update:key` listener. */
  lemma SyncSettersForWrittenKeys(data: VData, tag: string, value: Val, order: seq<string>, asProp: bool,
                                  mustUseProp: (string, Val, string) -> bool)
    requires NoDup(order) && forall k :: k in order <==> k in Entries(value)
    ensures var r := Bind(data, tag, value, order, asProp, true, mustUseProp);
      forall k :: k in r.written ==> r.data.on.Some? && "update:" + k in r.data.on.value
                                     && r.data.on.value["update:" + k] == SyncSetter(k)
  {
    if Truthy(value) && IsObject(value) {
      LoopSyncSetters(Bound(data, []), tag, Entries(value), order, asProp, mustUseProp);
    }
  }

  /** The hash `t` of `d` holds `v` under `k`. */
  predicate In(d: VData, t: Target, k: string, v: Val)
  {
    k in HashOf(d, t) && HashOf(d, t)[k] == v
  }

  /** Some hash of `d` holds `v` under `k`. */
  predicate Holds(d: VData, k: string, v: Val)
  {
    In(d, TopLevel, k, v) || In(d, DomProps, k, v) || In(d, Attrs, k, v)
  }

  /**
   * What the loop has done so far, against the data `d0` it started from:
   * each key written once, each written key holding its bound value in
   * some hash, and no hash key other than the old ones and the written ones.
   */
  predicate Wrote(d0: VData, b: Bound, entries: map<string, Val>)
  {
    && NoDup(b.written)
    && (forall k :: k in b.written ==> k in entries && Holds(b.data, k, entries[k]))
    && (forall t, k :: k in HashOf(b.data, t) ==> k in HashOf(d0, t) || k in b.written)
  }

  /** The `update:` listeners are the old ones and those of written keys. */
  predicate SyncOnly(d0: VData, b: Bound)
  {
    b.data.on.Some? ==> forall e :: e in b.data.on.value ==>
      (d0.on.Some? && e in d0.on.value) || exists k :: k in b.written && e == "update:" + k
  }

  lemma StepWrote(d0: VData, b: Bound, tag: string, entries: map<string, Val>, key: string, asProp: bool, isSync: bool,
                  mustUseProp: (string, Val, string) -> bool)
    requires key in entries && key !in b.written
    requires Wrote(d0, b, entries)
    ensures Wrote(d0, Step(b, tag, entries, key, asProp, isSync, mustUseProp), entries)
  {
    StepSpec(b, tag, entries, key, asProp, isSync, mustUseProp);
    var r := Step(b, tag, entries, key, asProp, isSync, mustUseProp);
    var t := TargetOf(b.data, tag, key, asProp, mustUseProp);
    if MayWrite(HashOf(b.data, t), key) {
      assert In(r.data, t, key, entries[key]);
      forall k | k in r.written ensures k in entries && Holds(r.data, k, entries[k]) {
        if k != key {
          assert k in b.written;
          assert Holds(b.data, k, entries[k]);
        }
      }
    } else {
      forall k | k in r.written ensures Holds(r.data, k, entries[k]) {
        assert Holds(b.data, k, entries[k]);
      }
    }
  }

  lemma StepSyncOnly(d0: VData, b: Bound, tag: string, entries: map<string, Val>, key: string, asProp: bool, isSync: bool,
                     mustUseProp: (string, Val, string) -> bool)
    requires key in entries
    requires SyncOnly(d0, b)
    ensures var r := Step(b, tag, entries, key, asProp, isSync, mustUseProp);
      SyncOnly(d0, r) && (!isSync ==> r.data.on == b.data.on)
  {
    StepSpec(b, tag, entries, key, asProp, isSync, mustUseProp);
  }

  lemma {:induction false} LoopWrote(d0: VData, b: Bound, tag: string, entries: map<string, Val>, keys: seq<string>,
                                     asProp: bool, isSync: bool, mustUseProp: (string, Val, string) -> bool)
    requires forall i :: 0 <= i < |keys| ==> keys[i] in entries && keys[i] !in b.written
    requires NoDup(keys)
    requires Wrote(d0, b, entries) && SyncOnly(d0, b)
    ensures var r := Loop(b, tag, entries, keys, asProp, isSync, mustUseProp);
      Wrote(d0, r, entries) && SyncOnly(d0, r) && (!isSync ==> r.data.on == b.data.on)
    decreases |keys|
  {
    if |keys| > 0 {
      var next := Step(b, tag, entries, keys[0], asProp, isSync, mustUseProp);
      StepWrote(d0, b, tag, entries, keys[0], asProp, isSync, mustUseProp);
      StepSyncOnly(d0, b, tag, entries, keys[0], asProp, isSync, mustUseProp);
      assert forall i :: 0 <= i < |keys[1..]| ==> keys[1..][i] !in next.written by {
        forall i | 0 <= i < |keys[1..]| ensures keys[1..][i] !in next.written {
          assert keys[1..][i] == keys[i + 1];
          assert keys[i + 1] != keys[0];
        }
      }
      LoopWrote(d0, next, tag, entries, keys[1..], asProp, isSync, mustUseProp);
    }
  }

  /** Some hash of `d` already binds a spelling of `k`, so the guard turns `k` away. */
  predicate Blocked(d: VData, k: string)
  {
    exists t :: !MayWrite(HashOf(d, t), k)
  }

  /** No hash loses a key from `a` to `c`. */
  predicate Grows(a: VData, c: VData)
  {
    forall t, k :: k in HashOf(a, t) ==> k in HashOf(c, t)
  }

  /** A key turned away stays turned away once the hashes have only grown. */
  lemma BlockedGrows(a: VData, c: VData, k: string)
    requires Blocked(a, k) && Grows(a, c)
    ensures Blocked(c, k)
  {
    var t :| !MayWrite(HashOf(a, t), k);
    assert !MayWrite(HashOf(c, t), k);
  }

  /** One step only adds hash keys, keeps what was written, and either writes its key or finds it turned away. */
  lemma StepWritesOrBlocks(b: Bound, tag: string, entries: map<string, Val>, key: string, asProp: bool, isSync: bool,
                           mustUseProp: (string, Val, string) -> bool)
    requires key in entries
    ensures var r := Step(b, tag, entries, key, asProp, isSync, mustUseProp);
      && Grows(b.data, r.data)
      && (forall k :: k in b.written ==> k in r.written)
      && (key in r.written || Blocked(r.data, key))
  {
    StepSpec(b, tag, entries, key, asProp, isSync, mustUseProp);
    var r := Step(b, tag, entries, key, asProp, isSync, mustUseProp);
    var t := TargetOf(b.data, tag, key, asProp, mustUseProp);
    if !MayWrite(HashOf(b.data, t), key) {
      assert HashOf(r.data, t) == HashOf(b.data, t);
      assert !MayWrite(HashOf(r.data, t), key);
    }
  }

  lemma {:induction false} LoopWritesOrBlocks(b: Bound, tag: string, entries: map<string, Val>, keys: seq<string>,
                                              asProp: bool, isSync: bool, mustUseProp: (string, Val, string) -> bool)
    requires forall i :: 0 <= i < |keys| ==> keys[i] in entries
    ensures var r := Loop(b, tag, entries, keys, asProp, isSync, mustUseProp);
      && Grows(b.data, r.data)
      && (forall k :: k in b.written ==> k in r.written)
      && (forall k :: k in keys && k !in r.written ==> Blocked(r.data, k))
    decreases |keys|
  {
    if |keys| > 0 {
      var next := Step(b, tag, entries, keys[0], asProp, isSync, mustUseProp);
      var r := Loop(next, tag, entries, keys[1..], asProp, isSync, mustUseProp);
      StepWritesOrBlocks(b, tag, entries, keys[0], asProp, isSync, mustUseProp);
      LoopWritesOrBlocks(next, tag, entries, keys[1..], asProp, isSync, mustUseProp);
      if keys[0] !in r.written {
        BlockedGrows(next.data, r.data, keys[0]);
      }
      forall k | k in keys && k !in r.written
        ensures Blocked(r.data, k)
      {
        if k != keys[0] {
          assert k in keys[1..];
        }
      }
    }
  }

  /**
   * The whole input: each key is written at most once, and a written key
   * holds its bound value in some hash at the end; every key of every hash
   * was there before or was written; the data's listeners change only by
   * the `update:` setters of written keys, and not at all without `.sync`;
   * and a key of a bound object that was not written is one whose camelized
   * or hyphenated spelling some hash binds at the end.
   */
  lemma BindWrites(data: VData, tag: string, value: Val, order: seq<string>, asProp: bool, isSync: bool,
                   mustUseProp: (string, Val, string) -> bool)
    requires NoDup(order) && forall k :: k in order <==> k in Entries(value)
    ensures var r := Bind(data, tag, value, order, asProp, isSync, mustUseProp);
      && NoDup(r.written)
      && (forall k :: k in r.written ==> k in Entries(value) && Holds(r.data, k, Entries(value)[k]))
      && (forall t, k :: k in HashOf(r.data, t) ==> k in HashOf(data, t) || k in r.written)
      && SyncOnly(data, r)
      && (!isSync ==> r.data.on == data.on)
      && (Truthy(value) && IsObject(value) ==> forall k :: k in order && k !in r.written ==> Blocked(r.data, k))
  {
    if Truthy(value) && IsObject(value) {
      LoopWrote(data, Bound(data, []), tag, Entries(value), order, asProp, isSync, mustUseProp);
      LoopWritesOrBlocks(Bound(data, []), tag, Entries(value), order, asProp, isSync, mustUseProp);
    }
  }

  /**
   * The guard checks the camelized and hyphenated spellings, not the key as
   * given: an attribute bound as `a-B` (camelized `aB`, hyphenated `a-b`) is
   * overwritten by a `v-bind` object with the same key.
   */
  lemma RawKeyNotGuarded(mustUseProp: (string, Val, string) -> bool)
    requires !mustUseProp("div", Undef, "a-B")
    ensures var data := VData(map[], Some(map["a-B" := Num(1)]), None, None);
      var r := Bind(data, "div", Record(map["a-B" := Num(2)]), ["a-B"], false, false, mustUseProp);
      r.data.attrs == Some(map["a-B" := Num(2)])
  {
    MixedKeySpellings();
    var data := VData(map[], Some(map["a-B" := Num(1)]), None, None);
    assert TypeAttr(data) == Undef;
    var entries := map["a-B" := Num(2)];
    assert Entries(Record(entries)) == entries;
    assert TargetOf(data, "div", "a-B", false, mustUseProp) == Attrs;
    assert MayWrite(HashOf(data, Attrs), "a-B");
    assert Ensure(data, Attrs) == data;
    assert HashOf(data, Attrs) == map["a-B" := Num(1)];
    assert map["a-B" := Num(1)]["a-B" := Num(2)] == map["a-B" := Num(2)];
    assert WithHash(data, Attrs, map["a-B" := Num(2)]).attrs == Some(map["a-B" := Num(2)]);
    var b := Step(Bound(data, []), "div", entries, "a-B", false, false, mustUseProp);
    assert b.data.attrs == Some(map["a-B" := Num(2)]);
    assert ["a-B"][1..] == [];
    assert Loop(Bound(data, []), "div", entries, ["a-B"], false, false, mustUseProp) == Loop(b, "div", entries, [], false, false, mustUseProp);
  }

  /** `a-B` is neither its camelized nor its hyphenated form. */
  lemma MixedKeySpellings()
    ensures Camelize("a-B") == "aB" && Hyphenate("a-B") == "a-b"
  {
    assert Camelize("-B") == ['B'] + Camelize("");
    assert HyphenateAfter("B", false) == "b";
    assert HyphenateAfter("-B", true) == "-" + HyphenateAfter("B", false);
  }
}

=== FILE: class_module.dfy ===
/**
 * The `class` module of the web patch (src/platforms/web/runtime/modules/class.js):
 * on create and on update it regenerates a vnode's class string and writes
 * it to the element when it differs from the string written last time.
 */
module ClassModule {
  import opened JsValue
  import opened ClassUtil

  /**
   * The element a vnode renders to, as the module sees it: its `class`
   * attribute, the `_prevClass` cache, and `_transitionClasses`.
   */
  datatype Elem = Elem(classAttr: Option<string>, prevClass: Option<string>, transitionClasses: ClassVal)

  /** `_prevClass` mirrors the attribute once it has been written. */
  predicate CacheOk(el: Elem)
  {
    el.prevClass.Some? ==> el.classAttr == el.prevClass
  }

  /** Whether some class data is bound: a static or a dynamic class. */
  predicate HasClassData(d: Option<ClassData>)
  {
    d.Some? && (d.value.staticClass.Some? || IsDef(d.value.cls))
  }

  /** The class string written: the generated class, then the transition classes. */
  function TargetClass(vnode: VNode, el: Elem): string
    requires vnode.data.Some?
  {
    var cls := GenClassForVnode(vnode);
    if IsDef(el.transitionClasses) then Concat(cls, Stringify(el.transitionClasses)) else cls
  }

  /** The tail of `updateClass`: write when the string changed. */
  function WriteClass(vnode: VNode, el: Elem): (r: Elem)
    requires vnode.data.Some?
    ensures r.prevClass == Some(TargetClass(vnode, el))
    ensures CacheOk(el) ==> r.classAttr == Some(TargetClass(vnode, el))
    ensures r.transitionClasses == el.transitionClasses
  {
    var cls := TargetClass(vnode, el);
    if el.prevClass != Some(cls) then el.(classAttr := Some(cls), prevClass := Some(cls)) else el
  }

  /**
   * `updateClass` as written: the old data is read from `oldVnode.dat`, a
   * property no vnode has, so it is always undefined and the early exit
   * looks at the new data only.
   */
  function UpdateClassAsWritten(oldVnode: VNode, vnode: VNode, el: Elem): (r: Elem)
    requires vnode.data.Some?
    ensures !HasClassData(vnode.data) ==> r == el
  {
    var oldData: Option<ClassData> := None;
    if !HasClassData(vnode.data) && (oldData.None? || !HasClassData(oldData)) then el
    else WriteClass(vnode, el)
  }

  /** `updateClass` reading `oldVnode.data`: it skips only when neither vnode binds a class. */
  function UpdateClass(oldVnode: VNode, vnode: VNode, el: Elem): (r: Elem)
    requires vnode.data.Some?
    ensures !HasClassData(vnode.data) && !HasClassData(oldVnode.data) ==> r == el
    ensures HasClassData(vnode.data) || HasClassData(oldVnode.data) ==>
      r.prevClass == Some(TargetClass(vnode, el))
      && (CacheOk(el) ==> r.classAttr == Some(TargetClass(vnode, el)))
  {
    var oldData := oldVnode.data;
    if !HasClassData(vnode.data) && (oldData.None? || !HasClassData(oldData)) then el
    else WriteClass(vnode, el)
  }

  /** The create hook: patching from the empty vnode, which has no data. */
  function CreateClass(vnode: VNode, el: Elem): (r: Elem)
    requires vnode.data.Some?
    ensures HasClassData(vnode.data) ==> r.prevClass == Some(TargetClass(vnode, el))
    ensures !HasClassData(vnode.data) ==> r == el
  {
    UpdateClass(VNode(None, None, None), vnode, el)
  }

  /** Both versions agree whenever the new vnode binds a class, and on creation. */
  lemma AsWrittenAgreesWithClassData(oldVnode: VNode, vnode: VNode, el: Elem)
    requires vnode.data.Some?
    ensures HasClassData(vnode.data) ==> UpdateClassAsWritten(oldVnode, vnode, el) == UpdateClass(oldVnode, vnode, el)
    ensures UpdateClassAsWritten(VNode(None, None, None), vnode, el) == CreateClass(vnode, el)
  {
  }

  /** Updating twice with the same vnode changes nothing the second time. */
  lemma UpdateClassIdempotent(oldVnode: VNode, vnode: VNode, el: Elem)
    requires vnode.data.Some?
    ensures var once := UpdateClass(oldVnode, vnode, el);
      UpdateClass(oldVnode, vnode, once) == once
  {
  }

  /** With the cache in sync, the corrected update keeps it in sync. */
  lemma UpdateClassKeepsCache(oldVnode: VNode, vnode: VNode, el: Elem)
    requires vnode.data.Some? && CacheOk(el)
    ensures CacheOk(UpdateClass(oldVnode, vnode, el))
  {
  }

  /**
   * Removing the last class binding: the old vnode had `class="a"` and the
   * new one has none. As written the element keeps the stale `a`; the
   * corrected update clears the attribute to the empty string.
   */
  lemma StaleClassAfterUnbinding()
    ensures
      var oldVnode := VNode(Some(ClassData(Some("a"), CUndef)), None, None);
      var vnode := VNode(Some(ClassData(None, CUndef)), None, None);
      var el := Elem(Some("a"), Some("a"), CUndef);
      && UpdateClassAsWritten(oldVnode, vnode, el).classAttr == Some("a")
      && UpdateClass(oldVnode, vnode, el).classAttr == Some("")
  {
    var vnode := VNode(Some(ClassData(None, CUndef)), None, None);
    assert GenClassForVnode(vnode) == "";
  }
}

=== FILE: class_util.dfy ===
/**
 * Class-binding rendering of src/platforms/web/util/class.js: `concat`,
 * `stringifyClass` over strings, arrays and objects, `renderClass`,
 * `mergeClassData`, and `genClassForVnode`, which collects the class data
 * of a component's placeholder, its nested roots and its ancestors.
 */
module ClassUtil {
  import opened JsValue

  /** A `class` binding value; `CUndef`/`CNull` are `undefined`/`null`, `COther` numbers, booleans, functions. */
  datatype ClassVal =
    | CUndef
    | CNull
    | CStr(s: string)
    | CArr(items: seq<ClassVal>)
      /** An object binding as `for..in` enumerates it: each key with the truthiness of its value. */
    | CObj(entries: seq<(string, bool)>)
    | COther

  /** `isDef` */
  predicate IsDef(v: ClassVal)
  {
    !v.CUndef? && !v.CNull?
  }

  /** `concat(a, b)`: the two joined by a space, an empty side dropped. */
  function Concat(a: string, b: string): (r: string)
    ensures a == "" ==> r == b
    ensures b == "" ==> r == a
    ensures a != "" && b != "" ==> r == a + " " + b
  {
    if a != "" then (if b != "" then a + " " + b else a) else b
  }

  /** `concat` is associative, so nested concatenations can be regrouped freely. */
  lemma ConcatAssoc(a: string, b: string, c: string)
    ensures Concat(Concat(a, b), c) == Concat(a, Concat(b, c))
  {
    if a != "" && b != "" && c != "" {
      assert (a + " " + b) + " " + c == a + " " + (b + " " + c);
    }
  }

  /** `concat` of several strings, in order. */
  function ConcatAll(ss: seq<string>): string
  {
    if |ss| == 0 then "" else Concat(ss[0], ConcatAll(ss[1..]))
  }

  lemma {:induction false} ConcatAllAppend(a: seq<string>, b: seq<string>)
    ensures ConcatAll(a + b) == Concat(ConcatAll(a), ConcatAll(b))
    decreases |a|
  {
    if |a| == 0 {
      assert a + b == b;
    } else {
      assert (a + b)[1..] == a[1..] + b;
      ConcatAllAppend(a[1..], b);
      ConcatAssoc(a[0], ConcatAll(a[1..]), ConcatAll(b));
    }
  }

  /** `stringifyClass` */
  function Stringify(v: ClassVal): string
    decreases v
  {
    match v
    case CArr(items) => StringifyItems(items)
    case CObj(entries) => StringifyObject(entries)
    case CStr(s) => s
    case _ => ""
  }

  /** `stringifyArray`: the non-empty renderings of the elements, `concat`-ed. */
  function StringifyItems(items: seq<ClassVal>): string
    decreases items
  {
    if |items| == 0 then "" else Concat(Stringify(items[0]), StringifyItems(items[1..]))
  }

  /** One step of `stringifyObject`: a space if something precedes, then the key, even an empty one. */
  function ObjectStep(res: string, key: string): string
  {
    (if res != "" then res + " " else res) + key
  }

  /** `stringifyObject`: the keys whose values are truthy, in enumeration order. */
  function StringifyObject(entries: seq<(string, bool)>): string
  {
    if |entries| == 0 then ""
    else
      var res := StringifyObject(entries[..|entries| - 1]);
      var (key, truthy) := entries[|entries| - 1];
      if truthy then ObjectStep(res, key) else res
  }

  lemma {:induction false} StringifyItemsSnoc(items: seq<ClassVal>, x: ClassVal)
    ensures StringifyItems(items + [x]) == Concat(StringifyItems(items), Stringify(x))
    decreases |items|
  {
    if |items| == 0 {
      assert [x][1..] == [];
    } else {
      assert (items + [x])[1..] == items[1..] + [x];
      StringifyItemsSnoc(items[1..], x);
      ConcatAssoc(Stringify(items[0]), StringifyItems(items[1..]), Stringify(x));
    }
  }

  /** The loop of `stringifyArray`, which skips empty renderings and separates the others by one space. */
  method StringifyArray(value: seq<ClassVal>) returns (res: string)
    ensures res == Stringify(CArr(value))
  {
    res := "";
    var i := 0;
    while i < |value|
      invariant 0 <= i <= |value|
      invariant res == StringifyItems(value[..i])
    {
      var stringified := Stringify(value[i]);
      StringifyItemsSnoc(value[..i], value[i]);
      assert value[..i + 1] == value[..i] + [value[i]];
      if stringified != "" {
        if res != "" {
          res := res + " ";
        }
        res := res + stringified;
      }
      i := i + 1;
    }
    assert value[..|value|] == value;
  }

  /** The non-array values of a binding, in order, however deeply its arrays nest. */
  function Leaves(v: ClassVal): (r: seq<ClassVal>)
    decreases v
  {
    match v
    case CArr(items) => LeavesOf(items)
    case _ => [v]
  }

  function LeavesOf(items: seq<ClassVal>): (r: seq<ClassVal>)
    decreases items
  {
    if |items| == 0 then [] else Leaves(items[0]) + LeavesOf(items[1..])
  }

  /** No leaf is an array. */
  lemma {:induction false} LeavesAreFlat(v: ClassVal)
    ensures forall l :: l in Leaves(v) ==> !l.CArr?
    decreases v
  {
    match v
    case CArr(items) => LeavesOfAreFlat(items);
    case _ =>
  }

  lemma {:induction false} LeavesOfAreFlat(items: seq<ClassVal>)
    ensures forall l :: l in LeavesOf(items) ==> !l.CArr?
    decreases items
  {
    if |items| > 0 {
      LeavesAreFlat(items[0]);
      LeavesOfAreFlat(items[1..]);
    }
  }

  lemma {:induction false} StringifyItemsAppend(a: seq<ClassVal>, b: seq<ClassVal>)
    ensures StringifyItems(a + b) == Concat(StringifyItems(a), StringifyItems(b))
    decreases |a|
  {
    if |a| == 0 {
      assert a + b == b;
    } else {
      assert (a + b)[1..] == a[1..] + b;
      StringifyItemsAppend(a[1..], b);
      ConcatAssoc(Stringify(a[0]), StringifyItems(a[1..]), StringifyItems(b));
    }
  }

  /**
   * A binding renders as its leaves joined, and no leaf is an array: how
   * the arrays nest does not matter.
   */
  lemma {:induction false} ArrayRendersFlat(v: ClassVal)
    ensures Stringify(v) == StringifyItems(Leaves(v))
    ensures forall l :: l in Leaves(v) ==> !l.CArr?
    decreases v
  {
    LeavesAreFlat(v);
    match v
    case CArr(items) => ItemsRenderFlat(items);
    case _ =>
      assert [v][1..] == [];
  }

  lemma {:induction false} ItemsRenderFlat(items: seq<ClassVal>)
    ensures StringifyItems(items) == StringifyItems(LeavesOf(items))
    decreases items
  {
    if |items| > 0 {
      ArrayRendersFlat(items[0]);
      ItemsRenderFlat(items[1..]);
      StringifyItemsAppend(Leaves(items[0]), LeavesOf(items[1..]));
    }
  }

  /** An object binding with a truthy empty key leaves a trailing space after earlier keys. */
  lemma ObjectEmptyKeyQuirk()
    ensures Stringify(CObj([("a", true), ("", true)])) == "a "
    ensures Stringify(CObj([("a", true), ("b", false), ("c", true)])) == "a c"
  {
    var e := [("a", true), ("", true)];
    assert e[..1] == [("a", true)];
    assert e[..1][..0] == [];
    assert StringifyObject(e[..1]) == "a";
    assert StringifyObject(e) == ObjectStep("a", "");
    var f := [("a", true), ("b", false), ("c", true)];
    assert f[..2] == [("a", true), ("b", false)];
    assert f[..2][..1] == [("a", true)];
    assert f[..2][..1][..0] == [];
  }

  /** The class part of a vnode's `data`. */
  datatype ClassData = ClassData(staticClass: Option<string>, cls: ClassVal)

  /** A `?string` where `concat` treats `undefined` like `''`. */
  function OrEmpty(s: Option<string>): string
  {
    if s.Some? then s.value else ""
  }

  /** `renderClass(staticClass, dynamicClass)` */
  function RenderClass(staticClass: Option<string>, dynamicClass: ClassVal): (r: string)
  {
    if staticClass.Some? || IsDef(dynamicClass) then Concat(OrEmpty(staticClass), Stringify(dynamicClass))
    else ""
  }

  /** The definedness guard of `renderClass` changes nothing: it is always the concatenation. */
  lemma RenderClassIsConcat(staticClass: Option<string>, dynamicClass: ClassVal)
    ensures RenderClass(staticClass, dynamicClass) == Concat(OrEmpty(staticClass), Stringify(dynamicClass))
  {
  }

  /** `mergeClassData(child, parent)`: static classes concatenated, dynamic ones paired when the child has one. */
  function MergeClassData(child: ClassData, parent: ClassData): (r: ClassData)
    ensures r.staticClass == Some(Concat(OrEmpty(child.staticClass), OrEmpty(parent.staticClass)))
    ensures Stringify(r.cls) == Concat(Stringify(child.cls), Stringify(parent.cls))
  {
    assert [child.cls, parent.cls][1..] == [parent.cls];
    assert [parent.cls][1..] == [];
    assert StringifyItems([parent.cls]) == Stringify(parent.cls);
    assert Stringify(CArr([child.cls, parent.cls])) == Concat(Stringify(child.cls), Stringify(parent.cls));
    ClassData(Some(Concat(OrEmpty(child.staticClass), OrEmpty(parent.staticClass))),
              if IsDef(child.cls) then CArr([child.cls, parent.cls]) else parent.cls)
  }

  /**
   * A vnode as class generation sees it: its class data (`undefined` when
   * absent), the root vnode of its component instance if it is a component
   * placeholder, and its `parent` (the placeholder it is the root of).
   */
  datatype VNode = VNode(data: Option<ClassData>, componentRoot: Option<VNode>, parent: Option<VNode>)

  /** The first loop of `genClassForVnode`: merge each nested root's data in front, innermost last. */
  function MergeRoots(root: Option<VNode>, data: ClassData): ClassData
    decreases root
  {
    match root
    case None => data
    case Some(r) =>
      var d := if r.data.Some? then MergeClassData(r.data.value, data) else data;
      MergeRoots(r.componentRoot, d)
  }

  /** The second loop: merge each enclosing placeholder's data behind. */
  function MergeParents(data: ClassData, parent: Option<VNode>): ClassData
    decreases parent
  {
    match parent
    case None => data
    case Some(p) =>
      var d := if p.data.Some? then MergeClassData(data, p.data.value) else data;
      MergeParents(d, p.parent)
  }

  /** `genClassForVnode(vnode)` */
  function GenClassForVnode(v: VNode): string
    requires v.data.Some?
  {
    var d := MergeParents(MergeRoots(v.componentRoot, v.data.value), v.parent);
    RenderClass(d.staticClass, d.cls)
  }

  /** The class data of the nested roots, innermost first. */
  function RootChain(root: Option<VNode>): seq<ClassData>
    decreases root
  {
    match root
    case None => []
    case Some(r) => RootChain(r.componentRoot) + (if r.data.Some? then [r.data.value] else [])
  }

  /** The class data of the enclosing placeholders, nearest first. */
  function ParentChain(parent: Option<VNode>): seq<ClassData>
    decreases parent
  {
    match parent
    case None => []
    case Some(p) => (if p.data.Some? then [p.data.value] else []) + ParentChain(p.parent)
  }

  function Statics(ds: seq<ClassData>): seq<string>
  {
    if |ds| == 0 then [] else [OrEmpty(ds[0].staticClass)] + Statics(ds[1..])
  }

  function Dynamics(ds: seq<ClassData>): seq<string>
  {
    if |ds| == 0 then [] else [Stringify(ds[0].cls)] + Dynamics(ds[1..])
  }

  lemma {:induction false} StaticsAppend(a: seq<ClassData>, b: seq<ClassData>)
    ensures Statics(a + b) == Statics(a) + Statics(b)
    ensures Dynamics(a + b) == Dynamics(a) + Dynamics(b)
    decreases |a|
  {
    if |a| == 0 {
      assert a + b == b;
    } else {
      assert (a + b)[1..] == a[1..] + b;
      StaticsAppend(a[1..], b);
    }
  }

  /** What the merged data renders: its static part and its dynamic part, each a concatenation. */
  predicate RendersAs(d: ClassData, ds: seq<ClassData>)
  {
    OrEmpty(d.staticClass) == ConcatAll(Statics(ds)) && Stringify(d.cls) == ConcatAll(Dynamics(ds))
  }

  lemma {:induction false} MergeRootsRenders(root: Option<VNode>, data: ClassData, ds: seq<ClassData>)
    requires RendersAs(data, ds)
    ensures RendersAs(MergeRoots(root, data), RootChain(root) + ds)
    decreases root
  {
    match root
    case None =>
      assert RootChain(root) + ds == ds;
    case Some(r) =>
      var own := if r.data.Some? then [r.data.value] else [];
      var d := if r.data.Some? then MergeClassData(r.data.value, data) else data;
      assert RendersAs(d, own + ds) by {
        StaticsAppend(own, ds);
        ConcatAllAppend(Statics(own), Statics(ds));
        ConcatAllAppend(Dynamics(own), Dynamics(ds));
        if r.data.Some? {
          assert Statics(own) == [OrEmpty(r.data.value.staticClass)];
          assert Dynamics(own) == [Stringify(r.data.value.cls)];
        }
      }
      MergeRootsRenders(r.componentRoot, d, own + ds);
      assert RootChain(r.componentRoot) + (own + ds) == RootChain(root) + ds;
  }

  lemma {:induction false} MergeParentsRenders(data: ClassData, ds: seq<ClassData>, parent: Option<VNode>)
    requires RendersAs(data, ds)
    ensures RendersAs(MergeParents(data, parent), ds + ParentChain(parent))
    decreases parent
  {
    match parent
    case None =>
      assert ds + ParentChain(parent) == ds;
    case Some(p) =>
      var own := if p.data.Some? then [p.data.value] else [];
      var d := if p.data.Some? then MergeClassData(data, p.data.value) else data;
      assert RendersAs(d, ds + own) by {
        StaticsAppend(ds, own);
        ConcatAllAppend(Statics(ds), Statics(own));
        ConcatAllAppend(Dynamics(ds), Dynamics(own));
        if p.data.Some? {
          assert Statics(own) == [OrEmpty(p.data.value.staticClass)];
          assert Dynamics(own) == [Stringify(p.data.value.cls)];
        }
      }
      MergeParentsRenders(d, ds + own, p.parent);
      assert (ds + own) + ParentChain(p.parent) == ds + ParentChain(parent);
  }

  /**
   * The class a vnode gets: every static class along the chain — innermost
   * component root first, then the vnode, then its placeholders outward —
   * followed by every dynamic class in the same order.
   */
  lemma GenClassOrder(v: VNode)
    requires v.data.Some?
    ensures var chain := RootChain(v.componentRoot) + [v.data.value] + ParentChain(v.parent);
      GenClassForVnode(v) == Concat(ConcatAll(Statics(chain)), ConcatAll(Dynamics(chain)))
  {
    var own := [v.data.value];
    assert RendersAs(v.data.value, own) by {
      assert Statics(own) == [OrEmpty(v.data.value.staticClass)];
      assert Dynamics(own) == [Stringify(v.data.value.cls)];
    }
    MergeRootsRenders(v.componentRoot, v.data.value, own);
    MergeParentsRenders(MergeRoots(v.componentRoot, v.data.value), RootChain(v.componentRoot) + own, v.parent);
  }
}

=== FILE: create_component.dfy ===
/**
 * The data shaping of src/core/vdom/create-component.js: `transformModel`
 * (component `v-model` into a prop and a listener), `installComponentHooks`
 * with its `mergeHook`, the placeholder vnode `createComponent` builds, and
 * the decision of the `destroy` hook.
 */
module CreateComponent {
  import opened JsValue

  // =====================================================================
  // component vnode hooks
  // =====================================================================

  /** A vnode hook: one of the internal component hooks, a user hook, or a `mergeHook` pair (`_merged`). */
  datatype HookFn = Internal(name: string) | UserHook(id: FnId) | Merged(first: HookFn, second: HookFn)

  /** `Object.keys(componentVNodeHooks)` */
  const HooksToMerge: seq<string> := ["init", "prepatch", "insert", "destroy"]

  /** `mergeHook(f1, f2)`: a function marked `_merged` that calls `f1`, then `f2`. */
  function MergeHook(f1: HookFn, f2: HookFn): (r: HookFn)
    ensures r.Merged?
    ensures Calls(r) == Calls(f1) + Calls(f2)
  {
    Merged(f1, f2)
  }

  /** The functions a hook ends up calling, in order. */
  function Calls(h: HookFn): seq<HookFn>
  {
    match h
    case Merged(f1, f2) => Calls(f1) + Calls(f2)
    case _ => [h]
  }

  /** One iteration of `installComponentHooks`. */
  function InstallOne(hooks: map<string, HookFn>, key: string): (r: map<string, HookFn>)
    ensures r.Keys == hooks.Keys + {key}
    ensures forall k :: k in hooks && k != key ==> r[k] == hooks[k]
  {
    var toMerge := Internal(key);
    if key in hooks && (hooks[key] == toMerge || hooks[key].Merged?) then hooks
    else hooks[key := if key in hooks then MergeHook(toMerge, hooks[key]) else toMerge]
  }

  function InstallAll(hooks: map<string, HookFn>, keys: seq<string>): (r: map<string, HookFn>)
    ensures r.Keys == hooks.Keys + set k | k in keys
    decreases |keys|
  {
    if |keys| == 0 then hooks else InstallAll(InstallOne(hooks, keys[0]), keys[1..])
  }

  /** `installComponentHooks(data)`, on `data.hook` (created when absent). */
  function InstallComponentHooks(hook: Option<map<string, HookFn>>): (r: map<string, HookFn>)
    ensures forall k :: k in HooksToMerge ==> k in r
  {
    InstallAll(if hook.Some? then hook.value else map[], HooksToMerge)
  }

  /** What the loop leaves under one hook name, given what was there. */
  function InstalledHook(existing: Option<HookFn>, key: string): HookFn
  {
    if existing.None? then Internal(key)
    else if existing.value == Internal(key) || existing.value.Merged? then existing.value
    else Merged(Internal(key), existing.value)
  }

  lemma {:induction false} InstallAllSpec(hooks: map<string, HookFn>, keys: seq<string>, k: string)
    requires NoDup(keys)
    ensures var r := InstallAll(hooks, keys);
      && (k in keys ==> r[k] == InstalledHook(if k in hooks then Some(hooks[k]) else None, k))
      && (k !in keys && k in hooks ==> r[k] == hooks[k])
    decreases |keys|
  {
    if |keys| > 0 {
      var next := InstallOne(hooks, keys[0]);
      assert NoDup(keys[1..]) by {
        forall i, j | 0 <= i < j < |keys[1..]| ensures keys[1..][i] != keys[1..][j] {
          assert keys[1..][i] == keys[i + 1] && keys[1..][j] == keys[j + 1];
        }
      }
      InstallAllSpec(next, keys[1..], k);
      if k == keys[0] {
        assert k !in keys[1..] by {
          forall i | 0 <= i < |keys[1..]| ensures keys[1..][i] != k {
            assert keys[1..][i] == keys[i + 1];
          }
        }
      } else if k in keys {
        assert k in keys[1..] by {
          var i :| 0 <= i < |keys| && keys[i] == k;
          assert keys[1..][i - 1] == k;
        }
      }
    }
  }

  lemma HooksToMergeDistinct()
    ensures NoDup(HooksToMerge)
  {
    assert HooksToMerge[0][1..] != HooksToMerge[3][1..];
    forall i, j | 0 <= i < j < |HooksToMerge| ensures HooksToMerge[i] != HooksToMerge[j] {
      assert HooksToMerge[0][2] == 'i' && HooksToMerge[1][2] == 'e' && HooksToMerge[2][2] == 's' && HooksToMerge[3][2] == 's';
      assert |HooksToMerge[2]| == 6 && |HooksToMerge[3]| == 7;
    }
  }

  /**
   * After `installComponentHooks` every component hook is present; a user
   * hook is wrapped so that the internal hook runs first and the user hook
   * second; a hook already merged, or the internal hook itself, is kept.
   */
  lemma InstalledHooks(hooks: map<string, HookFn>, k: string)
    ensures var r := InstallComponentHooks(Some(hooks));
      && (k in HooksToMerge ==> r[k] == InstalledHook(if k in hooks then Some(hooks[k]) else None, k))
      && (k !in HooksToMerge && k in hooks ==> r[k] == hooks[k])
  {
    HooksToMergeDistinct();
    InstallAllSpec(hooks, HooksToMerge, k);
  }

  /** A user hook on a component hook name runs after the internal one. */
  lemma UserHookRunsSecond(hooks: map<string, HookFn>, k: string)
    requires k in HooksToMerge && k in hooks && hooks[k].UserHook?
    ensures Calls(InstallComponentHooks(Some(hooks))[k]) == [Internal(k), hooks[k]]
  {
    InstalledHooks(hooks, k);
    MergedUserHookCalls(k, hooks[k]);
  }

  lemma MergedUserHookCalls(k: string, u: HookFn)
    requires u.UserHook?
    ensures Calls(InstalledHook(Some(u), k)) == [Internal(k), u]
  {
  }

  lemma MapsAgree(a: map<string, HookFn>, b: map<string, HookFn>)
    requires a.Keys == b.Keys && forall k :: k in b ==> a[k] == b[k]
    ensures a == b
  {
  }

  /** Installing twice is installing once. */
  lemma InstallIdempotent(hooks: map<string, HookFn>)
    ensures var once := InstallComponentHooks(Some(hooks));
      InstallComponentHooks(Some(once)) == once
  {
    var once := InstallComponentHooks(Some(hooks));
    var twice := InstallComponentHooks(Some(once));
    var names := set k | k in HooksToMerge;
    assert once.Keys == hooks.Keys + names;
    assert twice.Keys == once.Keys + names;
    forall k | k in once
      ensures twice[k] == once[k]
    {
      InstalledHooks(hooks, k);
      InstalledHooks(once, k);
    }
    MapsAgree(twice, once);
  }

  // =====================================================================
  // transformModel
  // =====================================================================

  /** `(options.model && options.model[field]) || fallback`, for a string-valued field. */
  function ModelField(model: Val, field: string, fallback: string): string
  {
    if Truthy(model) && Truthy(Lookup(model, field)) && Lookup(model, field).Str? then Lookup(model, field).s
    else fallback
  }

  /** The `v-model` part of the component data: `attrs`, `on` and `model`. */
  datatype ModelData = ModelData(attrs: Option<map<string, Val>>, on: Option<map<string, Val>>, model: Val)

  /**
   * `transformModel(options, data)`: the model value becomes the prop,
   * the callback joins the listeners of the event, in front, unless it is
   * already there.
   */
  function TransformModel(optionsModel: Val, data: ModelData): (r: ModelData)
    ensures var prop := ModelField(optionsModel, "prop", "value");
      r.attrs.Some? && prop in r.attrs.value && r.attrs.value[prop] == Lookup(data.model, "value")
    ensures r.on.Some?
    ensures var event := ModelField(optionsModel, "event", "input");
      var prev := if data.on.Some? then data.on.value else map[];
      r.on.value.Keys == prev.Keys + {event}
      && (forall k :: k in prev && k != event ==> r.on.value[k] == prev[k])
  {
    var prop := ModelField(optionsModel, "prop", "value");
    var event := ModelField(optionsModel, "event", "input");
    var attrs := (if data.attrs.Some? then data.attrs.value else map[])[prop := Lookup(data.model, "value")];
    var on := if data.on.Some? then data.on.value else map[];
    var existing := Get(on, event);
    var callback := Lookup(data.model, "callback");
    var handler :=
      if IsDefined(existing) then
        if (if existing.Arr? then callback !in existing.items else existing != callback) then
          Arr([callback] + (if existing.Arr? then existing.items else [existing]))
        else existing
      else callback;
    ModelData(Some(attrs), Some(on[event := handler]), data.model)
  }

  /** Whether a listener value is the function, or, for an array, contains it (`indexOf`). */
  predicate Holds(h: Val, f: Val)
  {
    if h.Arr? then f in h.items else h == f
  }

  /**
   * The listener for the model event always reaches the callback: it is the
   * callback alone when nothing was bound, the callback in front of the old
   * listeners when it was missing, and the old value untouched otherwise.
   */
  lemma ModelCallbackRegistered(optionsModel: Val, data: ModelData)
    requires !Lookup(data.model, "callback").Arr?
    ensures var r := TransformModel(optionsModel, data);
      var event := ModelField(optionsModel, "event", "input");
      var callback := Lookup(data.model, "callback");
      var existing := Get(if data.on.Some? then data.on.value else map[], event);
      && Holds(r.on.value[event], callback)
      && (!IsDefined(existing) ==> r.on.value[event] == callback)
      && (IsDefined(existing) && !Holds(existing, callback) ==>
            r.on.value[event] == Arr([callback] + (if existing.Arr? then existing.items else [existing])))
      && (IsDefined(existing) && Holds(existing, callback) ==> r.on.value[event] == existing)
  {
  }

  /** Transforming twice adds the callback once. */
  lemma TransformModelIdempotent(optionsModel: Val, data: ModelData)
    requires !Lookup(data.model, "callback").Arr?
    ensures var once := TransformModel(optionsModel, data);
      TransformModel(optionsModel, once) == once
  {
    var once := TransformModel(optionsModel, data);
    var prop := ModelField(optionsModel, "prop", "value");
    var event := ModelField(optionsModel, "event", "input");
    assert once.attrs.value[prop := Lookup(data.model, "value")] == once.attrs.value;
    assert once.on.value[event := once.on.value[event]] == once.on.value;
  }

  // =====================================================================
  // createComponent
  // =====================================================================

  /** The component vnode data `createComponent` reads and rewrites. */
  datatype CompData = CompData(
    model: Val,
    attrs: Option<map<string, Val>>,
    on: Option<map<string, Val>>,
    nativeOn: Option<map<string, Val>>,
    slot: Val,
    hook: Option<map<string, HookFn>>,
    other: map<string, Val>)

  /** What `createComponent` returns. */
  datatype Created =
    | NoVNode
    | AsyncPlaceholder(factory: Val)
    | Functional(ctor: Val)
    | Placeholder(tag: string, data: CompData, listeners: Option<map<string, Val>>, ctor: Val, asyncFactory: Option<Val>)

  /** `isTrue(Ctor.options[flag])` */
  predicate OptionIsTrue(ctor: Val, flag: string)
  {
    ctor.Ctor? && Get(ctor.options, flag) == Bool(true)
  }

  /** `Ctor.options.name || tag`, when it is a string. */
  function ComponentName(ctor: Val, tag: Option<string>): Option<string>
  {
    var n := if ctor.Ctor? then Get(ctor.options, "name") else Undef;
    if Truthy(n) && n.Str? then Some(n.s)
    else if tag.Some? && tag.value != "" then tag
    else None
  }

  /** `vue-component-<cid>` with `-<name>` when there is a name. */
  function PlaceholderTag(cid: nat, name: Option<string>): (r: string)
    ensures StartsWith(r, "vue-component-")
  {
    var t := "vue-component-" + NatToString(cid) + (if name.Some? then "-" + name.value else "");
    assert t[..14] == "vue-component-";
    t
  }

  /** The data after the listeners move out: `data.on = data.nativeOn`, and an abstract component keeps only `slot`. */
  function ShapeData(d: CompData, ctor: Val): (r: CompData)
    ensures r.on == d.nativeOn || OptionIsTrue(ctor, "abstract")
    ensures OptionIsTrue(ctor, "abstract") ==>
      r == CompData(Undef, None, None, None, if Truthy(d.slot) then d.slot else Undef, None, map[])
  {
    var moved := d.(on := d.nativeOn);
    if OptionIsTrue(ctor, "abstract") then
      CompData(Undef, None, None, None, if Truthy(d.slot) then d.slot else Undef, None, map[])
    else moved
  }

  /** `Ctor` after `baseCtor.extend(Ctor)` has turned a plain options object into a constructor. */
  function Extended(ctorArg: Val, extend: Val -> Val): Val
  {
    if IsObject(ctorArg) then extend(ctorArg) else ctorArg
  }

  /**
   * `createComponent(Ctor, data, context, children, tag)`. Given as
   * parameters: `extend` (`baseCtor.extend` for a plain options object) and
   * `resolveAsync` (`resolveAsyncComponent`, `None` while pending). Options
   * already resolved on the constructor are read from `Ctor.options`.
   */
  function Create(ctorArg: Val, data: Option<CompData>, tag: Option<string>,
                  extend: Val -> Val, resolveAsync: Val -> Option<Val>): (r: Created)
    ensures ctorArg.Undef? || ctorArg.Null? ==> r == NoVNode
    ensures r.Placeholder? ==> r.ctor.Ctor? && StartsWith(r.tag, "vue-component-")
    ensures r.Placeholder? ==> forall k :: k in HooksToMerge ==> r.data.hook.Some? && k in r.data.hook.value
    ensures var c0 := Extended(ctorArg, extend);
      r.AsyncPlaceholder? <==>
        !ctorArg.Undef? && !ctorArg.Null? && IsFunction(c0) && !c0.Ctor? && resolveAsync(c0).None?
    ensures r.AsyncPlaceholder? ==> r.factory == Extended(ctorArg, extend)
    ensures r.Functional? ==> r.ctor.Ctor? && OptionIsTrue(r.ctor, "functional")
    ensures r.Placeholder? ==> !OptionIsTrue(r.ctor, "functional")
    ensures r.Placeholder? ==> var c0 := Extended(ctorArg, extend);
      r.asyncFactory == (if c0.Ctor? then None else Some(c0))
  {
    if ctorArg.Undef? || ctorArg.Null? then NoVNode
    else
      var c0 := Extended(ctorArg, extend);
      if !IsFunction(c0) then NoVNode
      else
        var resolved := if c0.Ctor? then Some(c0) else resolveAsync(c0);
        var asyncFactory := if c0.Ctor? then None else Some(c0);
        if resolved.None? then AsyncPlaceholder(c0)
        else
          var ctor := resolved.value;
          if !ctor.Ctor? then NoVNode
          else
            var d0 := if data.Some? then data.value else CompData(Undef, None, None, None, Undef, None, map[]);
            var d1 := if IsDefined(d0.model) then
                        var m := TransformModel(Get(ctor.options, "model"), ModelData(d0.attrs, d0.on, d0.model));
                        d0.(attrs := m.attrs, on := m.on)
                      else d0;
            if OptionIsTrue(ctor, "functional") then Functional(ctor)
            else
              var listeners := d1.on;
              var d2 := ShapeData(d1, ctor);
              var d3 := d2.(hook := Some(InstallComponentHooks(d2.hook)));
              Placeholder(PlaceholderTag(ctor.cid, ComponentName(ctor, tag)), d3, listeners, ctor, asyncFactory)
  }

  /**
   * The placeholder's component listeners are the data's `on` (after the
   * model transform), and the data keeps only the `.native` listeners.
   */
  lemma ListenersMoveToPlaceholder(ctor: Val, data: CompData, tag: Option<string>, extend: Val -> Val,
                                   resolveAsync: Val -> Option<Val>)
    requires ctor.Ctor? && !IsDefined(data.model)
    requires !OptionIsTrue(ctor, "functional") && !OptionIsTrue(ctor, "abstract")
    ensures var r := Create(ctor, Some(data), tag, extend, resolveAsync);
      r.Placeholder? && r.listeners == data.on && r.data.on == data.nativeOn
      && r.asyncFactory.None? && r.ctor == ctor
  {
  }

  /**
   * An async factory first yields the placeholder holding the factory;
   * once it resolves to a constructor, the same call yields that
   * constructor's placeholder (or its functional render), recording the
   * factory it came from.
   */
  lemma AsyncFactoryResolves(factory: Val, data: Option<CompData>, tag: Option<string>, extend: Val -> Val,
                             pending: Val -> Option<Val>, resolved: Val -> Option<Val>)
    requires factory.Fn? && pending(factory).None?
    requires resolved(factory).Some? && resolved(factory).value.Ctor?
    ensures Create(factory, data, tag, extend, pending) == AsyncPlaceholder(factory)
    ensures var r := Create(factory, data, tag, extend, resolved);
      && (OptionIsTrue(resolved(factory).value, "functional") ==> r == Functional(resolved(factory).value))
      && (!OptionIsTrue(resolved(factory).value, "functional") ==>
            r.Placeholder? && r.ctor == resolved(factory).value && r.asyncFactory == Some(factory))
  {
  }

  /** A named component's placeholder tag ends in its name. */
  lemma PlaceholderTagNamesComponent(cid: nat, name: string)
    requires name != ""
    ensures var t := PlaceholderTag(cid, Some(name));
      |t| > |name| + 14 && t[|t| - |name| - 1..] == "-" + name
  {
    var t := PlaceholderTag(cid, Some(name));
    assert t == ("vue-component-" + NatToString(cid)) + ("-" + name);
  }

  // =====================================================================
  // the destroy hook
  // =====================================================================

  datatype DestroyAction = LeaveAlone | CallDestroy | Deactivate

  /** `componentVNodeHooks.destroy`: a live instance is destroyed, or deactivated when kept alive. */
  function DestroyHook(isDestroyed: bool, keepAlive: bool): (r: DestroyAction)
    ensures r == LeaveAlone <==> isDestroyed
    ensures r == Deactivate <==> !isDestroyed && keepAlive
  {
    if !isDestroyed then (if !keepAlive then CallDestroy else Deactivate) else LeaveAlone
  }

  /**
   * The instance flags the destroy hook reads and writes: `$destroy` ends
   * with `_isDestroyed` set, and `deactivateChildComponent(vm, true)` sets
   * `_directInactive` and `_inactive`, leaving `_isDestroyed` alone. Both
   * live in lifecycle.js, which is not part of this model.
   */
  datatype Instance = Instance(isDestroyed: bool, inactive: bool)

  /** The destroy hook run on a vnode's instance: the action it takes and the flags afterwards. */
  function RunDestroy(vm: Instance, keepAlive: bool): (Instance, DestroyAction)
  {
    var a := DestroyHook(vm.isDestroyed, keepAlive);
    match a
    case LeaveAlone => (vm, a)
    case CallDestroy => (vm.(isDestroyed := true), a)
    case Deactivate => (vm.(inactive := true), a)
  }

  /**
   * Running the destroy hook twice: once an instance is destroyed, any
   * further destroy leaves it alone, whether or not the vnode is kept alive;
   * a kept-alive instance is deactivated again without being destroyed, and
   * the second run changes no flag.
   */
  lemma DestroyHookSettles(vm: Instance, keepAlive: bool, keepAlive2: bool)
    ensures var (after, a) := RunDestroy(vm, keepAlive);
      && (a == CallDestroy ==> after.isDestroyed && RunDestroy(after, keepAlive2) == (after, LeaveAlone))
      && (a == Deactivate ==> !after.isDestroyed && after.inactive)
      && (a == Deactivate && keepAlive2 ==> RunDestroy(after, keepAlive2) == (after, Deactivate))
      && RunDestroy(after, keepAlive).0 == after
  {
  }
}

=== FILE: create_element.dfy ===
/**
 * src/core/vdom/create-element.js: the argument shifting of `createElement`,
 * the dispatch of `_createElement` (empty vnode, platform element,
 * component, unknown element), and the namespace propagation of `applyNS`.
 */
module CreateElement {
  import opened JsValue
  import Options

  const SimpleNormalize: int := 1
  const AlwaysNormalize: int := 2

  // =====================================================================
  // createElement
  // =====================================================================

  /** The arguments `_createElement` receives after `createElement` adjusted them. */
  datatype Args = Args(data: Val, children: Val, normalizationType: Val)

  /**
   * `createElement(context, tag, data, children, normalizationType,
   * alwaysNormalize)`: an array or primitive in the `data` position is the
   * children, everything after moves one place left, and
   * `alwaysNormalize` forces full normalisation.
   */
  function ShiftArgs(data: Val, children: Val, normalizationType: Val, alwaysNormalize: bool): (r: Args)
    ensures alwaysNormalize ==> r.normalizationType == Num(AlwaysNormalize)
    ensures data.Arr? || IsPrimitive(data) ==>
      r.data == Undef && r.children == data && (!alwaysNormalize ==> r.normalizationType == children)
    ensures !(data.Arr? || IsPrimitive(data)) ==>
      r.data == data && r.children == children && (!alwaysNormalize ==> r.normalizationType == normalizationType)
  {
    var a := if data.Arr? || IsPrimitive(data) then Args(Undef, data, children) else Args(data, children, normalizationType);
    if alwaysNormalize then a.(normalizationType := Num(AlwaysNormalize)) else a
  }

  /** Shifting is only ever one place: the data slot never ends up holding an array or a primitive. */
  lemma ShiftedDataIsNeverChildren(data: Val, children: Val, normalizationType: Val, alwaysNormalize: bool)
    ensures var r := ShiftArgs(data, children, normalizationType, alwaysNormalize);
      !r.data.Arr? && !IsPrimitive(r.data)
      && ShiftArgs(r.data, r.children, r.normalizationType, alwaysNormalize) == r
  {
  }

  // =====================================================================
  // applyNS
  // =====================================================================

  /**
   * An element vnode as namespace propagation sees it; `hasChildren` is
   * `isDef(vnode.children)`, and `children` is empty when it is false.
   */
  datatype ENode = ENode(tag: Option<string>, ns: Option<string>, hasChildren: bool, children: seq<ENode>)

  /** A vnode built from a tag and possibly-undefined children. */
  function NewNode(tag: string, children: Option<seq<ENode>>): (r: ENode)
    ensures r.tag == Some(tag) && r.ns.None? && (r.hasChildren <==> children.Some?)
  {
    if children.Some? then ENode(Some(tag), None, true, children.value) else ENode(Some(tag), None, false, [])
  }

  /** Whether `applyNS` descends into a child. */
  predicate Descends(child: ENode, force: bool)
  {
    child.tag.Some? && (child.ns.None? || (force && child.tag != Some("svg")))
  }

  /** `applyNS(vnode, ns, force)`: inside `foreignObject` the default namespace is restored, forcibly. */
  function ApplyNS(v: ENode, ns: Option<string>, force: bool): (r: ENode)
    ensures r.ns == ns && r.tag == v.tag && r.hasChildren == v.hasChildren
    ensures |r.children| == |v.children|
    decreases v, 1
  {
    var inForeign := v.tag == Some("foreignObject");
    var ns' := if inForeign then None else ns;
    var force' := if inForeign then true else force;
    if v.hasChildren then ENode(v.tag, ns, true, ApplyEach(v.children, ns', force')) else v.(ns := ns)
  }

  /** The loop of `applyNS` over the children. */
  function ApplyEach(cs: seq<ENode>, ns: Option<string>, force: bool): (r: seq<ENode>)
    ensures |r| == |cs|
    ensures forall i :: 0 <= i < |cs| ==> r[i] == if Descends(cs[i], force) then ApplyNS(cs[i], ns, force) else cs[i]
    decreases cs, 0
  {
    if |cs| == 0 then []
    else [if Descends(cs[0], force) then ApplyNS(cs[0], ns, force) else cs[0]] + ApplyEach(cs[1..], ns, force)
  }

  /** Applying a namespace twice is applying it once. */
  lemma {:induction false} ApplyNSIdempotent(v: ENode, ns: Option<string>, force: bool)
    ensures ApplyNS(ApplyNS(v, ns, force), ns, force) == ApplyNS(v, ns, force)
    decreases v
  {
    if v.hasChildren {
      var inForeign := v.tag == Some("foreignObject");
      var ns' := if inForeign then None else ns;
      var force' := if inForeign then true else force;
      var cs := v.children;
      var c1 := ApplyNS(v, ns, force).children;
      var c2 := ApplyNS(ApplyNS(v, ns, force), ns, force).children;
      forall i | 0 <= i < |cs|
        ensures c2[i] == c1[i]
      {
        if Descends(cs[i], force') {
          ApplyNSIdempotent(cs[i], ns', force');
        }
      }
      assert c2 == c1;
    }
  }

  /**
   * Outside `foreignObject`, every tagged child without a namespace takes
   * the parent's; inside it, every tagged child but `svg` is reset to the
   * default namespace, and an `svg` child keeps a namespace it has; an
   * untagged (text or comment) child is never touched.
   */
  lemma ChildNamespaces(v: ENode, ns: Option<string>, force: bool, i: nat)
    requires v.hasChildren && i < |v.children|
    ensures var c := v.children[i];
      var r := ApplyNS(v, ns, force).children[i];
      && (v.tag != Some("foreignObject") && c.tag.Some? && c.ns.None? ==> r.ns == ns)
      && (v.tag == Some("foreignObject") && c.tag.Some? && c.tag != Some("svg") ==> r.ns.None?)
      && (v.tag == Some("foreignObject") && c.tag == Some("svg") && c.ns.Some? ==> r == c)
      && (c.tag.None? ==> r == c)
  {
  }

  // =====================================================================
  // _createElement
  // =====================================================================

  /** What `createComponent` gave back, as `_createElement` tells it apart. */
  datatype ComponentResult = NoComponentVNode | ComponentArray | ComponentVNode(node: ENode)

  /** What `_createElement` returns. */
  datatype Made = EmptyVNode | VNodeArray | Element(node: ENode, data: Val)

  /** Which branch built the vnode. */
  datatype Route = ToEmpty | ToPlatform | ToComponent | ToUnknown

  /** The platform hooks `_createElement` consults, given as parameters. */
  datatype Platform = Platform(
    isReservedTag: string -> bool,
    parsePlatformTagName: string -> string,
    getTagNamespace: string -> Option<string>,
    normalize: Val -> Val,
    simpleNormalize: Val -> Val,
    toNodes: Val -> Option<seq<ENode>>)

  /** `isDef(data) && isDef(data[key])` */
  predicate DataHas(data: Val, key: string)
  {
    IsDefined(data) && IsDefined(Lookup(data, key))
  }

  /** The tag after `data.is`. */
  function EffectiveTag(tag: Val, data: Val): Val
  {
    if DataHas(data, "is") then Lookup(data, "is") else tag
  }

  /** Single function children become the default scoped slot, and the children array is emptied. */
  function ScopedSlotChildren(data: Val, children: Val): (r: (Val, Val))
    ensures children.Arr? && |children.items| > 0 && IsFunction(children.items[0]) && (data.Obj? || !Truthy(data)) ==>
      r.0.Obj? && Lookup(Lookup(r.0, "scopedSlots"), "default") == children.items[0] && r.1 == Arr([])
    ensures !(children.Arr? && |children.items| > 0 && IsFunction(children.items[0])) ==> r == (data, children)
  {
    if children.Arr? && |children.items| > 0 && IsFunction(children.items[0]) then
      var d := if Truthy(data) then data else Record(map[]);
      var slots := Record(map["default" := children.items[0]]);
      var d' := if d.Obj? then d.(own := d.own["scopedSlots" := slots]) else d;
      (d', Arr([]))
    else (data, children)
  }

  /** `(context.$vnode && context.$vnode.ns) || config.getTagNamespace(tag)` */
  function Namespace(contextNs: Option<string>, tag: string, p: Platform): Option<string>
  {
    if contextNs.Some? && contextNs.value != "" then contextNs else p.getTagNamespace(tag)
  }

  /** The branch `_createElement` takes. */
  function RouteOf(componentsOptions: map<string, Val>, tag: Val, data: Val, p: Platform): (r: Route)
    requires Get(componentsOptions, "components").Obj?
  {
    if DataHas(data, "__ob__") then ToEmpty
    else
      var t := EffectiveTag(tag, data);
      if !Truthy(t) then ToEmpty
      else if !t.Str? then ToComponent
      else if p.isReservedTag(t.s) then ToPlatform
      else if (!Truthy(data) || !Truthy(Lookup(data, "pre")))
              && IsDefined(Options.ResolveAsset(componentsOptions, "components", t)) then ToComponent
      else ToUnknown
  }

  /** The children after `normalizeChildren` or `simpleNormalizeChildren`, as the normalisation type asks. */
  function Normalized(cs: Val, normalizationType: Val, p: Platform): Val
  {
    if normalizationType == Num(AlwaysNormalize) then p.normalize(cs)
    else if normalizationType == Num(SimpleNormalize) then p.simpleNormalize(cs)
    else cs
  }

  /**
   * `_createElement(context, tag, data, children, normalizationType)`.
   * `contextOptions` is `context.$options`, `contextNs` is
   * `context.$vnode && context.$vnode.ns`, and `createComponent(Ctor, data,
   * children, tag)` stands for the component path.
   */
  function Make(contextOptions: map<string, Val>, contextNs: Option<string>, tag: Val, data: Val, children: Val,
                normalizationType: Val, p: Platform, createComponent: (Val, Val, Val, Option<string>) -> ComponentResult): (r: Made)
    requires Get(contextOptions, "components").Obj?
    ensures var route := RouteOf(contextOptions, tag, data, p);
      var t := EffectiveTag(tag, data);
      && (route == ToEmpty ==> r == EmptyVNode)
      && (route == ToPlatform ==>
            r.Element? && r.node.tag == Some(p.parsePlatformTagName(t.s)) && r.node.ns == Namespace(contextNs, t.s, p))
      && (route == ToUnknown ==>
            r.Element? && r.node.tag == Some(t.s) && r.node.ns == Namespace(contextNs, t.s, p))
      && (r.Element? ==> r.data == ScopedSlotChildren(data, children).0)
      && (r.Element? && t.Str? && Namespace(contextNs, t.s, p).Some? ==> r.node.ns == Namespace(contextNs, t.s, p))
  {
    var route := RouteOf(contextOptions, tag, data, p);
    if route == ToEmpty then EmptyVNode
    else
      var t := EffectiveTag(tag, data);
      var (d, cs) := ScopedSlotChildren(data, children);
      var kids := Normalized(cs, normalizationType, p);
      var ns := if t.Str? then Namespace(contextNs, t.s, p) else None;
      var made :=
        if route == ToPlatform then ComponentVNode(NewNode(p.parsePlatformTagName(t.s), p.toNodes(kids)))
        else if route == ToUnknown then ComponentVNode(NewNode(t.s, p.toNodes(kids)))
        else if t.Str? then createComponent(Options.ResolveAsset(contextOptions, "components", t), d, kids, Some(t.s))
        else createComponent(t, d, kids, None);
      match made
      case ComponentArray => VNodeArray
      case NoComponentVNode => EmptyVNode
      case ComponentVNode(n) => Element(if ns.Some? then ApplyNS(n, ns, false) else n, d)
  }

  /**
   * The routing rules: observed data or a falsy tag give an empty vnode;
   * a non-string tag is a component; a reserved string tag is a platform
   * element; an unreserved tag resolving to a registered component is one
   * unless `data.pre`; anything else is an unknown element.
   */
  lemma Routing(contextOptions: map<string, Val>, tag: Val, data: Val, p: Platform)
    requires Get(contextOptions, "components").Obj?
    ensures var r := RouteOf(contextOptions, tag, data, p);
      var t := EffectiveTag(tag, data);
      && (DataHas(data, "__ob__") ==> r == ToEmpty)
      && (!DataHas(data, "__ob__") && !Truthy(t) ==> r == ToEmpty)
      && (!DataHas(data, "__ob__") && Truthy(t) && !t.Str? ==> r == ToComponent)
      && (!DataHas(data, "__ob__") && Truthy(t) && t.Str? && p.isReservedTag(t.s) ==> r == ToPlatform)
      && (r == ToUnknown ==>
            (t.Str? && !p.isReservedTag(t.s)
             && ((Truthy(data) && Truthy(Lookup(data, "pre")))
                 || !IsDefined(Options.ResolveAsset(contextOptions, "components", t)))))
      && (r == ToComponent && t.Str? ==>
            (!(Truthy(data) && Truthy(Lookup(data, "pre")))
             && IsDefined(Options.ResolveAsset(contextOptions, "components", t))))
  {
  }

  /** `data.is` wins over the tag argument: with it set, the tag passed in makes no difference. */
  lemma IsOverridesTag(contextOptions: map<string, Val>, contextNs: Option<string>, tag1: Val, tag2: Val, data: Val,
                       children: Val, normalizationType: Val, p: Platform,
                       createComponent: (Val, Val, Val, Option<string>) -> ComponentResult)
    requires Get(contextOptions, "components").Obj?
    requires DataHas(data, "is")
    ensures Make(contextOptions, contextNs, tag1, data, children, normalizationType, p, createComponent)
         == Make(contextOptions, contextNs, tag2, data, children, normalizationType, p, createComponent)
  {
    assert EffectiveTag(tag1, data) == EffectiveTag(tag2, data);
  }

  /**
   * A platform element created in a namespace passes it on: each of its
   * element children ends up in some namespace, its own or the parent's,
   * unless the element is a `foreignObject`.
   */
  lemma PlatformChildrenNamespaced(contextOptions: map<string, Val>, contextNs: Option<string>, tag: Val, data: Val,
                                   children: Val, normalizationType: Val, p: Platform,
                                   createComponent: (Val, Val, Val, Option<string>) -> ComponentResult)
    requires Get(contextOptions, "components").Obj?
    requires RouteOf(contextOptions, tag, data, p) == ToPlatform
    requires var t := EffectiveTag(tag, data);
      Namespace(contextNs, t.s, p).Some? && p.parsePlatformTagName(t.s) != "foreignObject"
    ensures var r := Make(contextOptions, contextNs, tag, data, children, normalizationType, p, createComponent);
      r.Element? && forall i :: 0 <= i < |r.node.children| && r.node.children[i].tag.Some? ==> r.node.children[i].ns.Some?
  {
    var r := Make(contextOptions, contextNs, tag, data, children, normalizationType, p, createComponent);
    var t := EffectiveTag(tag, data);
    var ns := Namespace(contextNs, t.s, p);
    var v := NewNode(p.parsePlatformTagName(t.s), p.toNodes(Normalized(ScopedSlotChildren(data, children).1, normalizationType, p)));
    assert r.node == ApplyNS(v, ns, false);
    forall i | 0 <= i < |r.node.children| && r.node.children[i].tag.Some? ensures r.node.children[i].ns.Some? {
      ChildNamespaces(v, ns, false, i);
    }
  }
}

=== FILE: events.dfy ===
/**
 * The instance event bus of src/core/instance/events.js: `$on`, `$once`,
 * `$off`, `$emit`, and `updateComponentListeners`, which applies the
 * listener diff to the bus.
 *
 * User handlers are functions by identity (`Handler`); calling one is the
 * parameter `call`, which cannot touch the bus. The wrappers the runtime
 * makes (`$once`'s `on`, the diff's once-handler) are modelled, since they
 * remove themselves.
 */
module Events {
  import opened JsValue
  import opened UpdateListeners

  /** The event argument of `$on` and `$off`: a name, or an array of such arguments. */
  datatype EventArg = Name(s: string) | Names(items: seq<EventArg>)

  /** A registered listener: a function, or the wrapper `on` that `$once` registers. */
  datatype Listener =
    | Plain(h: Handler)
      /** `$once`'s `on`, whose `fn` property holds the user's handler and which unregisters `ev`. */
    | OnceWrap(wid: nat, fn: Handler, ev: EventArg)

  /** `_events[name]`: `null` after `$off(name)`, or the array of listeners. */
  datatype Slot = Cleared | Listeners(ls: seq<Listener>)

  datatype Bus = Bus(events: map<string, Slot>, hasHookEvent: bool)

  /** What `$off`'s second argument picks out: a handler, or one `$once` wrapper. */
  datatype OffArg = ByHandler(h: Handler) | ByWrapper(wid: nat)

  /** A call of one listener during `$emit`, and whether it threw (the error is reported, not raised). */
  datatype Invocation = Invocation(l: Listener, threw: bool)

  /** `initEvents` before the parent's listeners are attached. */
  function InitEvents(): (b: Bus)
    ensures b.events == map[] && !b.hasHookEvent
  {
    Bus(map[], false)
  }

  /** The listeners `$emit` would see for `name`. */
  function ListenersOf(bus: Bus, name: string): seq<Listener>
  {
    if name in bus.events && bus.events[name].Listeners? then bus.events[name].ls else []
  }

  /** The names an event argument stands for, flattened in order. */
  function Flat(ev: EventArg): seq<string>
  {
    match ev
    case Name(s) => [s]
    case Names(items) => FlatEach(items)
  }

  function FlatEach(items: seq<EventArg>): seq<string>
  {
    if |items| == 0 then [] else Flat(items[0]) + FlatEach(items[1..])
  }

  /** `k` copies of `l`. */
  function Copies(l: Listener, k: nat): (r: seq<Listener>)
    ensures |r| == k && forall i :: 0 <= i < k ==> r[i] == l
  {
    seq(k, _ => l)
  }

  lemma CopiesAppend(l: Listener, i: nat, j: nat)
    ensures Copies(l, i + j) == Copies(l, i) + Copies(l, j)
  {
  }

  /** Some name in `names` is a `hook:` event. */
  predicate AnyHook(names: seq<string>)
  {
    exists s :: s in names && StartsWith(s, "hook:")
  }

  lemma AnyHookAppend(a: seq<string>, b: seq<string>)
    ensures AnyHook(a + b) <==> AnyHook(a) || AnyHook(b)
  {
    if AnyHook(a + b) {
      var s :| s in a + b && StartsWith(s, "hook:");
      assert s in a || s in b;
    }
    if AnyHook(a) {
      var s :| s in a && StartsWith(s, "hook:");
      assert s in a + b;
    }
    if AnyHook(b) {
      var s :| s in b && StartsWith(s, "hook:");
      assert s in a + b;
    }
  }

  // =====================================================================
  // $on, $once
  // =====================================================================

  /** `$on` with one name: append, creating the array if there is none; note `hook:` events. */
  function OnName(bus: Bus, name: string, l: Listener): (r: Bus)
    ensures ListenersOf(r, name) == ListenersOf(bus, name) + [l]
    ensures forall n :: n != name ==> ListenersOf(r, n) == ListenersOf(bus, n)
    ensures r.hasHookEvent <==> bus.hasHookEvent || StartsWith(name, "hook:")
  {
    Bus(bus.events[name := Listeners(ListenersOf(bus, name) + [l])],
        bus.hasHookEvent || StartsWith(name, "hook:"))
  }

  /**
   * `$on(event, fn)`: an array registers under each of its elements in
   * turn, so every name gains one copy of the listener per time it is
   * listed, after the listeners it had; other names are untouched.
   */
  function On(bus: Bus, ev: EventArg, l: Listener): (r: Bus)
    ensures forall n :: ListenersOf(r, n) == ListenersOf(bus, n) + Copies(l, multiset(Flat(ev))[n])
    ensures r.hasHookEvent <==> bus.hasHookEvent || AnyHook(Flat(ev))
    decreases ev
  {
    match ev
    case Name(s) =>
      OnNameCopies(bus, s, l);
      OnName(bus, s, l)
    case Names(items) => OnEach(bus, items, l)
  }

  function OnEach(bus: Bus, items: seq<EventArg>, l: Listener): (r: Bus)
    ensures forall n :: ListenersOf(r, n) == ListenersOf(bus, n) + Copies(l, multiset(FlatEach(items))[n])
    ensures r.hasHookEvent <==> bus.hasHookEvent || AnyHook(FlatEach(items))
    decreases items
  {
    if |items| == 0 then
      NoCopies(bus, l);
      bus
    else
      var b1 := On(bus, items[0], l);
      var r := OnEach(b1, items[1..], l);
      OnSteps(bus, b1, r, l, Flat(items[0]), FlatEach(items[1..]));
      AnyHookAppend(Flat(items[0]), FlatEach(items[1..]));
      r
  }

  lemma OnNameCopies(bus: Bus, s: string, l: Listener)
    ensures forall n :: ListenersOf(OnName(bus, s, l), n) == ListenersOf(bus, n) + Copies(l, multiset([s])[n])
    ensures AnyHook([s]) <==> StartsWith(s, "hook:")
  {
    forall n ensures ListenersOf(OnName(bus, s, l), n) == ListenersOf(bus, n) + Copies(l, multiset([s])[n]) {
      if n == s {
        assert Copies(l, 1) == [l];
      } else {
        assert ListenersOf(bus, n) + Copies(l, 0) == ListenersOf(bus, n);
      }
    }
    if AnyHook([s]) {
      var x :| x in [s] && StartsWith(x, "hook:");
    }
  }

  lemma NoCopies(bus: Bus, l: Listener)
    ensures forall n :: ListenersOf(bus, n) + Copies(l, multiset(FlatEach([]))[n]) == ListenersOf(bus, n)
    ensures !AnyHook(FlatEach([]))
  {
  }

  /** Two rounds of appending copies are one round for the joined name lists. */
  lemma OnSteps(b0: Bus, b1: Bus, b2: Bus, l: Listener, x: seq<string>, y: seq<string>)
    requires forall n :: ListenersOf(b1, n) == ListenersOf(b0, n) + Copies(l, multiset(x)[n])
    requires forall n :: ListenersOf(b2, n) == ListenersOf(b1, n) + Copies(l, multiset(y)[n])
    ensures forall n :: ListenersOf(b2, n) == ListenersOf(b0, n) + Copies(l, multiset(x + y)[n])
  {
    forall n ensures ListenersOf(b2, n) == ListenersOf(b0, n) + Copies(l, multiset(x + y)[n]) {
      assert multiset(x + y)[n] == multiset(x)[n] + multiset(y)[n];
      CopiesAppend(l, multiset(x)[n], multiset(y)[n]);
      ConcatAssoc(ListenersOf(b0, n), Copies(l, multiset(x)[n]), Copies(l, multiset(y)[n]));
    }
  }

  /** `$once(event, fn)`: registers a fresh wrapper `wid` that unregisters itself before calling `fn`. */
  function Once(bus: Bus, ev: EventArg, fn: Handler, wid: nat): (r: Bus)
    ensures forall n :: ListenersOf(r, n) == ListenersOf(bus, n) + Copies(OnceWrap(wid, fn, ev), multiset(Flat(ev))[n])
    ensures r.hasHookEvent <==> bus.hasHookEvent || AnyHook(Flat(ev))
  {
    On(bus, ev, OnceWrap(wid, fn, ev))
  }

  // =====================================================================
  // $off
  // =====================================================================

  /** `cb === fn || cb.fn === fn` */
  predicate Matches(l: Listener, a: OffArg)
  {
    match a
    case ByHandler(h) => l == Plain(h) || (l.OnceWrap? && l.fn == h)
    case ByWrapper(w) => l.OnceWrap? && l.wid == w
  }

  /** The backwards search of `$off`: the last matching listener is spliced out, if any. */
  function RemoveLast(ls: seq<Listener>, a: OffArg): (r: seq<Listener>)
    ensures |r| == |ls| || |r| == |ls| - 1
  {
    if |ls| == 0 then []
    else if Matches(ls[|ls| - 1], a) then ls[..|ls| - 1]
    else RemoveLast(ls[..|ls| - 1], a) + [ls[|ls| - 1]]
  }

  /** Without a match `$off` changes nothing. */
  lemma {:induction false} RemoveLastNoMatch(ls: seq<Listener>, a: OffArg)
    requires forall i :: 0 <= i < |ls| ==> !Matches(ls[i], a)
    ensures RemoveLast(ls, a) == ls
  {
    if |ls| > 0 {
      RemoveLastNoMatch(ls[..|ls| - 1], a);
      assert ls[..|ls| - 1] + [ls[|ls| - 1]] == ls;
    }
  }

  /** With a match, exactly the last matching listener is spliced out and the rest keep their order. */
  lemma {:induction false} RemoveLastSplices(ls: seq<Listener>, a: OffArg, i: nat)
    requires i < |ls| && Matches(ls[i], a)
    requires forall j :: i < j < |ls| ==> !Matches(ls[j], a)
    ensures RemoveLast(ls, a) == ls[..i] + ls[i + 1..]
  {
    var n := |ls| - 1;
    if i < n {
      RemoveLastSplices(ls[..n], a, i);
      assert ls[..n][..i] == ls[..i];
      assert ls[..n][i + 1..] + [ls[n]] == ls[i + 1..];
    }
  }

  /** `$off(name, fn)` for one name. */
  function OffName(bus: Bus, name: string, a: Option<OffArg>): (r: Bus)
    ensures r.hasHookEvent == bus.hasHookEvent
    ensures forall n :: n != name ==> ListenersOf(r, n) == ListenersOf(bus, n)
    ensures a.None? ==> ListenersOf(r, name) == []
    ensures a.Some? ==> ListenersOf(r, name) == RemoveLast(ListenersOf(bus, name), a.value)
  {
    if name !in bus.events || bus.events[name].Cleared? then bus
    else if a.None? then Bus(bus.events[name := Cleared], bus.hasHookEvent)
    else Bus(bus.events[name := Listeners(RemoveLast(bus.events[name].ls, a.value))], bus.hasHookEvent)
  }

  /** `k` rounds of `$off(name, fn)` on the listeners `ls`: without `fn` the first round empties them. */
  function OffResult(ls: seq<Listener>, a: Option<OffArg>, k: nat): seq<Listener>
    decreases k
  {
    if k == 0 then ls
    else if a.None? then []
    else OffResult(RemoveLast(ls, a.value), a, k - 1)
  }

  lemma {:induction false} OffResultAdd(ls: seq<Listener>, a: Option<OffArg>, i: nat, j: nat)
    ensures OffResult(OffResult(ls, a, i), a, j) == OffResult(ls, a, i + j)
    decreases i
  {
    if i > 0 && a.Some? {
      OffResultAdd(RemoveLast(ls, a.value), a, i - 1, j);
    } else if i > 0 {
      assert OffResult(ls, a, i) == [];
      assert OffResult([], a, j) == [];
    }
  }

  /**
   * `$off(event, fn)`; a missing `fn` clears the event. An array applies
   * `$off` to each of its names in turn, so every name loses one matching
   * listener per time it is listed (all of them without `fn`), and names
   * not listed keep theirs.
   */
  function Off(bus: Bus, ev: EventArg, a: Option<OffArg>): (r: Bus)
    ensures r.hasHookEvent == bus.hasHookEvent
    ensures forall n :: ListenersOf(r, n) == OffResult(ListenersOf(bus, n), a, multiset(Flat(ev))[n])
    decreases ev
  {
    match ev
    case Name(s) =>
      OffNameResult(bus, s, a);
      OffName(bus, s, a)
    case Names(items) => OffEach(bus, items, a)
  }

  function OffEach(bus: Bus, items: seq<EventArg>, a: Option<OffArg>): (r: Bus)
    ensures r.hasHookEvent == bus.hasHookEvent
    ensures forall n :: ListenersOf(r, n) == OffResult(ListenersOf(bus, n), a, multiset(FlatEach(items))[n])
    decreases items
  {
    if |items| == 0 then bus
    else
      var b1 := Off(bus, items[0], a);
      var r := OffEach(b1, items[1..], a);
      OffSteps(bus, b1, r, a, Flat(items[0]), FlatEach(items[1..]));
      r
  }

  lemma OffNameResult(bus: Bus, s: string, a: Option<OffArg>)
    ensures forall n :: ListenersOf(OffName(bus, s, a), n) == OffResult(ListenersOf(bus, n), a, multiset([s])[n])
  {
  }

  /** Two rounds of `$off` are one round for the joined name lists. */
  lemma OffSteps(b0: Bus, b1: Bus, b2: Bus, a: Option<OffArg>, x: seq<string>, y: seq<string>)
    requires forall n :: ListenersOf(b1, n) == OffResult(ListenersOf(b0, n), a, multiset(x)[n])
    requires forall n :: ListenersOf(b2, n) == OffResult(ListenersOf(b1, n), a, multiset(y)[n])
    ensures forall n :: ListenersOf(b2, n) == OffResult(ListenersOf(b0, n), a, multiset(x + y)[n])
  {
    forall n ensures ListenersOf(b2, n) == OffResult(ListenersOf(b0, n), a, multiset(x + y)[n]) {
      assert multiset(x + y)[n] == multiset(x)[n] + multiset(y)[n];
      OffResultAdd(ListenersOf(b0, n), a, multiset(x)[n], multiset(y)[n]);
    }
  }

  /** `$off()` with no arguments: every event loses its listeners; the hook flag stays. */
  function OffAll(bus: Bus): (r: Bus)
    ensures forall n :: ListenersOf(r, n) == []
    ensures r.hasHookEvent == bus.hasHookEvent
  {
    Bus(map[], bus.hasHookEvent)
  }

  // =====================================================================
  // $emit
  // =====================================================================

  /**
   * Calls one listener of the snapshot and says whether it threw (the error
   * is reported, not raised). A `$once` wrapper first unregisters itself;
   * the diff's once-handler calls its inner handler and then unregisters
   * itself unless that returned `null`.
   */
  function EmitStep(bus: Bus, heap: Heap, l: Listener, call: Handler -> Ret): (r: (Bus, bool))
    ensures r.0.hasHookEvent == bus.hasHookEvent
    ensures l.OnceWrap? ==> r == (Off(bus, l.ev, Some(ByWrapper(l.wid))), call(l.fn).Threw?)
    ensures l.Plain? && l.h.Ref? && l.h.id in heap.objs && heap.objs[l.h.id].Invoker? ==> r == (bus, false)
  {
    match l
    case OnceWrap(w, fn, ev) =>
      (Off(bus, ev, Some(ByWrapper(w))), call(fn).Threw?)
    case Plain(h) =>
      if h.Ref? && h.id in heap.objs && heap.objs[h.id].OnceWrapper? then
        var res := CallHandler(heap, heap.objs[h.id].inner, call);
        if res.Returned? && res.v != Null then
          (OffName(bus, heap.objs[h.id].event, Some(ByHandler(h))), false)
        else (bus, res.Threw?)
      else (bus, CallHandler(heap, h, call).Threw?)
  }

  /** Calls the snapshot `snap` of the listeners from index `i` on; a failure does not stop the loop. */
  function EmitFrom(bus: Bus, heap: Heap, name: string, snap: seq<Listener>, i: nat, call: Handler -> Ret)
    : (r: (Bus, seq<Invocation>))
    requires i <= |snap|
    ensures |r.1| == |snap| - i
    ensures forall j :: 0 <= j < |r.1| ==> r.1[j].l == snap[i + j]
    ensures r.0.hasHookEvent == bus.hasHookEvent
    decreases |snap| - i
  {
    if i == |snap| then (bus, [])
    else
      var (bus', threw) := EmitStep(bus, heap, snap[i], call);
      var (final, rest) := EmitFrom(bus', heap, name, snap, i + 1, call);
      (final, [Invocation(snap[i], threw)] + rest)
  }

  /** `$emit(name)`: every listener registered when the emit starts is called once, in order. */
  function Emit(bus: Bus, heap: Heap, name: string, call: Handler -> Ret): (r: (Bus, seq<Invocation>))
    ensures |r.1| == |ListenersOf(bus, name)|
    ensures forall j :: 0 <= j < |r.1| ==> r.1[j].l == ListenersOf(bus, name)[j]
  {
    EmitFrom(bus, heap, name, ListenersOf(bus, name), 0, call)
  }

  // =====================================================================
  // updateComponentListeners
  // =====================================================================

  /** What one call of the diff does to the listeners of the event `n`. */
  function OpAt(ls: seq<Listener>, o: Op, n: string): seq<Listener>
  {
    match o
    case Warn(_) => ls
    case Add(e, h, _, _) => if e == n then ls + [Plain(h)] else ls
    case Remove(e, h, _) => if e != n then ls else if h.Missing? then [] else RemoveLast(ls, ByHandler(h))
  }

  /** What the calls `ops` do, in order, to the listeners of the event `n`. */
  function ApplyAt(ls: seq<Listener>, ops: seq<Op>, n: string): seq<Listener>
    decreases |ops|
  {
    if |ops| == 0 then ls else ApplyAt(OpAt(ls, ops[0], n), ops[1..], n)
  }

  /**
   * Performs the `add`/`remove` calls of the diff as `$on`/`$off` on the
   * component: each event's listeners see only the calls for that event.
   */
  function ApplyOps(bus: Bus, ops: seq<Op>): (r: Bus)
    ensures forall n :: ListenersOf(r, n) == ApplyAt(ListenersOf(bus, n), ops, n)
    decreases |ops|
  {
    if |ops| == 0 then bus
    else
      var bus' :=
        match ops[0]
        case Warn(_) => bus
        case Add(name, h, _, _) => OnName(bus, name, Plain(h))
        case Remove(name, h, _) => OffName(bus, name, if h.Missing? then None else Some(ByHandler(h)));
      assert forall n :: ListenersOf(bus', n) == OpAt(ListenersOf(bus, n), ops[0], n);
      ApplyOps(bus', ops[1..])
  }

  lemma {:induction false} ApplyAtAppend(ls: seq<Listener>, a: seq<Op>, b: seq<Op>, n: string)
    ensures ApplyAt(ls, a + b, n) == ApplyAt(ApplyAt(ls, a, n), b, n)
    decreases |a|
  {
    if |a| == 0 {
      assert a + b == b;
    } else {
      assert (a + b)[1..] == a[1..] + b;
      ApplyAtAppend(OpAt(ls, a[0], n), a[1..], b, n);
    }
  }

  /** Calls for other events leave the listeners of `n` alone. */
  lemma {:induction false} ApplyAtUntouched(ls: seq<Listener>, ops: seq<Op>, n: string)
    requires forall i :: 0 <= i < |ops| && !ops[i].Warn? ==> ops[i].event != n
    ensures ApplyAt(ls, ops, n) == ls
    decreases |ops|
  {
    if |ops| > 0 {
      ApplyAtUntouched(ls, ops[1..], n);
    }
  }

  /** Without a `remove` for `n`, a listener of `n` stays, and every `add` for `n` registers its handler. */
  lemma {:induction false} ApplyAtRegisters(ls: seq<Listener>, ops: seq<Op>, n: string, h: Handler)
    requires forall i :: 0 <= i < |ops| && ops[i].Remove? ==> ops[i].event != n
    requires Plain(h) in ls || exists i :: 0 <= i < |ops| && ops[i].Add? && ops[i].event == n && ops[i].h == h
    ensures Plain(h) in ApplyAt(ls, ops, n)
    decreases |ops|
  {
    if |ops| > 0 {
      var ls1 := OpAt(ls, ops[0], n);
      assert Plain(h) in ls ==> Plain(h) in ls1;
      if Plain(h) !in ls1 {
        var i :| 0 <= i < |ops| && ops[i].Add? && ops[i].event == n && ops[i].h == h;
        assert i > 0;
        assert ops[1..][i - 1] == ops[i];
      }
      ApplyAtRegisters(ls1, ops[1..], n, h);
    }
  }

  /** After a `remove` without a handler for `n`, later `remove` calls keep the event empty. */
  lemma {:induction false} ApplyAtClears(ls: seq<Listener>, ops: seq<Op>, n: string, i: nat)
    requires forall j :: 0 <= j < |ops| ==> ops[j].Remove?
    requires i < |ops| && ops[i].event == n && ops[i].h.Missing?
    ensures ApplyAt(ls, ops, n) == []
    decreases |ops|
  {
    if i == 0 {
      ApplyAtKeepsEmpty(ops[1..], n);
    } else {
      ApplyAtClears(OpAt(ls, ops[0], n), ops[1..], n, i - 1);
    }
  }

  lemma {:induction false} ApplyAtKeepsEmpty(ops: seq<Op>, n: string)
    requires forall j :: 0 <= j < |ops| ==> ops[j].Remove?
    ensures ApplyAt([], ops, n) == []
    decreases |ops|
  {
    if |ops| > 0 {
      assert OpAt([], ops[0], n) == [];
      ApplyAtKeepsEmpty(ops[1..], n);
    }
  }

  /** Some old key that the new listeners drop has the event name `n`, so the diff removes under `n`. */
  predicate Dropped(listeners: map<string, Handler>, oldListeners: map<string, Handler>, n: string)
  {
    exists k' :: k' in oldListeners && HGet(listeners, k').Missing? && NormalizeEvent(k').name == n
  }

  /**
   * `updateComponentListeners(vm, listeners, oldListeners)`; an absent
   * `oldListeners` is `{}`. Events no key names keep their listeners; a
   * new key's wrapper is registered under its event unless an old key for
   * the same event is removed; removing a key whose old handler is
   * missing clears its event.
   */
  function UpdateComponentListeners(bus: Bus, heap: Heap,
                                    listeners: map<string, Handler>, order: seq<string>,
                                    oldListeners: map<string, Handler>, oldOrder: seq<string>)
    : (r: (Bus, State))
    requires IsOrderOf(order, listeners.Keys) && IsOrderOf(oldOrder, oldListeners.Keys)
    requires HeapOk(heap) && Known(listeners, heap) && Processed(oldListeners, heap)
    ensures r.1 == Update(listeners, order, oldListeners, oldOrder, heap)
    ensures forall n :: ListenersOf(r.0, n) == ApplyAt(ListenersOf(bus, n), r.1.ops, n)
    ensures forall n :: (forall k :: k in listeners || k in oldListeners ==> NormalizeEvent(k).name != n) ==>
      ListenersOf(r.0, n) == ListenersOf(bus, n)
    ensures forall k :: k in listeners && !listeners[k].Missing? && HGet(oldListeners, k).Missing? &&
                        !Dropped(listeners, oldListeners, NormalizeEvent(k).name) ==>
      Plain(r.1.on[k]) in ListenersOf(r.0, NormalizeEvent(k).name)
    ensures forall k :: k in oldListeners && oldListeners[k].Missing? && HGet(listeners, k).Missing? ==>
      ListenersOf(r.0, NormalizeEvent(k).name) == []
  {
    var s := Update(listeners, order, oldListeners, oldOrder, heap);
    DiffUntouched(bus, heap, listeners, order, oldListeners, oldOrder);
    DiffRegisters(bus, heap, listeners, order, oldListeners, oldOrder);
    DiffClears(bus, heap, listeners, order, oldListeners, oldOrder);
    (ApplyOps(bus, s.ops), s)
  }

  /** The calls of a diff: those of its first loop, which never removes, then the removals. */
  lemma DiffOps(listeners: map<string, Handler>, order: seq<string>,
                oldListeners: map<string, Handler>, oldOrder: seq<string>, heap: Heap)
    requires IsOrderOf(order, listeners.Keys) && IsOrderOf(oldOrder, oldListeners.Keys)
    requires HeapOk(heap) && Known(listeners, heap) && Processed(oldListeners, heap)
    ensures var s := AddPass(State(listeners, heap, []), oldListeners, order);
      && Update(listeners, order, oldListeners, oldOrder, heap).ops == s.ops + RemovePass(s.on, oldListeners, oldOrder)
      && Update(listeners, order, oldListeners, oldOrder, heap).on == s.on
      && (forall i :: 0 <= i < |s.ops| ==> !s.ops[i].Remove?)
      && (forall k :: HGet(s.on, k).Missing? <==> HGet(listeners, k).Missing?)
  {
    var s0 := State(listeners, heap, []);
    AddPassOpsKinds(s0, oldListeners, order);
    UpdateBindings(listeners, order, oldListeners, oldOrder, heap);
  }

  lemma DiffUntouched(bus: Bus, heap: Heap, listeners: map<string, Handler>, order: seq<string>,
                      oldListeners: map<string, Handler>, oldOrder: seq<string>)
    requires IsOrderOf(order, listeners.Keys) && IsOrderOf(oldOrder, oldListeners.Keys)
    requires HeapOk(heap) && Known(listeners, heap) && Processed(oldListeners, heap)
    ensures forall n :: (forall k :: k in listeners || k in oldListeners ==> NormalizeEvent(k).name != n) ==>
      ApplyAt(ListenersOf(bus, n), Update(listeners, order, oldListeners, oldOrder, heap).ops, n) == ListenersOf(bus, n)
  {
    var r := Update(listeners, order, oldListeners, oldOrder, heap);
    UpdateAdds(listeners, order, oldListeners, oldOrder, heap);
    UpdateRemoves(listeners, order, oldListeners, oldOrder, heap);
    forall n | forall k :: k in listeners || k in oldListeners ==> NormalizeEvent(k).name != n
      ensures ApplyAt(ListenersOf(bus, n), r.ops, n) == ListenersOf(bus, n)
    {
      forall i | 0 <= i < |r.ops| && !r.ops[i].Warn? ensures r.ops[i].event != n {
        assert r.ops[i] in r.ops;
      }
      ApplyAtUntouched(ListenersOf(bus, n), r.ops, n);
    }
  }

  lemma DiffRegisters(bus: Bus, heap: Heap, listeners: map<string, Handler>, order: seq<string>,
                      oldListeners: map<string, Handler>, oldOrder: seq<string>)
    requires IsOrderOf(order, listeners.Keys) && IsOrderOf(oldOrder, oldListeners.Keys)
    requires HeapOk(heap) && Known(listeners, heap) && Processed(oldListeners, heap)
    ensures var r := Update(listeners, order, oldListeners, oldOrder, heap);
      forall k :: k in listeners && !listeners[k].Missing? && HGet(oldListeners, k).Missing? &&
                  !Dropped(listeners, oldListeners, NormalizeEvent(k).name) ==>
        Plain(r.on[k]) in ApplyAt(ListenersOf(bus, NormalizeEvent(k).name), r.ops, NormalizeEvent(k).name)
  {
    var r := Update(listeners, order, oldListeners, oldOrder, heap);
    UpdateAdds(listeners, order, oldListeners, oldOrder, heap);
    UpdateRemoves(listeners, order, oldListeners, oldOrder, heap);
    DiffOps(listeners, order, oldListeners, oldOrder, heap);
    forall k | k in listeners && !listeners[k].Missing? && HGet(oldListeners, k).Missing? &&
               !Dropped(listeners, oldListeners, NormalizeEvent(k).name)
      ensures Plain(r.on[k]) in ApplyAt(ListenersOf(bus, NormalizeEvent(k).name), r.ops, NormalizeEvent(k).name)
    {
      var n := NormalizeEvent(k).name;
      var add := Add(n, r.on[k], NormalizeEvent(k).capture, NormalizeEvent(k).passive);
      var i :| 0 <= i < |r.ops| && r.ops[i] == add;
      forall j | 0 <= j < |r.ops| && r.ops[j].Remove? ensures r.ops[j].event != n {
        assert r.ops[j] in r.ops;
      }
      assert r.ops[i].Add? && r.ops[i].event == n && r.ops[i].h == r.on[k];
      ApplyAtRegisters(ListenersOf(bus, n), r.ops, n, r.on[k]);
    }
  }

  lemma DiffClears(bus: Bus, heap: Heap, listeners: map<string, Handler>, order: seq<string>,
                   oldListeners: map<string, Handler>, oldOrder: seq<string>)
    requires IsOrderOf(order, listeners.Keys) && IsOrderOf(oldOrder, oldListeners.Keys)
    requires HeapOk(heap) && Known(listeners, heap) && Processed(oldListeners, heap)
    ensures forall k :: k in oldListeners && oldListeners[k].Missing? && HGet(listeners, k).Missing? ==>
      ApplyAt(ListenersOf(bus, NormalizeEvent(k).name), Update(listeners, order, oldListeners, oldOrder, heap).ops, NormalizeEvent(k).name) == []
  {
    var r := Update(listeners, order, oldListeners, oldOrder, heap);
    UpdateRemoves(listeners, order, oldListeners, oldOrder, heap);
    DiffOps(listeners, order, oldListeners, oldOrder, heap);
    var s := AddPass(State(listeners, heap, []), oldListeners, order);
    var removes := RemovePass(s.on, oldListeners, oldOrder);
    forall k | k in oldListeners && oldListeners[k].Missing? && HGet(listeners, k).Missing?
      ensures ApplyAt(ListenersOf(bus, NormalizeEvent(k).name), r.ops, NormalizeEvent(k).name) == []
    {
      var n := NormalizeEvent(k).name;
      var rem := Remove(n, oldListeners[k], NormalizeEvent(k).capture);
      assert rem in removes;
      var i :| 0 <= i < |removes| && removes[i] == rem;
      ApplyAtAppend(ListenersOf(bus, n), s.ops, removes, n);
      ApplyAtClears(ApplyAt(ListenersOf(bus, n), s.ops, n), removes, n, i);
    }
  }

  // =====================================================================
  // laws
  // =====================================================================

  /** `$off(event, fn)` right after `$on(event, fn)` leaves the listeners of every event as they were. */
  lemma OffUndoesOn(bus: Bus, ev: EventArg, h: Handler)
    ensures forall n :: ListenersOf(Off(On(bus, ev, Plain(h)), ev, Some(ByHandler(h))), n) == ListenersOf(bus, n)
  {
    forall n ensures ListenersOf(Off(On(bus, ev, Plain(h)), ev, Some(ByHandler(h))), n) == ListenersOf(bus, n) {
      OffResultCopies(ListenersOf(bus, n), Plain(h), ByHandler(h), multiset(Flat(ev))[n]);
    }
  }

  /** `k` rounds of `$off` take back `k` trailing copies of a matching listener. */
  lemma {:induction false} OffResultCopies(ls: seq<Listener>, l: Listener, a: OffArg, k: nat)
    requires Matches(l, a)
    ensures OffResult(ls + Copies(l, k), Some(a), k) == ls
    decreases k
  {
    if k == 0 {
      assert ls + Copies(l, 0) == ls;
    } else {
      var xs := ls + Copies(l, k);
      assert xs[|xs| - 1] == l;
      assert xs[..|xs| - 1] == ls + Copies(l, k - 1);
      OffResultCopies(ls, l, a, k - 1);
    }
  }

  /** How many listeners `$off` with `a` would match. */
  function CountMatch(ls: seq<Listener>, a: OffArg): nat
  {
    if |ls| == 0 then 0
    else CountMatch(ls[..|ls| - 1], a) + (if Matches(ls[|ls| - 1], a) then 1 else 0)
  }

  lemma {:induction false} CountMatchAppend(a: seq<Listener>, b: seq<Listener>, x: OffArg)
    ensures CountMatch(a + b, x) == CountMatch(a, x) + CountMatch(b, x)
    decreases |b|
  {
    if |b| > 0 {
      var n := |b| - 1;
      assert (a + b)[..|a + b| - 1] == a + b[..n];
      CountMatchAppend(a, b[..n], x);
    } else {
      assert a + b == a;
    }
  }

  /** A listener at some index that matches is counted. */
  lemma {:induction false} MatchCounted(ls: seq<Listener>, j: nat, a: OffArg)
    requires j < |ls| && Matches(ls[j], a)
    ensures CountMatch(ls, a) > 0
  {
    if j < |ls| - 1 {
      MatchCounted(ls[..|ls| - 1], j, a);
    }
  }

  /** Splicing out one listener never adds a match, and removes one when it splices out a match of `b` itself. */
  lemma RemoveLastCount(ls: seq<Listener>, a: OffArg, b: OffArg)
    ensures CountMatch(RemoveLast(ls, a), b) <= CountMatch(ls, b)
    ensures a == b && CountMatch(ls, b) > 0 ==> CountMatch(RemoveLast(ls, a), b) == CountMatch(ls, b) - 1
  {
    RemoveLastNeverAdds(ls, a, b);
    if a == b {
      RemoveLastTakesOne(ls, a);
    }
  }

  lemma {:induction false} RemoveLastNeverAdds(ls: seq<Listener>, a: OffArg, b: OffArg)
    ensures CountMatch(RemoveLast(ls, a), b) <= CountMatch(ls, b)
  {
    if |ls| > 0 {
      var n := |ls| - 1;
      if !Matches(ls[n], a) {
        RemoveLastNeverAdds(ls[..n], a, b);
        var r := RemoveLast(ls[..n], a);
        assert (r + [ls[n]])[..|r + [ls[n]]| - 1] == r;
      }
    }
  }

  lemma {:induction false} RemoveLastTakesOne(ls: seq<Listener>, a: OffArg)
    ensures CountMatch(ls, a) > 0 ==> CountMatch(RemoveLast(ls, a), a) == CountMatch(ls, a) - 1
  {
    if |ls| > 0 {
      var n := |ls| - 1;
      if !Matches(ls[n], a) {
        RemoveLastTakesOne(ls[..n], a);
        var r := RemoveLast(ls[..n], a);
        assert (r + [ls[n]])[..|r + [ls[n]]| - 1] == r;
      }
    }
  }

  /** `$off` never adds a listener to any event. */
  lemma {:induction false} OffNeverAdds(bus: Bus, ev: EventArg, a: Option<OffArg>, name: string, w: nat)
    ensures CountMatch(ListenersOf(Off(bus, ev, a), name), ByWrapper(w)) <= CountMatch(ListenersOf(bus, name), ByWrapper(w))
    decreases ev
  {
    match ev
    case Name(s) =>
      if s == name && a.Some? {
        RemoveLastCount(ListenersOf(bus, name), a.value, ByWrapper(w));
      }
    case Names(items) => OffEachNeverAdds(bus, items, a, name, w);
  }

  lemma {:induction false} OffEachNeverAdds(bus: Bus, items: seq<EventArg>, a: Option<OffArg>, name: string, w: nat)
    ensures CountMatch(ListenersOf(OffEach(bus, items, a), name), ByWrapper(w)) <= CountMatch(ListenersOf(bus, name), ByWrapper(w))
    decreases items
  {
    if |items| > 0 {
      OffNeverAdds(bus, items[0], a, name, w);
      OffEachNeverAdds(Off(bus, items[0], a), items[1..], a, name, w);
    }
  }

  /** A wrapper's `$off(ev, on)` removes one copy of itself from every event `ev` names. */
  lemma {:induction false} OffRemovesWrapper(bus: Bus, ev: EventArg, w: nat, name: string)
    requires name in Flat(ev)
    ensures var after := CountMatch(ListenersOf(Off(bus, ev, Some(ByWrapper(w))), name), ByWrapper(w));
      after == 0 || after + 1 <= CountMatch(ListenersOf(bus, name), ByWrapper(w))
    decreases ev
  {
    match ev
    case Name(s) =>
      RemoveLastCount(ListenersOf(bus, name), ByWrapper(w), ByWrapper(w));
    case Names(items) => OffEachRemovesWrapper(bus, items, w, name);
  }

  lemma {:induction false} OffEachRemovesWrapper(bus: Bus, items: seq<EventArg>, w: nat, name: string)
    requires name in FlatEach(items)
    ensures var after := CountMatch(ListenersOf(OffEach(bus, items, Some(ByWrapper(w))), name), ByWrapper(w));
      after == 0 || after + 1 <= CountMatch(ListenersOf(bus, name), ByWrapper(w))
    decreases items
  {
    var a := Some(ByWrapper(w));
    var b1 := Off(bus, items[0], a);
    if name in Flat(items[0]) {
      OffRemovesWrapper(bus, items[0], w, name);
      OffEachNeverAdds(b1, items[1..], a, name, w);
    } else {
      OffNeverAdds(bus, items[0], a, name, w);
      OffEachRemovesWrapper(b1, items[1..], w, name);
    }
  }

  /**
   * During `$emit(name)`, the event never holds more copies of a `$once`
   * wrapper than the part of the snapshot still to be called, so once the
   * snapshot is done none is left.
   */
  lemma {:induction false} EmitDrainsWrapper(bus: Bus, heap: Heap, name: string, snap: seq<Listener>, i: nat,
                                             call: Handler -> Ret, w: nat)
    requires i <= |snap|
    requires CountMatch(ListenersOf(bus, name), ByWrapper(w)) <= CountMatch(snap[i..], ByWrapper(w))
    requires forall j :: i <= j < |snap| && snap[j].OnceWrap? && snap[j].wid == w ==> name in Flat(snap[j].ev)
    ensures CountMatch(ListenersOf(EmitFrom(bus, heap, name, snap, i, call).0, name), ByWrapper(w)) == 0
    decreases |snap| - i
  {
    if i < |snap| {
      var l := snap[i];
      assert snap[i..] == [l] + snap[i + 1..];
      CountMatchAppend([l], snap[i + 1..], ByWrapper(w));
      assert [l][..0] == [];
      var bus' := EmitStep(bus, heap, l, call).0;
      assert EmitFrom(bus, heap, name, snap, i, call).0 == EmitFrom(bus', heap, name, snap, i + 1, call).0;
      match l {
        case OnceWrap(wi, fn, ev) =>
          if wi == w {
            OffRemovesWrapper(bus, ev, w, name);
          } else {
            OffNeverAdds(bus, ev, Some(ByWrapper(wi)), name, w);
          }
        case Plain(h) =>
          if h.Ref? && h.id in heap.objs && heap.objs[h.id].OnceWrapper? {
            OffNeverAdds(bus, Name(heap.objs[h.id].event), Some(ByHandler(h)), name, w);
          }
      }
      EmitDrainsWrapper(bus', heap, name, snap, i + 1, call, w);
    }
  }

  /**
   * `$once(name, fn)` followed by two `$emit(name)`: the first calls the
   * wrapper exactly once and leaves none behind, the second does not call
   * it, whatever else is registered.
   */
  lemma OnceFiresOnce(bus: Bus, heap: Heap, name: string, fn: Handler, w: nat, call: Handler -> Ret)
    requires CountMatch(ListenersOf(bus, name), ByWrapper(w)) == 0
    ensures var b1 := Once(bus, Name(name), fn, w);
      var (b2, log1) := Emit(b1, heap, name, call);
      var (_, log2) := Emit(b2, heap, name, call);
      && |log1| == |ListenersOf(bus, name)| + 1
      && log1[|log1| - 1].l == OnceWrap(w, fn, Name(name))
      && (forall j :: 0 <= j < |log1| - 1 ==> log1[j].l != OnceWrap(w, fn, Name(name)))
      && (forall j :: 0 <= j < |log2| ==> log2[j].l != OnceWrap(w, fn, Name(name)))
  {
    OnceSnapshot(bus, name, fn, w);
    OnceDrained(bus, heap, name, fn, w, call);
    NoneMatch(ListenersOf(Emit(Once(bus, Name(name), fn, w), heap, name, call).0, name), ByWrapper(w));
  }

  /** Right after `$once(name, fn)`, the event ends with the one new wrapper and holds no other copy of it. */
  lemma OnceSnapshot(bus: Bus, name: string, fn: Handler, w: nat)
    requires CountMatch(ListenersOf(bus, name), ByWrapper(w)) == 0
    ensures ListenersOf(Once(bus, Name(name), fn, w), name) == ListenersOf(bus, name) + [OnceWrap(w, fn, Name(name))]
    ensures forall j :: 0 <= j < |ListenersOf(bus, name)| ==> !Matches(ListenersOf(bus, name)[j], ByWrapper(w))
  {
    assert multiset(Flat(Name(name)))[name] == 1;
    assert Copies(OnceWrap(w, fn, Name(name)), 1) == [OnceWrap(w, fn, Name(name))];
    NoneMatch(ListenersOf(bus, name), ByWrapper(w));
  }

  /** The first `$emit` after `$once` leaves no copy of the wrapper behind. */
  lemma OnceDrained(bus: Bus, heap: Heap, name: string, fn: Handler, w: nat, call: Handler -> Ret)
    requires CountMatch(ListenersOf(bus, name), ByWrapper(w)) == 0
    ensures CountMatch(ListenersOf(Emit(Once(bus, Name(name), fn, w), heap, name, call).0, name), ByWrapper(w)) == 0
  {
    var l := OnceWrap(w, fn, Name(name));
    var snap := ListenersOf(Once(bus, Name(name), fn, w), name);
    OnceSnapshot(bus, name, fn, w);
    CountMatchAppend(ListenersOf(bus, name), [l], ByWrapper(w));
    assert [l][..0] == [];
    assert snap[0..] == snap;
    EmitDrainsWrapper(Once(bus, Name(name), fn, w), heap, name, snap, 0, call, w);
  }

  /** With no match counted, no listener matches. */
  lemma NoneMatch(ls: seq<Listener>, a: OffArg)
    requires CountMatch(ls, a) == 0
    ensures forall j :: 0 <= j < |ls| ==> !Matches(ls[j], a)
    ensures forall l :: l in ls ==> !Matches(l, a)
  {
    forall j | 0 <= j < |ls| ensures !Matches(ls[j], a) {
      if Matches(ls[j], a) {
        MatchCounted(ls, j, a);
      }
    }
  }

  /**
   * A `~` key the diff binds around a user function: the first emit calls
   * it without raising, and it unregisters itself unless the function
   * returned `null`; a function that throws is unregistered too, because
   * the invoker swallows the error.
   */
  lemma BoundOnceUnregisters(bus: Bus, heap: Heap, cur: Handler, e: EventSpec, call: Handler -> Ret)
    requires HeapOk(heap) && (cur.User? || cur.UserList?) && e.once
    ensures var (h, b) := Bind(heap, cur, e);
      EmitStep(bus, h, Plain(b), call) ==
        (if InvokerResult(cur, call) == Null then bus else OffName(bus, e.name, Some(ByHandler(b))), false)
  {
    var (h, b) := Bind(heap, cur, e);
    assert h.objs[b.id] == OnceWrapper(e.name, Ref(heap.next), None);
    assert CallHandler(h, Ref(heap.next), call) == Returned(InvokerResult(cur, call));
  }

  /**
   * Attaching the parent's listeners at creation (`oldListeners` absent)
   * registers, for every key with a handler, the wrapper the diff made,
   * under the key's event name.
   */
  lemma InitialListenersRegistered(bus: Bus, heap: Heap, listeners: map<string, Handler>, order: seq<string>, k: string)
    requires IsOrderOf(order, listeners.Keys)
    requires HeapOk(heap) && Known(listeners, heap)
    requires k in listeners && !listeners[k].Missing?
    ensures var (b, s) := UpdateComponentListeners(bus, heap, listeners, order, map[], []);
      Plain(s.on[k]) in ListenersOf(b, NormalizeEvent(k).name)
  {
    var none: map<string, Handler> := map[];
    assert IsOrderOf([], none.Keys);
  }

  /**
   * A key the new listeners drop loses its registered wrapper: provided
   * the event held that wrapper at most once and no new key reuses it,
   * nothing `$off` with it would match is left under the key's event.
   */
  lemma RemovedWrapperGone(bus: Bus, heap: Heap, listeners: map<string, Handler>, order: seq<string>,
                           oldListeners: map<string, Handler>, oldOrder: seq<string>, k: string)
    requires IsOrderOf(order, listeners.Keys) && IsOrderOf(oldOrder, oldListeners.Keys)
    requires HeapOk(heap) && Known(listeners, heap) && Processed(oldListeners, heap)
    requires k in oldListeners && oldListeners[k].Ref? && HGet(listeners, k).Missing?
    requires CountMatch(ListenersOf(bus, NormalizeEvent(k).name), ByHandler(oldListeners[k])) <= 1
    requires forall k' :: k' in listeners ==> listeners[k'] != oldListeners[k]
    ensures var b := UpdateComponentListeners(bus, heap, listeners, order, oldListeners, oldOrder).0;
      forall l :: l in ListenersOf(b, NormalizeEvent(k).name) ==> !Matches(l, ByHandler(oldListeners[k]))
  {
    var n := NormalizeEvent(k).name;
    var a := ByHandler(oldListeners[k]);
    var s := AddPass(State(listeners, heap, []), oldListeners, order);
    var removes := RemovePass(s.on, oldListeners, oldOrder);
    DiffOps(listeners, order, oldListeners, oldOrder, heap);
    var mid := ApplyAt(ListenersOf(bus, n), s.ops, n);
    AddPassKeepsCount(bus, heap, listeners, order, oldListeners, oldOrder, oldListeners[k], n);
    var rem := Remove(n, oldListeners[k], NormalizeEvent(k).capture);
    assert rem in removes;
    var i :| 0 <= i < |removes| && removes[i] == rem;
    ApplyAtDrains(mid, removes, n, oldListeners[k], i);
    ApplyAtAppend(ListenersOf(bus, n), s.ops, removes, n);
    NoneMatch(ApplyAt(mid, removes, n), a);
  }

  /** The first loop's `add` calls leave the count of listeners matching `h` alone. */
  lemma AddPassKeepsCount(bus: Bus, heap: Heap, listeners: map<string, Handler>, order: seq<string>,
                          oldListeners: map<string, Handler>, oldOrder: seq<string>, h: Handler, n: string)
    requires IsOrderOf(order, listeners.Keys) && IsOrderOf(oldOrder, oldListeners.Keys)
    requires HeapOk(heap) && Known(listeners, heap) && Processed(oldListeners, heap)
    requires h.Ref? && h.id in heap.objs
    requires forall k' :: k' in listeners ==> listeners[k'] != h
    ensures var ops := AddPass(State(listeners, heap, []), oldListeners, order).ops;
      CountMatch(ApplyAt(ListenersOf(bus, n), ops, n), ByHandler(h)) == CountMatch(ListenersOf(bus, n), ByHandler(h))
  {
    DiffOps(listeners, order, oldListeners, oldOrder, heap);
    AddsAvoid(heap, listeners, order, oldListeners, oldOrder, h);
    ApplyAtAddsOnly(ListenersOf(bus, n), AddPass(State(listeners, heap, []), oldListeners, order).ops, n, ByHandler(h));
  }

  /** The first loop's `add` calls never register the handler `h` of an old record, which no new key holds. */
  lemma AddsAvoid(heap: Heap, listeners: map<string, Handler>, order: seq<string>,
                  oldListeners: map<string, Handler>, oldOrder: seq<string>, h: Handler)
    requires IsOrderOf(order, listeners.Keys) && IsOrderOf(oldOrder, oldListeners.Keys)
    requires HeapOk(heap) && Known(listeners, heap) && Processed(oldListeners, heap)
    requires h.Ref? && h.id in heap.objs
    requires forall k' :: k' in listeners ==> listeners[k'] != h
    ensures var s := AddPass(State(listeners, heap, []), oldListeners, order);
      forall i :: 0 <= i < |s.ops| && s.ops[i].Add? ==> s.ops[i].h != h
  {
    var s0 := State(listeners, heap, []);
    var s := AddPass(s0, oldListeners, order);
    var r := Update(listeners, order, oldListeners, oldOrder, heap);
    DiffOps(listeners, order, oldListeners, oldOrder, heap);
    UpdateAdds(listeners, order, oldListeners, oldOrder, heap);
    forall i | 0 <= i < |s.ops| && s.ops[i].Add? ensures s.ops[i].h != h {
      assert s.ops[i] in r.ops;
      var k' :| k' in listeners && !listeners[k'].Missing? && HGet(oldListeners, k').Missing? && s.ops[i] == AddFor(r.on, k');
      AddPassFresh(s0, oldListeners, order, k');
    }
  }

  /** `add` calls whose handlers `a` does not match leave the count of matches for `a` alone. */
  lemma {:induction false} ApplyAtAddsOnly(ls: seq<Listener>, ops: seq<Op>, n: string, a: OffArg)
    requires a.ByHandler?
    requires forall i :: 0 <= i < |ops| ==> !ops[i].Remove?
    requires forall i :: 0 <= i < |ops| && ops[i].Add? ==> ops[i].h != a.h
    ensures CountMatch(ApplyAt(ls, ops, n), a) == CountMatch(ls, a)
    decreases |ops|
  {
    if |ops| > 0 {
      if ops[0].Add? && ops[0].event == n {
        CountMatchAppend(ls, [Plain(ops[0].h)], a);
        assert [Plain(ops[0].h)][..0] == [];
      }
      ApplyAtAddsOnly(OpAt(ls, ops[0], n), ops[1..], n, a);
    }
  }

  /** `remove` calls never add a match. */
  lemma {:induction false} ApplyAtRemovesOnly(ls: seq<Listener>, ops: seq<Op>, n: string, a: OffArg)
    requires forall i :: 0 <= i < |ops| ==> ops[i].Remove?
    ensures CountMatch(ApplyAt(ls, ops, n), a) <= CountMatch(ls, a)
    decreases |ops|
  {
    if |ops| > 0 {
      if ops[0].event == n && !ops[0].h.Missing? {
        RemoveLastCount(ls, ByHandler(ops[0].h), a);
      }
      ApplyAtRemovesOnly(OpAt(ls, ops[0], n), ops[1..], n, a);
    }
  }

  /** A `remove` of `h` for `n` takes out the one listener matching `h`, and later removals add none back. */
  lemma {:induction false} ApplyAtDrains(ls: seq<Listener>, ops: seq<Op>, n: string, h: Handler, i: nat)
    requires forall j :: 0 <= j < |ops| ==> ops[j].Remove?
    requires i < |ops| && ops[i].event == n && ops[i].h == h && !h.Missing?
    requires CountMatch(ls, ByHandler(h)) <= 1
    ensures CountMatch(ApplyAt(ls, ops, n), ByHandler(h)) == 0
    decreases |ops|
  {
    var ls1 := OpAt(ls, ops[0], n);
    if ops[0].event == n && !ops[0].h.Missing? {
      RemoveLastCount(ls, ByHandler(ops[0].h), ByHandler(h));
    }
    if i == 0 {
      ApplyAtRemovesOnly(ls1, ops[1..], n, ByHandler(h));
    } else {
      assert ops[1..][i - 1] == ops[i];
      ApplyAtDrains(ls1, ops[1..], n, h, i - 1);
    }
  }
}

=== FILE: inject.dfy ===
/**
 * Dependency injection of src/core/instance/inject.js: `initProvide`,
 * `resolveInject` and `initInjections`. An instance is seen only through its
 * `_provided` value and its `$parent` chain.
 */
module Inject {
  import opened JsValue
  import Options

  /** An instance as injection sees it: its `_provided` (undefined when it provides nothing) and its parent. */
  datatype Vm = Vm(provided: Val, parent: Option<Vm>)

  /** What `resolveInject` gives: `undefined` for no `inject`, a record of resolved values, or an exception. */
  datatype Resolution = NoInject | Injected(values: map<string, Val>) | InjectThrew

  /** How one injected key ends: a value, nothing (a warning), or an exception from its default factory. */
  datatype KeyOutcome = Found(v: Val) | Absent | KeyThrew

  /** `initProvide`: a function-valued `provide` is called on the instance; a falsy one sets nothing. */
  function InitProvide(provided: Val, provide: Val, call: FnId -> Ret): (r: Ret)
    ensures !Truthy(provide) ==> r == Returned(provided)
    ensures Truthy(provide) && !IsFunction(provide) ==> r == Returned(provide)
    ensures provide.Fn? ==> r == call(provide.id)
    ensures Truthy(provide) && IsFunction(provide) ==> r == Options.Invoke(provide, call)
  {
    if !Truthy(provide) then Returned(provided)
    else if IsFunction(provide) then Options.Invoke(provide, call)
    else Returned(provide)
  }

  /** `source._provided && hasOwn(source._provided, key)` */
  predicate Provides(vm: Vm, key: string)
  {
    Truthy(vm.provided) && HasOwn(vm.provided, key)
  }

  /** The instance and its ancestors, nearest first. */
  function Chain(vm: Vm): (r: seq<Vm>)
    ensures |r| > 0 && r[0] == vm
    decreases vm
  {
    match vm.parent
    case None => [vm]
    case Some(p) => [vm] + Chain(p)
  }

  /** The `while (source)` walk: the value the nearest providing instance, starting at `vm`, holds for `key`. */
  function FindProvided(vm: Vm, key: string): (r: Option<Val>)
    ensures r.Some? ==> exists i :: 0 <= i < |Chain(vm)| && Provides(Chain(vm)[i], key)
                                    && r.value == Chain(vm)[i].provided.own[key]
                                    && forall j :: 0 <= j < i ==> !Provides(Chain(vm)[j], key)
    ensures r.None? ==> forall i :: 0 <= i < |Chain(vm)| ==> !Provides(Chain(vm)[i], key)
    decreases vm
  {
    if Provides(vm, key) then
      assert Chain(vm)[0] == vm;
      Some(vm.provided.own[key])
    else match vm.parent
      case None => None
      case Some(p) =>
        var r := FindProvided(p, key);
        assert forall i :: 0 < i < |Chain(vm)| ==> Chain(vm)[i] == Chain(p)[i - 1];
        if r.Some? then
          var i :| 0 <= i < |Chain(p)| && Provides(Chain(p)[i], key) && r.value == Chain(p)[i].provided.own[key]
                   && forall j :: 0 <= j < i ==> !Provides(Chain(p)[j], key);
          assert Chain(vm)[i + 1] == Chain(p)[i];
          assert forall j :: 0 <= j < i + 1 ==> !Provides(Chain(vm)[j], key) by {
            forall j | 0 <= j < i + 1 ensures !Provides(Chain(vm)[j], key) {
              if j > 0 { assert Chain(vm)[j] == Chain(p)[j - 1]; }
            }
          }
          r
        else r
  }

  /** A normalised `inject`: each entry (but `__ob__`) is a record naming a string `from`. */
  predicate InjectShape(inject: Val)
  {
    !Truthy(inject) ||
    (inject.Obj? && forall k :: k in inject.own && k != ObKey ==>
       inject.own[k].Obj? && Lookup(inject.own[k], "from").Str?)
  }

  /** One key of `resolveInject`: the provided value, else the default (called if a function), else nothing. */
  function ResolveKey(entry: Val, vm: Vm, call: FnId -> Ret): (r: KeyOutcome)
    requires entry.Obj? && Lookup(entry, "from").Str?
    ensures FindProvided(vm, Lookup(entry, "from").s).Some? ==> r == Found(FindProvided(vm, Lookup(entry, "from").s).value)
    ensures FindProvided(vm, Lookup(entry, "from").s).None? && !HasProp(entry, "default") ==> r == Absent
    ensures (FindProvided(vm, Lookup(entry, "from").s).None? && HasProp(entry, "default")
             && !IsFunction(Lookup(entry, "default"))) ==> r == Found(Lookup(entry, "default"))
    ensures (FindProvided(vm, Lookup(entry, "from").s).None? && HasProp(entry, "default")
             && IsFunction(Lookup(entry, "default"))) ==>
      r == (if Options.Invoke(Lookup(entry, "default"), call).Returned?
            then Found(Options.Invoke(Lookup(entry, "default"), call).v) else KeyThrew)
    ensures r == KeyThrew ==> IsFunction(Lookup(entry, "default"))
  {
    match FindProvided(vm, Lookup(entry, "from").s)
    case Some(v) => Found(v)
    case None =>
      if HasProp(entry, "default") then
        var d := Lookup(entry, "default");
        if IsFunction(d) then
          (match Options.Invoke(d, call) case Returned(v) => Found(v) case Threw => KeyThrew)
        else Found(d)
      else Absent
  }

  /**
   * `resolveInject(inject, vm)`: every own key but `__ob__` resolved by
   * `ResolveKey`; keys found nowhere and without default are left out of the
   * result; a default factory that throws aborts the whole resolution.
   */
  function ResolveInject(inject: Val, vm: Vm, call: FnId -> Ret): (r: Resolution)
    requires InjectShape(inject)
    ensures !Truthy(inject) ==> r == NoInject
    ensures r.Injected? ==>
      r.values.Keys <= inject.own.Keys - {ObKey}
      && forall k :: k in inject.own && k != ObKey ==>
           (k in r.values <==> ResolveKey(inject.own[k], vm, call).Found?)
           && (k in r.values ==> r.values[k] == ResolveKey(inject.own[k], vm, call).v)
    ensures Truthy(inject) ==>
      (r == InjectThrew <==> exists k :: k in inject.own && k != ObKey && ResolveKey(inject.own[k], vm, call) == KeyThrew)
  {
    if !Truthy(inject) then NoInject
    else
      var keys := inject.own.Keys - {ObKey};
      if exists k :: k in keys && ResolveKey(inject.own[k], vm, call) == KeyThrew then InjectThrew
      else Injected(map k | k in keys && ResolveKey(inject.own[k], vm, call).Found? :: ResolveKey(inject.own[k], vm, call).v)
  }

  /**
   * `initInjections`: runs before `initProvide`, so the instance's own
   * `_provided` is still undefined; the resolved keys become instance
   * properties (`defineReactive`) with the resolved values.
   */
  function InitInjections(inject: Val, parent: Option<Vm>, call: FnId -> Ret): (r: Option<map<string, Val>>)
    requires InjectShape(inject)
    ensures r.Some? <==> ResolveInject(inject, Vm(Undef, parent), call).Injected?
    ensures r.Some? ==> r.value == ResolveInject(inject, Vm(Undef, parent), call).values
    ensures r.Some? ==> forall k :: k in r.value <==>
      k in inject.own && k != ObKey && ResolveKey(inject.own[k], Vm(Undef, parent), call).Found?
  {
    match ResolveInject(inject, Vm(Undef, parent), call)
    case Injected(values) => Some(values)
    case _ => None
  }

  // =====================================================================
  // laws
  // =====================================================================

  /** An instance's own `provide` is never visible to its own `inject`: lookup starts at the parent. */
  lemma OwnProvideInvisible(parent: Vm, key: string)
    ensures FindProvided(Vm(Undef, Some(parent)), key) == FindProvided(parent, key)
  {
  }

  /**
   * What `initProvide` stores is what the instance's children inject: a
   * key the stored record owns resolves, for a direct child, to the
   * record's value, whatever the ancestors above provide.
   */
  lemma ProvideReachesChildren(provided: Val, provide: Val, parent: Option<Vm>, key: string, call: FnId -> Ret)
    requires InitProvide(provided, provide, call).Returned?
    requires Truthy(InitProvide(provided, provide, call).v) && HasOwn(InitProvide(provided, provide, call).v, key)
    ensures var p := InitProvide(provided, provide, call).v;
      FindProvided(Vm(Undef, Some(Vm(p, parent))), key) == Some(p.own[key])
  {
  }

  /**
   * A root providing `a` and a grandchild injecting `a` and `b` (with a
   * plain default `d`) resolves `{a: v, b: d}` through a middle instance
   * that provides nothing.
   */
  lemma GrandchildInjection(a: string, b: string, v: Val, d: Val, call: FnId -> Ret)
    requires a != b && a != ObKey && b != ObKey && !IsFunction(d)
    ensures
      var middle := Vm(Undef, Some(Vm(Record(map[a := v]), None)));
      var inject := Record(map[a := Record(map["from" := Str(a)]), b := Record(map["from" := Str(b), "default" := d])]);
      InjectShape(inject) && InitInjections(inject, Some(middle), call) == Some(map[a := v, b := d])
  {
    var middle := Vm(Undef, Some(Vm(Record(map[a := v]), None)));
    var inject := Record(map[a := Record(map["from" := Str(a)]), b := Record(map["from" := Str(b), "default" := d])]);
    GrandchildResolves(a, b, v, d, call);
    InjectedValues(inject, Some(middle), call, map[a := v, b := d]);
  }

  /** The resolution step of that example, from the grandchild. */
  lemma GrandchildResolves(a: string, b: string, v: Val, d: Val, call: FnId -> Ret)
    requires a != b && a != ObKey && b != ObKey && !IsFunction(d)
    ensures
      var me := Vm(Undef, Some(Vm(Undef, Some(Vm(Record(map[a := v]), None)))));
      var inject := Record(map[a := Record(map["from" := Str(a)]), b := Record(map["from" := Str(b), "default" := d])]);
      InjectShape(inject) && ResolveInject(inject, me, call) == Injected(map[a := v, b := d])
  {
    var me := Vm(Undef, Some(Vm(Undef, Some(Vm(Record(map[a := v]), None)))));
    var inject := Record(map[a := Record(map["from" := Str(a)]), b := Record(map["from" := Str(b), "default" := d])]);
    GrandchildKeys(a, b, v, d, call);
    var want := map[a := v, b := d];
    assert inject.own.Keys - {ObKey} == want.Keys;
    AllKeysFound(inject, me, call, want);
  }

  /** When every injected key resolves to a value, the result holds exactly those values. */
  lemma AllKeysFound(inject: Val, vm: Vm, call: FnId -> Ret, want: map<string, Val>)
    requires InjectShape(inject) && inject.Obj?
    requires inject.own.Keys - {ObKey} == want.Keys
    requires forall k :: k in want ==> ResolveKey(inject.own[k], vm, call) == Found(want[k])
    ensures ResolveInject(inject, vm, call) == Injected(want)
  {
    var r := ResolveInject(inject, vm, call);
    assert r.Injected?;
    assert r.values.Keys == want.Keys;
  }

  /** In that chain `a` is found at the root and `b` falls back to its default. */
  lemma GrandchildKeys(a: string, b: string, v: Val, d: Val, call: FnId -> Ret)
    requires a != b && !IsFunction(d)
    ensures
      var me := Vm(Undef, Some(Vm(Undef, Some(Vm(Record(map[a := v]), None)))));
      && ResolveKey(Record(map["from" := Str(a)]), me, call) == Found(v)
      && ResolveKey(Record(map["from" := Str(b), "default" := d]), me, call) == Found(d)
  {
    var root := Vm(Record(map[a := v]), None);
    var me := Vm(Undef, Some(Vm(Undef, Some(root))));
    var bEntry := Record(map["from" := Str(b), "default" := d]);
    var mid := Vm(Undef, Some(root));
    assert Provides(root, a) && !Provides(root, b);
    assert !Provides(me, a) && !Provides(mid, a) && !Provides(me, b) && !Provides(mid, b);
    assert FindProvided(root, a) == Some(v);
    assert FindProvided(me, a) == FindProvided(mid, a) == Some(v);
    assert FindProvided(me, b) == FindProvided(mid, b) == None;
    assert Lookup(Record(map["from" := Str(a)]), "from") == Str(a);
    assert Lookup(bEntry, "from") == Str(b);
    assert HasProp(bEntry, "default") && Lookup(bEntry, "default") == d;
  }

  /** `initInjections` defines the keys resolution found, with their values. */
  lemma InjectedValues(inject: Val, parent: Option<Vm>, call: FnId -> Ret, want: map<string, Val>)
    requires InjectShape(inject)
    requires ResolveInject(inject, Vm(Undef, parent), call) == Injected(want)
    ensures InitInjections(inject, parent, call) == Some(want)
  {
  }
}

=== FILE: js_value.dfy ===
/**
 * Values of the JavaScript host as the runtime core sees them.
 *
 * Functions are opaque identities, so JavaScript's `===` on functions is
 * equality of ids. Prototype delegation (`Object.create(parent)`) is an
 * explicit `proto` field that lookups walk.
 */
module JsValue {

  /** Identity of a user function. */
  type FnId = nat

  datatype Option<+T> = None | Some(value: T)

  datatype Val =
    | Undef
    | Null
    | Bool(b: bool)
    | Num(n: int)
    | Str(s: string)
      /** A user function, by identity. */
    | Fn(id: FnId)
      /** A component constructor made by `Vue.extend`: a function carrying `cid` and `options`. */
    | Ctor(cid: nat, options: map<string, Val>)
      /** The closure `mergedDataFn` (instance = false) or `mergedInstanceDataFn` (instance = true). */
    | DataFn(child: Val, parent: Val, instance: bool)
    | Arr(items: seq<Val>)
      /** A plain record: its own properties and the record it delegates to (`Null` for none). */
    | Obj(own: map<string, Val>, proto: Val)
      /** Any other object (a date, a vnode, a component instance), by identity. */
    | Opaque(id: nat)

  /** The outcome of calling a function: a value, or an exception. */
  datatype Ret = Returned(v: Val) | Threw

  /** The key under which the observer marks an observed object. */
  const ObKey: string := "__ob__"

  /** `isDef`: neither `undefined` nor `null`. */
  predicate IsDefined(v: Val)
  {
    !v.Undef? && !v.Null?
  }

  /** JavaScript truthiness (no NaN in this model). */
  predicate Truthy(v: Val)
  {
    match v
    case Undef => false
    case Null => false
    case Bool(b) => b
    case Num(n) => n != 0
    case Str(s) => |s| > 0
    case _ => true
  }

  /** `typeof v === 'function'` */
  predicate IsFunction(v: Val)
  {
    v.Fn? || v.Ctor? || v.DataFn?
  }

  /** `isObject(v)`: not null and `typeof v === 'object'`. */
  predicate IsObject(v: Val)
  {
    v.Arr? || v.Obj? || v.Opaque?
  }

  /** `isPrimitive(v)`: a string, number or boolean. */
  predicate IsPrimitive(v: Val)
  {
    v.Str? || v.Num? || v.Bool?
  }

  /** What `Object.create(v || null)` accepts without throwing. */
  predicate CanBeProto(v: Val)
  {
    !Truthy(v) || IsObject(v) || IsFunction(v)
  }

  /** Reading an own property of a record; absent keys read as `undefined`. */
  function Get(m: map<string, Val>, k: string): Val
  {
    if k in m then m[k] else Undef
  }

  /** `hasOwn(v, k)` */
  predicate HasOwn(v: Val, k: string)
  {
    v.Obj? && k in v.own
  }

  /** `k in v`: the key is found on the record or along its delegation chain. */
  predicate HasProp(v: Val, k: string)
  {
    v.Obj? && (k in v.own || HasProp(v.proto, k))
  }

  /** `v[k]`: the nearest binding of `k` along the delegation chain. */
  function Lookup(v: Val, k: string): (r: Val)
    ensures !HasProp(v, k) ==> r == Undef
  {
    if !v.Obj? then Undef
    else if k in v.own then v.own[k]
    else Lookup(v.proto, k)
  }

  /**
   * The enumerable properties `for..in` visits, inherited ones included, each
   * with the value a read would give: what `extend(to, v)` copies.
   */
  function Flatten(v: Val): (m: map<string, Val>)
    ensures forall k :: k in m <==> HasProp(v, k)
    ensures forall k :: k in m ==> m[k] == Lookup(v, k)
  {
    if v.Obj? then Flatten(v.proto) + v.own else map[]
  }

  /** A value `for..in` reaches lies inside the record, own or inherited: recursion over it terminates. */
  lemma {:induction false} FlattenedSmaller(v: Val, k: string)
    requires k in Flatten(v)
    ensures Flatten(v)[k] < v
  {
    if k !in v.own {
      FlattenedSmaller(v.proto, k);
    }
  }

  /** A record with no delegation, as `{}` or `Object.create(null)` make. */
  function Record(m: map<string, Val>): Val
  {
    Obj(m, Null)
  }

  // ---------------------------------------------------------------------
  // String helpers of shared/util (ASCII only)
  // ---------------------------------------------------------------------

  predicate IsUpper(c: char) { 'A' <= c <= 'Z' }

  predicate IsLowerAscii(c: char) { 'a' <= c <= 'z' }

  /** A character of the regular-expression class `\w`. */
  predicate IsWordChar(c: char)
  {
    IsUpper(c) || IsLowerAscii(c) || ('0' <= c <= '9') || c == '_'
  }

  function ToUpper(c: char): char
  {
    if IsLowerAscii(c) then (c as int - 32) as char else c
  }

  function ToLower(c: char): char
  {
    if IsUpper(c) then (c as int + 32) as char else c
  }

  /** `camelize`: every `-x` with `x` a word character becomes upper-case `x`. */
  function Camelize(s: string): (r: string)
    ensures |r| <= |s|
    ensures (forall i :: 0 <= i < |s| ==> s[i] != '-') ==> r == s
  {
    if |s| == 0 then ""
    else if s[0] == '-' && |s| > 1 && IsWordChar(s[1]) then [ToUpper(s[1])] + Camelize(s[2..])
    else [s[0]] + Camelize(s[1..])
  }

  /** `hyphenate`: a `-` before each capital that follows a word character, then lower case. */
  function Hyphenate(s: string): string
  {
    HyphenateAfter(s, false)
  }

  function HyphenateAfter(s: string, prevWord: bool): string
  {
    if |s| == 0 then ""
    else
      (if IsUpper(s[0]) && prevWord then ['-', ToLower(s[0])] else [ToLower(s[0])])
      + HyphenateAfter(s[1..], IsWordChar(s[0]))
  }

  /** `capitalize`: the first character in upper case. */
  function Capitalize(s: string): (r: string)
    ensures |r| == |s|
  {
    if |s| == 0 then "" else [ToUpper(s[0])] + s[1..]
  }

  predicate StartsWith(s: string, prefix: string)
  {
    |prefix| <= |s| && s[..|prefix|] == prefix
  }

  /** Decimal rendering of a natural number, as string interpolation gives. */
  function NatToString(n: nat): (r: string)
    ensures |r| > 0
  {
    if n < 10 then [Digit(n)] else NatToString(n / 10) + [Digit(n % 10)]
  }

  function Digit(d: nat): char
    requires d < 10
  {
    ['0', '1', '2', '3', '4', '5', '6', '7', '8', '9'][d]
  }

  /** Every element occurs once. */
  predicate NoDup<T(==)>(s: seq<T>)
  {
    forall i, j :: 0 <= i < j < |s| ==> s[i] != s[j]
  }

  /** Concatenation regroups freely. */
  lemma ConcatAssoc<T>(a: seq<T>, b: seq<T>, c: seq<T>)
    ensures (a + b) + c == a + (b + c)
  {
  }
}

=== FILE: normalize_scoped_slots.dfy ===
/**
 * `normalizeScopedSlots` of src/core/vdom/helpers/normalize-scoped-slots.js:
 * builds `vm.$scopedSlots` from the parent's scoped slots and the normal
 * slots, with two fast paths that reuse an earlier result.
 */
module NormalizeScopedSlots {
  import opened JsValue

  /** A rendered vnode as slot post-processing sees it. */
  datatype Node = Node(isComment: bool, id: nat)

  /** A slot function of the result: a wrapped scoped slot, or a proxy reading `normalSlots[key]`. */
  datatype SlotFn = Normalized(key: string, fn: Val) | ProxyNormal(key: string)

  /** An entry of `normalSlots`: rendered nodes, or a getter defined for a proxied `v-slot` without scope. */
  datatype NormalEntry = Nodes(nodes: seq<Node>) | ScopedGetter(key: string, fn: Val)

  /** A normalised result with its `$stable`, `$key` and `$hasNormal` markers. */
  datatype NormResult = NormResult(fns: map<string, SlotFn>, stable: bool, key: Val, hasNormal: bool)

  /** The parent's `scopedSlots`: its own keys (markers included), its `_normalized` cache, and extensibility. */
  datatype ScopedSlots = ScopedSlots(entries: map<string, Val>, normalized: Option<NormResult>, extensible: bool)

  /** `prevSlots`: the shared frozen `emptyObject`, or an earlier result. */
  datatype Prev = EmptyObject | PrevResult(res: NormResult)

  /** The result and the two objects the call writes to. */
  datatype Outcome = Outcome(res: NormResult, slots: Option<ScopedSlots>, normalSlots: map<string, NormalEntry>)

  /** `slots[key] && key[0] !== '$'` */
  predicate IsSlotKey(entries: map<string, Val>, k: string)
  {
    k in entries && Truthy(entries[k]) && (|k| == 0 || k[0] != '$')
  }

  /** `fn.proxy`, set by `resolveScopedSlots` on functions in `proxied`. */
  predicate IsProxied(fn: Val, proxied: set<FnId>)
  {
    fn.Fn? && fn.id in proxied
  }

  /** The general path: wrap each slot key, then proxy each normal slot not already present. */
  function BuildResult(entries: map<string, Val>, normalSlots: map<string, NormalEntry>): (fns: map<string, SlotFn>)
    ensures fns.Keys == (set k | k in entries && IsSlotKey(entries, k)) + normalSlots.Keys
    ensures forall k :: k in fns && IsSlotKey(entries, k) ==> fns[k] == Normalized(k, entries[k])
    ensures forall k :: k in fns && !IsSlotKey(entries, k) ==> fns[k] == ProxyNormal(k)
  {
    var scoped := map k | k in entries && IsSlotKey(entries, k) :: Normalized(k, entries[k]);
    var proxies := map k | k in normalSlots && k !in scoped :: ProxyNormal(k);
    proxies + scoped
  }

  /** `normalizeScopedSlot`'s getter definitions on `normalSlots` for proxied scoped slots. */
  function DefineGetters(entries: map<string, Val>, normalSlots: map<string, NormalEntry>, proxied: set<FnId>): (r: map<string, NormalEntry>)
    ensures r.Keys == normalSlots.Keys + (set k | k in entries && IsSlotKey(entries, k) && IsProxied(entries[k], proxied))
    ensures forall k :: k in r && !(IsSlotKey(entries, k) && IsProxied(entries[k], proxied)) ==> r[k] == normalSlots[k]
  {
    normalSlots + map k | k in entries && IsSlotKey(entries, k) && IsProxied(entries[k], proxied) :: ScopedGetter(k, entries[k])
  }

  /**
   * `normalizeScopedSlots(slots, normalSlots, prevSlots)`; `proxied` are the
   * functions carrying `fn.proxy`.
   */
  function Normalize(slots: Option<ScopedSlots>, normalSlots: map<string, NormalEntry>, prevSlots: Option<Prev>,
                     proxied: set<FnId>): (o: Outcome)
    ensures slots.Some? && slots.value.normalized.Some? ==>
      o == Outcome(slots.value.normalized.value, slots, normalSlots)
  {
    var hasNormalSlots := |normalSlots| > 0;
    var isStable := if slots.Some? then Truthy(Get(slots.value.entries, "$stable")) else !hasNormalSlots;
    var key := if slots.Some? then Get(slots.value.entries, "$key") else Undef;
    if slots.None? then
      var fns := BuildResult(map[], normalSlots);
      Outcome(NormResult(fns, isStable, key, hasNormalSlots), slots, normalSlots)
    else if slots.value.normalized.Some? then
      Outcome(slots.value.normalized.value, slots, normalSlots)
    else if isStable && prevSlots.Some? && prevSlots.value.PrevResult? && key == prevSlots.value.res.key
            && !hasNormalSlots && !prevSlots.value.res.hasNormal then
      Outcome(prevSlots.value.res, slots, normalSlots)
    else
      var entries := slots.value.entries;
      var fns := BuildResult(entries, normalSlots);
      var res := NormResult(fns, isStable, key, hasNormalSlots);
      var cached := if slots.value.extensible then Some(slots.value.(normalized := Some(res))) else slots;
      Outcome(res, cached, DefineGetters(entries, normalSlots, proxied))
  }

  /** When neither fast path applies, what the result holds. */
  predicate IsFreshResult(slots: Option<ScopedSlots>, normalSlots: map<string, NormalEntry>, res: NormResult)
  {
    var entries := if slots.Some? then slots.value.entries else map[];
    && res.fns.Keys == (set k | k in entries && IsSlotKey(entries, k)) + normalSlots.Keys
    && (forall k :: k in res.fns && IsSlotKey(entries, k) ==> res.fns[k] == Normalized(k, entries[k]))
    && (forall k :: k in res.fns && !IsSlotKey(entries, k) ==> res.fns[k] == ProxyNormal(k))
    && res.stable == (if slots.Some? then Truthy(Get(entries, "$stable")) else |normalSlots| == 0)
    && res.key == (if slots.Some? then Get(entries, "$key") else Undef)
    && res.hasNormal == (|normalSlots| > 0)
  }

  /** The fast path 2 condition. */
  predicate ReusesPrev(s: ScopedSlots, normalSlots: map<string, NormalEntry>, prevSlots: Option<Prev>)
  {
    && Truthy(Get(s.entries, "$stable"))
    && prevSlots.Some? && prevSlots.value.PrevResult?
    && Get(s.entries, "$key") == prevSlots.value.res.key
    && |normalSlots| == 0 && !prevSlots.value.res.hasNormal
  }

  /** The three paths of `normalizeScopedSlots`, each with what it returns and what it writes. */
  lemma NormalizePaths(slots: Option<ScopedSlots>, normalSlots: map<string, NormalEntry>, prevSlots: Option<Prev>,
                       proxied: set<FnId>)
    ensures var o := Normalize(slots, normalSlots, prevSlots, proxied);
      && (slots.Some? && slots.value.normalized.None? && ReusesPrev(slots.value, normalSlots, prevSlots) ==>
            o == Outcome(prevSlots.value.res, slots, normalSlots))
      && (slots.None? ==> IsFreshResult(slots, normalSlots, o.res) && o.slots == slots && o.normalSlots == normalSlots)
      && (slots.Some? && slots.value.normalized.None? && !ReusesPrev(slots.value, normalSlots, prevSlots) ==>
            IsFreshResult(slots, normalSlots, o.res)
            && (slots.value.extensible ==> o.slots == Some(slots.value.(normalized := Some(o.res))))
            && (!slots.value.extensible ==> o.slots == slots)
            && o.normalSlots == DefineGetters(slots.value.entries, normalSlots, proxied))
  {
  }

  /**
   * Caching: unless fast path 2 answered (it writes no cache), a second call
   * with the slots the first call wrote to returns the same result, whatever
   * the normal and previous slots are then (fast path 1).
   */
  lemma SecondCallHitsCache(s: ScopedSlots, normalSlots: map<string, NormalEntry>, prevSlots: Option<Prev>,
                            normalSlots2: map<string, NormalEntry>, prevSlots2: Option<Prev>, proxied: set<FnId>)
    requires s.extensible && !ReusesPrev(s, normalSlots, prevSlots)
    ensures var o := Normalize(Some(s), normalSlots, prevSlots, proxied);
      o.slots.Some? && Normalize(o.slots, normalSlots2, prevSlots2, proxied).res == o.res
  {
  }

  /** A proxy in the result reads back the normal slot it was made for (`proxyNormalSlot`). */
  lemma ProxiesReadNormalSlots(slots: Option<ScopedSlots>, normalSlots: map<string, NormalEntry>, prevSlots: Option<Prev>,
                               proxied: set<FnId>, k: string)
    requires slots.Some? ==> slots.value.normalized.None?
    requires slots.Some? ==> !ReusesPrev(slots.value, normalSlots, prevSlots)
    requires k in normalSlots
    ensures var o := Normalize(slots, normalSlots, prevSlots, proxied);
      k in o.res.fns && (o.res.fns[k].ProxyNormal? ==> o.res.fns[k].key == k && k in o.normalSlots && o.normalSlots[k] == normalSlots[k])
  {
  }

  // =====================================================================
  // what a normalised slot function returns
  // =====================================================================

  /** A value that is not a non-array object: `undefined`, `null`, a primitive, a function or an array. */
  type NotSingle = v: Val | !(IsObject(v) && !v.Arr?) witness Undef

  /**
   * What a scoped slot function returned: a single non-array object, which
   * the source wraps as one vnode, or any other value, which goes through
   * `normalizeChildren`. The subset type keeps every non-array object on
   * the first side.
   */
  datatype SlotReturn = SingleNode(n: Node) | OtherValue(v: NotSingle)

  /**
   * The post-processing of a normalised slot: a single vnode becomes a
   * one-element list, anything else goes through `normalizeChildren` (given
   * as a parameter); an empty list or a lone comment becomes `undefined`.
   */
  function PostProcess(ret: SlotReturn, normalizeChildren: Val -> Option<seq<Node>>): (r: Option<seq<Node>>)
    ensures r.Some? ==> |r.value| > 0 && !(|r.value| == 1 && r.value[0].isComment)
    ensures ret.SingleNode? ==> (r.Some? <==> !ret.n.isComment) && (r.Some? ==> r.value == [ret.n])
    ensures ret.OtherValue? ==> (r.Some? <==> (normalizeChildren(ret.v).Some? && |normalizeChildren(ret.v).value| > 0
                                                && !(|normalizeChildren(ret.v).value| == 1 && normalizeChildren(ret.v).value[0].isComment)))
    ensures r.Some? && ret.OtherValue? ==> r == normalizeChildren(ret.v)
  {
    var res := match ret
      case SingleNode(n) => Some([n])
      case OtherValue(v) => normalizeChildren(v);
    if res.Some? && (|res.value| == 0 || (|res.value| == 1 && res.value[0].isComment)) then None else res
  }

  /**
   * Calling a slot function of the result, `ret` giving what each user slot
   * function returns and `normalizeChildren` standing for the helper of the
   * same name: a wrapped scoped slot post-processes its function's return;
   * a proxy returns `normalSlots[key]` as it is.
   */
  function CallSlot(f: SlotFn, normalSlots: map<string, NormalEntry>, ret: Val -> SlotReturn,
                    normalizeChildren: Val -> Option<seq<Node>>): Option<seq<Node>>
  {
    match f
    case Normalized(_, fn) => PostProcess(ret(fn), normalizeChildren)
    case ProxyNormal(k) => if k in normalSlots then ReadNormal(normalSlots[k], ret, normalizeChildren) else None
  }

  /** Reading `normalSlots[key]`: rendered nodes, or the getter, which runs the wrapped scoped slot. */
  function ReadNormal(e: NormalEntry, ret: Val -> SlotReturn, normalizeChildren: Val -> Option<seq<Node>>): Option<seq<Node>>
  {
    match e
    case Nodes(ns) => Some(ns)
    case ScopedGetter(_, fn) => PostProcess(ret(fn), normalizeChildren)
  }

  /**
   * Where the general path leaves a slot key: calling it through the result
   * post-processes what its function returns, and for a `v-slot` without
   * scope (a function marked `proxy`) reading `normalSlots[key]` gives the
   * same, so `$slots` and `$scopedSlots` agree on it.
   */
  lemma SlotReadsAgree(s: ScopedSlots, normalSlots: map<string, NormalEntry>, prevSlots: Option<Prev>, proxied: set<FnId>,
                       k: string, ret: Val -> SlotReturn, normalizeChildren: Val -> Option<seq<Node>>)
    requires s.normalized.None? && !ReusesPrev(s, normalSlots, prevSlots)
    requires IsSlotKey(s.entries, k)
    ensures var o := Normalize(Some(s), normalSlots, prevSlots, proxied);
      && k in o.res.fns
      && CallSlot(o.res.fns[k], o.normalSlots, ret, normalizeChildren) == PostProcess(ret(s.entries[k]), normalizeChildren)
      && (IsProxied(s.entries[k], proxied) ==>
            k in o.normalSlots
            && ReadNormal(o.normalSlots[k], ret, normalizeChildren) == PostProcess(ret(s.entries[k]), normalizeChildren))
  {
    NormalizePaths(Some(s), normalSlots, prevSlots, proxied);
  }
}

=== FILE: options.dfy ===
/**
 * The option merge engine of src/core/util/options.js: per-key merge
 * strategies, normalisation of the accepted `props`/`inject`/`directives`
 * syntaxes, folding of `extends` and `mixins`, and asset resolution.
 *
 * Options are records `map<string, Val>`. Merging never mutates: where the
 * source mutates its arguments (`mergeData`, the normalisers) the model
 * returns the mutated value.
 */
module Options {
  import opened JsValue

  const LifecycleHooks: set<string> :=
    {"beforeCreate", "created", "beforeMount", "mounted", "beforeUpdate", "updated",
     "beforeDestroy", "destroyed", "activated", "deactivated", "errorCaptured", "serverPrefetch"}

  /** The asset registries: `ASSET_TYPES` with an `s` appended. */
  const AssetKeys: set<string> := {"components", "directives", "filters"}

  /** The keys merged by shallow copy with the child overriding. */
  const HashKeys: set<string> := {"props", "methods", "inject", "computed"}

  // =====================================================================
  // data: mergeData, mergeDataOrFn, strats.data
  // =====================================================================

  /** On a key both records own, `mergeData` recurses iff the values are distinct plain records. */
  predicate DeepMergeable(dst: map<string, Val>, src: map<string, Val>, k: string)
  {
    k in dst && k in src && k != ObKey && dst[k] != src[k] && dst[k].Obj? && src[k].Obj?
  }

  /**
   * `mergeData(dst, src)` when both are records: keys `dst` lacks are copied
   * from `src`, `__ob__` excepted; on a shared key `dst` keeps its value
   * unless both values are distinct records, which are merged recursively.
   */
  function MergeRecords(dst: Val, src: Val): (r: Val)
    requires dst.Obj? && src.Obj?
    decreases dst
    ensures r.Obj? && r.proto == dst.proto
    ensures r.own.Keys == dst.own.Keys + (src.own.Keys - {ObKey})
    ensures (forall k :: k in r.own && k !in dst.own ==> r.own[k] == src.own[k])
  {
    Obj(map k | k in dst.own.Keys + (src.own.Keys - {ObKey}) ::
          if k !in dst.own then src.own[k]
          else if DeepMergeable(dst.own, src.own, k) then MergeRecords(dst.own[k], src.own[k])
          else dst.own[k],
        dst.proto)
  }

  /**
   * `mergeData(dst, src)` for any values. A falsy `src` leaves `dst` as it
   * is. `Reflect.ownKeys` throws on a primitive `src`; `hasOwn` and the
   * reactive `set` throw on an `undefined`, `null` or primitive `dst` as soon
   * as there is a key to copy.
   */
  function MergeData(dst: Val, src: Val): (r: Ret)
    ensures !Truthy(src) ==> r == Returned(dst)
    ensures dst.Obj? && src.Obj? ==> r == Returned(MergeRecords(dst, src))
    ensures IsPrimitive(src) && Truthy(src) ==> r == Threw
  {
    if !Truthy(src) then Returned(dst)
    else if !src.Obj? then
      (if IsPrimitive(src) then Threw else Returned(dst))
    else if dst.Obj? then Returned(MergeRecords(dst, src))
    else if src.own.Keys - {ObKey} == {} then Returned(dst)
    else if dst.Undef? || dst.Null? || IsPrimitive(dst) then Threw
    else Returned(dst)
  }

  /** A data-like option value: functions are called, anything else is the value itself. */
  function Resolve(v: Val, call: FnId -> Ret): Ret
    decreases v, 1
  {
    if IsFunction(v) then Invoke(v, call) else Returned(v)
  }

  /**
   * Calling a function-valued option. A user function answers through `call`;
   * the closures made by `mergeDataOrFn` evaluate the child's data first,
   * then the parent's, and merge the child's over the parent's.
   */
  function Invoke(f: Val, call: FnId -> Ret): Ret
    requires IsFunction(f)
    decreases f, 0
  {
    match f
    case Fn(id) => call(id)
    case Ctor(_, _) => Threw
    case DataFn(c, p, instance) =>
      match Resolve(c, call)
      case Threw => Threw
      case Returned(cv) =>
        match Resolve(p, call)
        case Threw => Threw
        case Returned(pv) =>
          if !instance then MergeData(cv, pv)
          else if Truthy(cv) then MergeData(cv, pv)
          else Returned(pv)
  }

  /** `mergeDataOrFn`: the data (or `provide`) merge, deferred to instantiation. */
  function MergeDataOrFn(parentVal: Val, childVal: Val, vm: bool): (r: Val)
    ensures vm ==> IsFunction(r)
  {
    if !vm then
      if !Truthy(childVal) then parentVal
      else if !Truthy(parentVal) then childVal
      else DataFn(childVal, parentVal, false)
    else DataFn(childVal, parentVal, true)
  }

  /**
   * `strats.data`: in a component definition (no vm) a child `data` that is
   * not a function is rejected and the parent's kept.
   */
  function StratData(parentVal: Val, childVal: Val, vm: bool): (r: Val)
    ensures !vm && Truthy(childVal) && !IsFunction(childVal) ==> r == parentVal
    ensures !vm && !Truthy(childVal) ==> r == parentVal
    ensures !vm && IsFunction(childVal) && !Truthy(parentVal) ==> r == childVal
    ensures vm ==> r == DataFn(childVal, parentVal, true)
  {
    if !vm && Truthy(childVal) && !IsFunction(childVal) then parentVal
    else MergeDataOrFn(parentVal, childVal, vm)
  }

  // =====================================================================
  // lifecycle hooks: mergeHook, dedupeHooks
  // =====================================================================

  /** Hook values of merged options: a list, or nothing. */
  predicate HookListShape(v: Val)
  {
    v.Arr? || !Truthy(v)
  }

  /** `concat`'s view of its argument: an array's elements, or the value alone. */
  function AsList(v: Val): seq<Val>
  {
    if v.Arr? then v.items else [v]
  }

  /** The elements of `s` in order, each kept at its first occurrence only. */
  function KeepFirst(s: seq<Val>): seq<Val>
  {
    if |s| == 0 then []
    else
      var init := KeepFirst(s[..|s| - 1]);
      if s[|s| - 1] in s[..|s| - 1] then init else init + [s[|s| - 1]]
  }

  /** The position of the first occurrence of `x` in `s`. */
  function FirstIndex(s: seq<Val>, x: Val): (i: nat)
    requires x in s
    ensures i < |s| && s[i] == x && x !in s[..i]
  {
    if s[0] == x then 0
    else
      var j := FirstIndex(s[1..], x);
      assert s[..j + 1] == [s[0]] + s[1..][..j];
      j + 1
  }

  /** A position holding `x` with no `x` before it is the first occurrence. */
  lemma FirstIndexUnique(s: seq<Val>, x: Val, i: nat)
    requires i < |s| && s[i] == x && x !in s[..i]
    ensures FirstIndex(s, x) == i
  {
  }

  /** Appending elements does not move a first occurrence. */
  lemma FirstIndexPrefix(s: seq<Val>, t: seq<Val>, x: Val)
    requires x in s
    ensures FirstIndex(s + t, x) == FirstIndex(s, x)
  {
    var i := FirstIndex(s, x);
    assert (s + t)[..i] == s[..i];
    FirstIndexUnique(s + t, x, i);
  }

  /** Deduplication leaves no repeats, drops no value and adds none. */
  lemma {:induction false} KeepFirstSpec(s: seq<Val>)
    ensures NoDup(KeepFirst(s))
    ensures forall x :: x in KeepFirst(s) <==> x in s
    ensures |KeepFirst(s)| <= |s|
  {
    if |s| > 0 {
      var n := |s| - 1;
      KeepFirstSpec(s[..n]);
      assert forall x :: x in s <==> x in s[..n] || x == s[n] by {
        assert s == s[..n] + [s[n]];
      }
    }
  }

  /**
   * Deduplication keeps the values in the order of their first occurrences;
   * with KeepFirstSpec this determines the result.
   */
  lemma {:induction false} KeepFirstOrder(s: seq<Val>)
    ensures forall x :: x in KeepFirst(s) ==> x in s
    ensures forall i, j :: 0 <= i < j < |KeepFirst(s)| ==>
      FirstIndex(s, KeepFirst(s)[i]) < FirstIndex(s, KeepFirst(s)[j])
  {
    KeepFirstSpec(s);
    if |s| > 0 {
      var n := |s| - 1;
      var t := s[..n];
      KeepFirstOrder(t);
      assert s == t + [s[n]];
      var r := KeepFirst(s);
      forall x | x in t ensures FirstIndex(s, x) == FirstIndex(t, x) && FirstIndex(t, x) < n {
        FirstIndexPrefix(t, [s[n]], x);
      }
      if s[n] !in t {
        FirstIndexUnique(s, s[n], n);
        assert r == KeepFirst(t) + [s[n]];
        forall i, j | 0 <= i < j < |r|
          ensures FirstIndex(s, r[i]) < FirstIndex(s, r[j])
        {
          assert r[i] == KeepFirst(t)[i];
          if j < |r| - 1 {
            assert r[j] == KeepFirst(t)[j];
          }
        }
      }
    }
  }

  /** `dedupeHooks`: the loop that keeps an element only if it is not yet in the result. */
  method DedupeHooks(hooks: seq<Val>) returns (res: seq<Val>)
    ensures res == KeepFirst(hooks)
  {
    res := [];
    var i := 0;
    while i < |hooks|
      invariant 0 <= i <= |hooks|
      invariant res == KeepFirst(hooks[..i])
    {
      assert hooks[..i + 1][..i] == hooks[..i];
      KeepFirstSpec(hooks[..i]);
      if hooks[i] !in res {
        res := res + [hooks[i]];
      }
      i := i + 1;
    }
    assert hooks[..|hooks|] == hooks;
  }

  /** The hooks a hook option stands for: an array's elements, a lone function, or none. */
  function HookList(v: Val): seq<Val>
  {
    if Truthy(v) then AsList(v) else []
  }

  /** Everything `mergeHook` concatenates before deduplication. */
  function HookItems(parentVal: Val, childVal: Val): seq<Val>
  {
    HookList(parentVal) + HookList(childVal)
  }

  /**
   * `mergeHook`: the parent's hooks followed by the child's (a bare function
   * counting as a one-element list), duplicates dropped after their first
   * occurrence. With no child hook the parent's value is kept, possibly
   * `undefined`.
   */
  function MergeHook(parentVal: Val, childVal: Val): (r: Val)
    requires HookListShape(parentVal)
    ensures HookListShape(r)
    ensures !Truthy(childVal) && !Truthy(parentVal) ==> r == parentVal
    ensures Truthy(childVal) || Truthy(parentVal) ==>
      r.Arr? && r.items == KeepFirst(HookItems(parentVal, childVal))
    ensures HookList(r) == KeepFirst(HookItems(parentVal, childVal))
  {
    var res :=
      if Truthy(childVal) then
        (if Truthy(parentVal) then Arr(parentVal.items + AsList(childVal))
         else if childVal.Arr? then childVal
         else Arr([childVal]))
      else parentVal;
    assert Truthy(res) ==> res.items == HookItems(parentVal, childVal);
    if Truthy(res) then Arr(KeepFirst(res.items)) else res
  }

  // =====================================================================
  // assets, watch, props/methods/inject/computed, default
  // =====================================================================

  /**
   * `mergeAssets`: a fresh layer holding the child's entries that delegates
   * to the parent's registry (no copy of the parent).
   */
  function MergeAssets(parentVal: Val, childVal: Val): (r: Val)
    requires CanBeProto(parentVal)
    ensures r.Obj?
    ensures r.own == (if Truthy(childVal) then Flatten(childVal) else map[])
    ensures r.proto == (if Truthy(parentVal) then parentVal else Null)
  {
    Obj(if Truthy(childVal) then Flatten(childVal) else map[], if Truthy(parentVal) then parentVal else Null)
  }

  /** The handler list for one key of `strats.watch`. */
  function WatchEntry(parentEntry: Val, childEntry: Val): Val
  {
    if Truthy(parentEntry) then Arr(AsList(parentEntry) + AsList(childEntry))
    else Arr(AsList(childEntry))
  }

  /**
   * `strats.watch`: with no child watch, an empty layer delegating to the
   * parent; with no parent watch, the child's as is; otherwise a copy of the
   * parent's where each key of the child holds the parent's handlers
   * followed by the child's.
   */
  function StratWatch(parentVal: Val, childVal: Val): (r: Val)
    requires CanBeProto(parentVal)
    ensures !Truthy(childVal) ==> r == Obj(map[], if Truthy(parentVal) then parentVal else Null)
    ensures Truthy(childVal) && !Truthy(parentVal) ==> r == childVal
    ensures Truthy(childVal) && Truthy(parentVal) ==>
      r.Obj? && r.own.Keys == Flatten(parentVal).Keys + Flatten(childVal).Keys
      && (forall k :: k in Flatten(childVal) ==> r.own[k].Arr?)
      && (forall k :: k in r.own && k !in Flatten(childVal) ==> r.own[k] == Flatten(parentVal)[k])
    ensures CanBeProto(childVal) ==> CanBeProto(r)
  {
    if !Truthy(childVal) then Obj(map[], if Truthy(parentVal) then parentVal else Null)
    else if !Truthy(parentVal) then childVal
    else
      var p := Flatten(parentVal);
      var c := Flatten(childVal);
      Record(map k | k in p.Keys + c.Keys :: if k in c then WatchEntry(Get(p, k), c[k]) else p[k])
  }

  /**
   * `strats.props`, `.methods`, `.inject`, `.computed`: a shallow copy of
   * the parent with the child's entries overriding; the child as is when
   * there is no parent.
   */
  function StratHash(parentVal: Val, childVal: Val): (r: Val)
    ensures !Truthy(parentVal) ==> r == childVal
    ensures Truthy(parentVal) ==>
      r.Obj? && r.proto == Null
      && r.own.Keys == Flatten(parentVal).Keys + (if Truthy(childVal) then Flatten(childVal).Keys else {})
      && (Truthy(childVal) ==> forall k :: k in Flatten(childVal) ==> r.own[k] == Flatten(childVal)[k])
      && (forall k :: k in Flatten(parentVal) && !(Truthy(childVal) && k in Flatten(childVal)) ==>
            r.own[k] == Flatten(parentVal)[k])
  {
    if !Truthy(parentVal) then childVal
    else Record(Flatten(parentVal) + (if Truthy(childVal) then Flatten(childVal) else map[]))
  }

  /** `defaultStrat`: the child's value unless it is `undefined`. */
  function DefaultStrat(parentVal: Val, childVal: Val): (r: Val)
    ensures r == childVal || r == parentVal
    ensures r == parentVal <==> childVal == Undef || childVal == parentVal
  {
    if childVal == Undef then parentVal else childVal
  }

  /** What the strategy of `key` requires of the parent's value. */
  predicate FieldShape(key: string, v: Val)
  {
    (key in LifecycleHooks ==> HookListShape(v))
    && (key in AssetKeys || key == "watch" ==> CanBeProto(v))
  }

  /** The shape every merged options record has. */
  predicate MergedShape(opts: map<string, Val>)
  {
    forall k :: k in opts ==> FieldShape(k, opts[k])
  }

  /** The keys with a strategy of their own; every other key is merged by `defaultStrat`. */
  const StrategyKeys: set<string> := {"data", "provide", "watch"} + LifecycleHooks + AssetKeys + HashKeys

  /** Each key has at most one strategy. */
  lemma StrategyKeysApart(key: string)
    ensures key in LifecycleHooks ==> key !in AssetKeys && key !in HashKeys && key !in {"data", "provide", "watch"}
    ensures key in AssetKeys ==> key !in HashKeys && key !in {"data", "provide", "watch"}
    ensures key in HashKeys ==> key !in {"data", "provide", "watch"}
  {
  }

  /**
   * `mergeField`: the strategy registered for `key`, `defaultStrat` otherwise.
   * Hooks concatenate parent before child; a registry delegates to the
   * parent's; a hash lets the child override; data and provide are deferred
   * to a function when there is an instance; any other key takes the child's
   * value unless it is `undefined`.
   */
  function MergeField(key: string, parentVal: Val, childVal: Val, vm: bool): (r: Val)
    requires FieldShape(key, parentVal)
    requires key == "watch" ==> CanBeProto(childVal)
    ensures FieldShape(key, r)
    ensures key in LifecycleHooks ==> HookList(r) == KeepFirst(HookList(parentVal) + HookList(childVal))
    ensures key in AssetKeys ==>
      r.Obj? && r.own == (if Truthy(childVal) then Flatten(childVal) else map[])
      && r.proto == (if Truthy(parentVal) then parentVal else Null)
    ensures key in HashKeys && Truthy(parentVal) ==>
      r == Record(Flatten(parentVal) + (if Truthy(childVal) then Flatten(childVal) else map[]))
    ensures key in HashKeys && !Truthy(parentVal) ==> r == childVal
    ensures (key == "data" || key == "provide") && vm ==> IsFunction(r)
    ensures key !in StrategyKeys ==> if childVal == Undef then r == parentVal else r == childVal
  {
    StrategyKeysApart(key);
    if key == "data" then StratData(parentVal, childVal, vm)
    else if key == "provide" then MergeDataOrFn(parentVal, childVal, vm)
    else if key in LifecycleHooks then MergeHook(parentVal, childVal)
    else if key in AssetKeys then MergeAssets(parentVal, childVal)
    else if key == "watch" then StratWatch(parentVal, childVal)
    else if key in HashKeys then StratHash(parentVal, childVal)
    else DefaultStrat(parentVal, childVal)
  }

  // =====================================================================
  // normalisation of props, inject, directives
  // =====================================================================

  /** A prop definition that is not a record becomes `{type: val}`. */
  function PropSpec(val: Val): Val
  {
    if val.Obj? then val else Record(map["type" := val])
  }

  /** The camelized names of the strings of an array-syntax `props`. */
  function PropNames(items: seq<Val>): set<string>
  {
    set i | 0 <= i < |items| && items[i].Str? :: Camelize(items[i].s)
  }

  /**
   * `normalizeProps`. Array syntax: each string, camelized, maps to
   * `{type: null}`; other elements are skipped. Record syntax: each key,
   * camelized, maps to its definition, wrapped as `{type: val}` unless it is
   * a record. Any other shape gives an empty record; a falsy `props` is left
   * alone. When two keys camelize to the same name the source keeps the one
   * it enumerates last; records here carry no key order, so the model keeps
   * one of them.
   */
  ghost function NormalizeProps(props: Val): (r: Val)
    ensures !Truthy(props) ==> r == props
    ensures Truthy(props) ==> r.Obj? && r.proto == Null
    ensures props.Arr? ==>
      r.own.Keys == PropNames(props.items)
      && forall n :: n in r.own ==> r.own[n] == Record(map["type" := Null])
    ensures props.Obj? ==>
      r.own.Keys == CamelizedKeys(Flatten(props))
      && forall n :: n in r.own ==>
           exists k :: k in Flatten(props) && Camelize(k) == n && r.own[n] == PropSpec(Flatten(props)[k])
    ensures Truthy(props) && !props.Arr? && !props.Obj? ==> r == Record(map[])
  {
    if !Truthy(props) then props
    else if props.Arr? then Record(PropsFromNames(PropNames(props.items)))
    else if props.Obj? then Record(PropsFromRecord(Flatten(props)))
    else Record(map[])
  }

  /** Array syntax: each name is a prop of no declared type. */
  function PropsFromNames(names: set<string>): (m: map<string, Val>)
    ensures m.Keys == names
    ensures forall n :: n in m ==> m[n] == Record(map["type" := Null])
  {
    map n | n in names :: Record(map["type" := Null])
  }

  /** Record syntax: each camelized key holds the spec of one of the keys that camelize to it. */
  ghost function PropsFromRecord(f: map<string, Val>): (m: map<string, Val>)
    ensures m.Keys == CamelizedKeys(f)
    ensures forall n :: n in m ==> exists k :: k in f && Camelize(k) == n && m[n] == PropSpec(f[k])
  {
    map n | n in CamelizedKeys(f) :: var k :| k in f && Camelize(k) == n; PropSpec(f[k])
  }

  /** The camelized keys of a record. */
  function CamelizedKeys(f: map<string, Val>): (r: set<string>)
    ensures forall k :: k in f ==> Camelize(k) in r
    ensures forall n :: n in r ==> exists k :: k in f && Camelize(k) == n
  {
    set k | k in f :: Camelize(k)
  }

  /** The string elements of an array-syntax `inject`. */
  function InjectNames(items: seq<Val>): set<string>
  {
    set i | 0 <= i < |items| && items[i].Str? :: items[i].s
  }

  /** One entry of record-syntax `inject`: `{from: key}` extended by a record, or `{from: val}`. */
  function InjectSpec(key: string, val: Val): (r: Val)
    ensures r.Obj? && r.proto == Null && "from" in r.own
    ensures val.Obj? ==> Flatten(r) == map["from" := Str(key)] + Flatten(val)
    ensures !val.Obj? ==> r.own["from"] == val
  {
    if val.Obj? then Record(map["from" := Str(key)] + Flatten(val))
    else Record(map["from" := val])
  }

  /**
   * `normalizeInject`: array syntax maps each name to `{from: name}`; record
   * syntax maps each key through `InjectSpec`; any other truthy shape leaves
   * an empty record (the result object is installed before the shape test).
   */
  function NormalizeInject(inject: Val): (r: Val)
    ensures !Truthy(inject) ==> r == inject
    ensures Truthy(inject) ==> r.Obj? && r.proto == Null
    ensures inject.Arr? ==>
      r.own.Keys == InjectNames(inject.items)
      && forall n :: n in r.own ==> r.own[n] == Record(map["from" := Str(n)])
    ensures inject.Obj? ==>
      r.own.Keys == Flatten(inject).Keys
      && forall k :: k in r.own ==>
           r.own[k].Obj? && "from" in r.own[k].own
           && (Flatten(inject)[k].Obj? ==>
                 Flatten(r.own[k]) == map["from" := Str(k)] + Flatten(Flatten(inject)[k]))
           && (!Flatten(inject)[k].Obj? ==> r.own[k].own["from"] == Flatten(inject)[k])
    ensures Truthy(inject) && !inject.Arr? && !inject.Obj? ==> r == Record(map[])
  {
    if !Truthy(inject) then inject
    else if inject.Arr? then Record(InjectFromNames(InjectNames(inject.items)))
    else if inject.Obj? then Record(InjectFromRecord(Flatten(inject)))
    else Record(map[])
  }

  /** Array syntax: each name `n` is injected from `n`. */
  function InjectFromNames(names: set<string>): (m: map<string, Val>)
    ensures m.Keys == names
    ensures forall n :: n in m ==> m[n] == Record(map["from" := Str(n)])
  {
    map n | n in names :: Record(map["from" := Str(n)])
  }

  /** Record syntax: each enumerated key through `InjectSpec`. */
  function InjectFromRecord(f: map<string, Val>): (m: map<string, Val>)
    ensures m.Keys == f.Keys
    ensures forall k :: k in m ==> m[k] == InjectSpec(k, f[k])
  {
    map k | k in f :: InjectSpec(k, f[k])
  }

  /** A function directive `f` becomes `{bind: f, update: f}`. */
  function DirectiveSpec(def: Val): Val
  {
    Record(map["bind" := def, "update" := def])
  }

  /**
   * `normalizeDirectives`: every function-valued directive the record
   * enumerates becomes `{bind: f, update: f}`, written as an own property;
   * other entries are untouched. `for..in` over an array visits its indices,
   * so an array has its function elements rewritten in place.
   */
  function NormalizeDirectives(dirs: Val): (r: Val)
    ensures !dirs.Obj? && !dirs.Arr? ==> r == dirs
    ensures dirs.Obj? ==>
      r.Obj? && Flatten(r).Keys == Flatten(dirs).Keys
      && forall k :: k in Flatten(dirs) ==>
           Lookup(r, k) == (if IsFunction(Flatten(dirs)[k]) then DirectiveSpec(Flatten(dirs)[k]) else Flatten(dirs)[k])
    ensures dirs.Arr? ==>
      r.Arr? && |r.items| == |dirs.items|
      && forall i :: 0 <= i < |dirs.items| ==>
           r.items[i] == (if IsFunction(dirs.items[i]) then DirectiveSpec(dirs.items[i]) else dirs.items[i])
  {
    if dirs.Obj? then
      Obj(dirs.own + FunctionDirectives(Flatten(dirs)), dirs.proto)
    else if dirs.Arr? then
      Arr(seq(|dirs.items|, i requires 0 <= i < |dirs.items| => DirectiveItem(dirs.items[i])))
    else dirs
  }

  /** One array element of `directives` after normalisation. */
  function DirectiveItem(def: Val): Val
  {
    if IsFunction(def) then DirectiveSpec(def) else def
  }

  /** The function-valued entries of `f`, each as `{bind: f, update: f}`. */
  function FunctionDirectives(f: map<string, Val>): (m: map<string, Val>)
    ensures forall k :: k in m <==> k in f && IsFunction(f[k])
    ensures forall k :: k in m ==> m[k] == DirectiveSpec(f[k])
  {
    map k | k in f && IsFunction(f[k]) :: DirectiveSpec(f[k])
  }

  /** The three normalisations `mergeOptions` applies to the child first. */
  ghost function Normalize(o: map<string, Val>): (r: map<string, Val>)
    ensures r.Keys == o.Keys
    ensures forall k :: k in o && k != "props" && k != "inject" && k != "directives" ==> r[k] == o[k]
  {
    var o1 := if "props" in o && Truthy(o["props"]) then o["props" := NormalizeProps(o["props"])] else o;
    var o2 := if "inject" in o1 && Truthy(o1["inject"]) then o1["inject" := NormalizeInject(o1["inject"])] else o1;
    if "directives" in o2 && Truthy(o2["directives"]) then o2["directives" := NormalizeDirectives(o2["directives"])] else o2
  }

  // =====================================================================
  // mergeOptions
  // =====================================================================

  /**
   * The options a child offers to `mergeOptions`: a constructor's `options`,
   * or every property of a record that `for..in` and a read reach, inherited
   * ones included.
   */
  function OptionsOf(child: Val): (o: map<string, Val>)
    ensures child.Ctor? ==> o == child.options
    ensures child.Obj? ==> forall k :: k in o <==> HasProp(child, k)
    ensures child.Obj? ==> forall k :: k in o ==> o[k] == Lookup(child, k)
    ensures !child.Ctor? && !child.Obj? ==> o == map[]
  {
    match child
    case Ctor(_, opts) => opts
    case Obj(_, _) => Flatten(child)
    case _ => map[]
  }

  /**
   * What `mergeOptions` needs of a child: it is an options record or a
   * constructor; its `watch` can serve as a prototype (a later merge passes
   * it to `Object.create`); and the same holds of its `extends` and `mixins`.
   */
  predicate RawShape(child: Val)
  {
    match child
    case Ctor(_, opts) => ChildFieldsShape(opts)
    case Obj(_, _) =>
      var o := Flatten(child);
      ChildFieldsShape(o)
      && ("extends" in o && Truthy(o["extends"]) ==> (FlattenedSmaller(child, "extends"); RawShape(o["extends"])))
      && ("mixins" in o && o["mixins"].Arr? ==>
            (FlattenedSmaller(child, "mixins");
             forall i :: 0 <= i < |o["mixins"].items| ==> RawShape(o["mixins"].items[i])))
    case _ => false
  }

  predicate ChildFieldsShape(o: map<string, Val>)
  {
    CanBeProto(Get(o, "watch"))
  }

  /**
   * The parent after `extends`, then each of `mixins` in order, have been
   * merged into it; unchanged for a child that already carries `_base` (the
   * result of an earlier merge).
   */
  ghost function FoldedParent(parent: map<string, Val>, child: Val, vm: bool): (p: map<string, Val>)
    requires MergedShape(parent) && RawShape(child)
    ensures MergedShape(p)
    decreases child, 1
  {
    match child
    case Ctor(_, _) => parent
    case Obj(_, _) =>
      var o := Flatten(child);
      if "_base" in o && Truthy(o["_base"]) then parent
      else
        var afterExtends :=
          if "extends" in o && Truthy(o["extends"]) then FlattenedSmaller(child, "extends"); MergeOptions(parent, o["extends"], vm)
          else parent;
        if "mixins" in o && o["mixins"].Arr? then FlattenedSmaller(child, "mixins"); FoldMixins(afterExtends, o["mixins"], 0, vm)
        else afterExtends
  }

  /** Merges `mixins.items[i..]` into the parent, left to right. */
  ghost function FoldMixins(parent: map<string, Val>, mixins: Val, i: nat, vm: bool): (p: map<string, Val>)
    requires MergedShape(parent)
    requires mixins.Arr? && i <= |mixins.items|
    requires forall j :: 0 <= j < |mixins.items| ==> RawShape(mixins.items[j])
    ensures MergedShape(p)
    decreases mixins, |mixins.items| - i
  {
    if i == |mixins.items| then parent
    else FoldMixins(MergeOptions(parent, mixins.items[i], vm), mixins, i + 1, vm)
  }

  /** The merge loops of `mergeOptions`: every key of either side, merged once by its strategy. */
  function MergeFields(p: map<string, Val>, c: map<string, Val>, vm: bool): (r: map<string, Val>)
    requires MergedShape(p)
    requires CanBeProto(Get(c, "watch"))
    ensures r.Keys == p.Keys + c.Keys
    ensures MergedShape(r)
  {
    map k | k in p.Keys + c.Keys :: MergeField(k, Get(p, k), Get(c, k), vm)
  }

  /**
   * `mergeOptions(parent, child, vm)`: normalise the child, fold its
   * `extends` and `mixins` into the parent, then merge every key of either
   * side exactly once with the key's strategy.
   */
  ghost function MergeOptions(parent: map<string, Val>, child: Val, vm: bool): (r: map<string, Val>)
    requires MergedShape(parent) && RawShape(child)
    ensures MergedShape(r)
    decreases child, 2
  {
    var c := Normalize(OptionsOf(child));
    assert Get(c, "watch") == Get(OptionsOf(child), "watch");
    MergeFields(FoldedParent(parent, child, vm), c, vm)
  }

  /** The merged record has the keys of the folded parent and of the child, each merged by its strategy. */
  lemma MergeOptionsFields(parent: map<string, Val>, child: Val, vm: bool)
    requires MergedShape(parent) && RawShape(child)
    ensures MergeOptions(parent, child, vm).Keys == FoldedParent(parent, child, vm).Keys + OptionsOf(child).Keys
    ensures forall k :: k in MergeOptions(parent, child, vm) ==>
      MergeOptions(parent, child, vm)[k]
        == MergeField(k, Get(FoldedParent(parent, child, vm), k), Get(Normalize(OptionsOf(child)), k), vm)
  {
    var c := Normalize(OptionsOf(child));
    assert Get(c, "watch") == Get(OptionsOf(child), "watch");
  }

  /**
   * The hooks for `key` that a child brings, in the order `mergeOptions`
   * concatenates them: those of its `extends`, then those of each of its
   * `mixins` left to right (both skipped when it carries `_base`), then its
   * own.
   */
  function ContributedHooks(child: Val, key: string): seq<Val>
    requires RawShape(child)
    decreases child, 2
  {
    FoldedHooks(child, key) + HookList(Get(OptionsOf(child), key))
  }

  /** The hooks for `key` brought by a child's `extends` and `mixins`. */
  function FoldedHooks(child: Val, key: string): seq<Val>
    requires RawShape(child)
    decreases child, 1
  {
    match child
    case Ctor(_, _) => []
    case Obj(_, _) =>
      var o := Flatten(child);
      if "_base" in o && Truthy(o["_base"]) then []
      else
        (if "extends" in o && Truthy(o["extends"]) then FlattenedSmaller(child, "extends"); ContributedHooks(o["extends"], key)
         else [])
        + (if "mixins" in o && o["mixins"].Arr? then FlattenedSmaller(child, "mixins"); MixinHooks(o["mixins"], 0, key)
           else [])
  }

  /** The hooks for `key` brought by `mixins.items[i..]`, left to right. */
  function MixinHooks(mixins: Val, i: nat, key: string): seq<Val>
    requires mixins.Arr? && i <= |mixins.items|
    requires forall j :: 0 <= j < |mixins.items| ==> RawShape(mixins.items[j])
    decreases mixins, |mixins.items| - i
  {
    if i == |mixins.items| then []
    else ContributedHooks(mixins.items[i], key) + MixinHooks(mixins, i + 1, key)
  }

  // =====================================================================
  // resolveAsset
  // =====================================================================

  /** No own registration under `id`, its camelized form, or that form capitalized. */
  predicate NoOwnSpelling(assets: Val, id: string)
  {
    !HasOwn(assets, id) && !HasOwn(assets, Camelize(id)) && !HasOwn(assets, Capitalize(Camelize(id)))
  }

  /**
   * `resolveAsset(options, type, id)`: own registrations under `id`, its
   * camelized form and that form capitalized, in that order; then the first
   * truthy of the three along the delegation chain (the last read when all
   * are falsy). A non-string id gives `undefined`.
   */
  function ResolveAsset(options: map<string, Val>, assetType: string, id: Val): (r: Val)
    requires Get(options, assetType).Obj?
    ensures !id.Str? ==> r == Undef
    ensures id.Str? && HasOwn(Get(options, assetType), id.s) ==> r == Get(options, assetType).own[id.s]
    ensures id.Str? && !HasOwn(Get(options, assetType), id.s) && HasOwn(Get(options, assetType), Camelize(id.s))
      ==> r == Get(options, assetType).own[Camelize(id.s)]
    ensures id.Str? && !HasOwn(Get(options, assetType), id.s) && !HasOwn(Get(options, assetType), Camelize(id.s))
      && HasOwn(Get(options, assetType), Capitalize(Camelize(id.s)))
      ==> r == Get(options, assetType).own[Capitalize(Camelize(id.s))]
    ensures id.Str? && NoOwnSpelling(Get(options, assetType), id.s) ==>
      (Truthy(Lookup(Get(options, assetType), id.s)) ==> r == Lookup(Get(options, assetType), id.s))
      && (Truthy(r) <==>
            Truthy(Lookup(Get(options, assetType), id.s))
            || Truthy(Lookup(Get(options, assetType), Camelize(id.s)))
            || Truthy(Lookup(Get(options, assetType), Capitalize(Camelize(id.s)))))
    ensures r != Undef ==>
      id.Str?
      && (HasProp(Get(options, assetType), id.s)
          || HasProp(Get(options, assetType), Camelize(id.s))
          || HasProp(Get(options, assetType), Capitalize(Camelize(id.s))))
  {
    if !id.Str? then Undef
    else
      var assets := options[assetType];
      var camelized := Camelize(id.s);
      var pascal := Capitalize(camelized);
      if id.s in assets.own then assets.own[id.s]
      else if camelized in assets.own then assets.own[camelized]
      else if pascal in assets.own then assets.own[pascal]
      else
        var a := Lookup(assets, id.s);
        if Truthy(a) then a
        else
          var b := Lookup(assets, camelized);
          if Truthy(b) then b else Lookup(assets, pascal)
  }

  // =====================================================================
  // laws
  // =====================================================================

  /**
   * `r` keeps everything `dst` holds: its keys, its prototype, its leaves,
   * and, below each record value, the same again.
   */
  ghost predicate ExtendsDeep(r: Val, dst: Val)
    decreases dst
  {
    dst.Obj? ==>
      r.Obj? && r.proto == dst.proto && dst.own.Keys <= r.own.Keys
      && forall k :: k in dst.own ==>
           if dst.own[k].Obj? then ExtendsDeep(r.own[k], dst.own[k]) else r.own[k] == dst.own[k]
  }

  /** Every key of `src` but `__ob__` is present in `r`, at every depth where both hold records. */
  ghost predicate Covers(r: Val, src: Val)
    decreases src
  {
    src.Obj? ==>
      r.Obj?
      && forall k :: k in src.own && k != ObKey ==>
           k in r.own && (r.own[k].Obj? && src.own[k].Obj? ==> Covers(r.own[k], src.own[k]))
  }

  lemma {:induction false} ExtendsDeepRefl(v: Val)
    ensures ExtendsDeep(v, v)
    decreases v
  {
    if v.Obj? {
      forall k | k in v.own && v.own[k].Obj?
        ensures ExtendsDeep(v.own[k], v.own[k])
      {
        ExtendsDeepRefl(v.own[k]);
      }
    }
  }

  lemma {:induction false} CoversRefl(v: Val)
    ensures Covers(v, v)
    decreases v
  {
    if v.Obj? {
      forall k | k in v.own && k != ObKey && v.own[k].Obj?
        ensures Covers(v.own[k], v.own[k])
      {
        CoversRefl(v.own[k]);
      }
    }
  }

  /** `mergeData` never overwrites: the child's data survives the merge at every depth. */
  lemma {:induction false} MergeRecordsKeepsTarget(dst: Val, src: Val)
    requires dst.Obj? && src.Obj?
    ensures ExtendsDeep(MergeRecords(dst, src), dst)
    decreases dst
  {
    var r := MergeRecords(dst, src);
    forall k | k in dst.own
      ensures if dst.own[k].Obj? then ExtendsDeep(r.own[k], dst.own[k]) else r.own[k] == dst.own[k]
    {
      if DeepMergeable(dst.own, src.own, k) {
        MergeRecordsKeepsTarget(dst.own[k], src.own[k]);
      } else if dst.own[k].Obj? {
        ExtendsDeepRefl(dst.own[k]);
      }
    }
  }

  /** `mergeData` misses nothing: every key of the parent's data but `__ob__` ends up in the result. */
  lemma {:induction false} MergeRecordsCoversSource(dst: Val, src: Val)
    requires dst.Obj? && src.Obj?
    ensures Covers(MergeRecords(dst, src), src)
    decreases dst
  {
    var r := MergeRecords(dst, src);
    forall k | k in src.own && k != ObKey && r.own[k].Obj? && src.own[k].Obj?
      ensures Covers(r.own[k], src.own[k])
    {
      if DeepMergeable(dst.own, src.own, k) {
        MergeRecordsCoversSource(dst.own[k], src.own[k]);
      } else if k !in dst.own || dst.own[k] == src.own[k] {
        CoversRefl(src.own[k]);
      }
    }
  }

  /** Merging a record into one equal to it changes nothing. */
  lemma MergeRecordsSelf(v: Val)
    requires v.Obj?
    ensures MergeRecords(v, v) == v
  {
  }

  /** When both sides' data evaluate to records, the merged data is the child's merged over the parent's. */
  lemma MergedDataIsMergeOfBoth(parentVal: Val, childVal: Val, vm: bool, call: FnId -> Ret)
    requires Resolve(parentVal, call).Returned? && Resolve(parentVal, call).v.Obj?
    requires Resolve(childVal, call).Returned? && Resolve(childVal, call).v.Obj?
    ensures Resolve(MergeDataOrFn(parentVal, childVal, vm), call)
         == Returned(MergeRecords(Resolve(childVal, call).v, Resolve(parentVal, call).v))
  {
  }

  /** With no child data, the merged data evaluates to the parent's, failure included. */
  lemma MergedDataWithoutChild(parentVal: Val, vm: bool, call: FnId -> Ret)
    ensures Resolve(MergeDataOrFn(parentVal, Undef, vm), call) == Resolve(parentVal, call)
  {
    if vm {
      assert Resolve(Undef, call) == Returned(Undef);
      assert Resolve(DataFn(Undef, parentVal, true), call) == Invoke(DataFn(Undef, parentVal, true), call);
    }
  }

  /** With no parent data, the merged data evaluates to the child's when that is a record. */
  lemma MergedDataWithoutParent(childVal: Val, vm: bool, call: FnId -> Ret)
    requires Resolve(childVal, call).Returned? && Resolve(childVal, call).v.Obj?
    ensures Resolve(MergeDataOrFn(Undef, childVal, vm), call) == Resolve(childVal, call)
  {
    assert Truthy(childVal);
    if vm {
      assert Resolve(Undef, call) == Returned(Undef);
      assert Resolve(DataFn(childVal, Undef, true), call) == Invoke(DataFn(childVal, Undef, true), call);
    }
  }

  lemma {:induction false} KeepFirstOfDistinct(s: seq<Val>)
    requires NoDup(s)
    ensures KeepFirst(s) == s
  {
    if |s| > 0 {
      var n := |s| - 1;
      KeepFirstOfDistinct(s[..n]);
      assert s[n] !in s[..n] by {
        forall j | 0 <= j < n ensures s[..n][j] != s[n] {
          assert s[j] != s[n];
        }
      }
      assert s[..n] + [s[n]] == s;
    }
  }

  /** Appending values already present changes nothing once duplicates are dropped. */
  lemma {:induction false} KeepFirstAbsorbs(r: seq<Val>, t: seq<Val>)
    requires NoDup(r)
    requires forall i :: 0 <= i < |t| ==> t[i] in r
    ensures KeepFirst(r + t) == r
    decreases |t|
  {
    if |t| == 0 {
      assert r + t == r;
      KeepFirstOfDistinct(r);
    } else {
      var n := |t| - 1;
      KeepFirstAbsorbs(r, t[..n]);
      assert t[n] in r + t[..n] by {
        assert t[n] in r;
      }
      KeepFirstDropsRepeat(r + t[..n], t[n]);
      assert r + t == (r + t[..n]) + [t[n]];
    }
  }

  /** An element already present is dropped. */
  lemma KeepFirstDropsRepeat(s: seq<Val>, x: Val)
    requires x in s
    ensures KeepFirst(s + [x]) == KeepFirst(s)
  {
    assert (s + [x])[..|s|] == s;
  }

  /** Dropping duplicates keeps a duplicate-free prefix where it is. */
  lemma {:induction false} KeepFirstKeepsPrefix(a: seq<Val>, b: seq<Val>)
    requires NoDup(a)
    ensures |a| <= |KeepFirst(a + b)| && KeepFirst(a + b)[..|a|] == a
    decreases |b|
  {
    if |b| == 0 {
      assert a + b == a;
      KeepFirstOfDistinct(a);
    } else {
      var n := |b| - 1;
      KeepFirstKeepsPrefix(a, b[..n]);
      var s := a + b;
      assert s[..|s| - 1] == a + b[..n];
    }
  }

  /** A parent's distinct hooks run first, in their order, after merging in a child hook. */
  lemma MergeHookParentFirst(parentVal: Val, childVal: Val)
    requires parentVal.Arr? && NoDup(parentVal.items)
    ensures MergeHook(parentVal, childVal).Arr?
    ensures |parentVal.items| <= |MergeHook(parentVal, childVal).items|
    ensures MergeHook(parentVal, childVal).items[..|parentVal.items|] == parentVal.items
  {
    if Truthy(childVal) {
      KeepFirstKeepsPrefix(parentVal.items, AsList(childVal));
    } else {
      KeepFirstOfDistinct(parentVal.items);
    }
  }

  /** Merging the same hooks a second time changes nothing. */
  lemma MergeHookIdempotent(parentVal: Val, childVal: Val)
    requires HookListShape(parentVal)
    ensures MergeHook(MergeHook(parentVal, childVal), childVal) == MergeHook(parentVal, childVal)
  {
    var r := MergeHook(parentVal, childVal);
    if Truthy(r) {
      KeepFirstAbsorbsTail(HookList(parentVal), HookList(childVal));
      assert HookItems(r, childVal) == r.items + HookList(childVal);
    }
  }

  /** Appending the same elements again after deduplication changes nothing. */
  lemma KeepFirstAbsorbsTail(p: seq<Val>, c: seq<Val>)
    ensures KeepFirst(KeepFirst(p + c) + c) == KeepFirst(p + c)
  {
    KeepFirstSpec(p + c);
    forall i | 0 <= i < |c| ensures c[i] in KeepFirst(p + c) {
      assert c[i] == (p + c)[|p| + i];
    }
    KeepFirstAbsorbs(KeepFirst(p + c), c);
  }

  /** A parent hook `A` and child hooks `[B, A]` merge to `[A, B]`. */
  lemma MergeHookDropsRepeat(a: FnId, b: FnId)
    requires a != b
    ensures MergeHook(Arr([Fn(a)]), Arr([Fn(b), Fn(a)])) == Arr([Fn(a), Fn(b)])
  {
    var s := [Fn(a), Fn(b), Fn(a)];
    assert [Fn(a)] + [Fn(b), Fn(a)] == s;
    assert KeepFirst([Fn(a)]) == [Fn(a)] by {
      assert [Fn(a)][..0] == [];
    }
    assert KeepFirst([Fn(a), Fn(b)]) == [Fn(a), Fn(b)] by {
      assert [Fn(a), Fn(b)][..1] == [Fn(a)];
    }
    assert s[..2] == [Fn(a), Fn(b)];
    assert KeepFirst(s) == [Fn(a), Fn(b)];
  }

  /** A merged registry answers the child's entries and delegates everything else to the parent's. */
  lemma AssetLookupDelegates(parentVal: Val, childVal: Val, k: string)
    requires CanBeProto(parentVal)
    ensures Lookup(MergeAssets(parentVal, childVal), k)
         == if Truthy(childVal) && HasProp(childVal, k) then Lookup(childVal, k) else Lookup(parentVal, k)
  {
  }

  /** On a key watched by both sides, the parent's handlers come first, then the child's. */
  lemma WatchHandlersParentFirst(parentVal: Val, childVal: Val, k: string)
    requires CanBeProto(parentVal) && Truthy(parentVal) && Truthy(childVal)
    requires HasProp(childVal, k)
    ensures StratWatch(parentVal, childVal).own[k].items
         == (if Truthy(Lookup(parentVal, k)) then AsList(Lookup(parentVal, k)) else []) + AsList(Lookup(childVal, k))
  {
    var p := Flatten(parentVal);
    var c := Flatten(childVal);
    assert k in c && c[k] == Lookup(childVal, k);
    assert Get(p, k) == Lookup(parentVal, k);
    assert StratWatch(parentVal, childVal).own[k] == WatchEntry(Get(p, k), c[k]);
  }

  /** A child that already went through a merge (it carries `_base`) is not folded again. */
  lemma MergedChildNotRefolded(parent: map<string, Val>, child: Val, vm: bool)
    requires MergedShape(parent) && RawShape(child)
    requires child.Obj? && HasProp(child, "_base") && Truthy(Lookup(child, "_base"))
    ensures FoldedParent(parent, child, vm) == parent
  {
    var o := Flatten(child);
    assert "_base" in o && Truthy(o["_base"]);
  }

  /** A mixin's `created` hook runs before the component's own: one instance of MergedHooksInOrder. */
  lemma MixinHookRunsFirst(m: FnId, c: FnId)
    requires m != c
    ensures
      var mixin := Record(map["created" := Fn(m)]);
      var child := Record(map["created" := Fn(c), "mixins" := Arr([mixin])]);
      RawShape(child) && "created" in MergeOptions(map[], child, false)
      && MergeOptions(map[], child, false)["created"] == Arr([Fn(m), Fn(c)])
  {
    var mixin := Record(map["created" := Fn(m)]);
    var child := Record(map["created" := Fn(c), "mixins" := Arr([mixin])]);
    MixinChildHooks(m, c);
    KeepFirstOfDistinct([Fn(m), Fn(c)]);
    MergedHooksInOrder(map[], child, false, "created");
    var r := MergeOptions(map[], child, false);
    assert FieldShape("created", Get(r, "created"));
  }

  /** A record without delegation offers exactly its own properties. */
  lemma RecordOptions(m: map<string, Val>)
    ensures Flatten(Record(m)) == m
  {
    assert Flatten(Record(m)) == map[] + m;
  }

  /** The child of MixinHookRunsFirst brings its mixin's hook, then its own. */
  lemma MixinChildHooks(m: FnId, c: FnId)
    ensures
      var mixin := Record(map["created" := Fn(m)]);
      var child := Record(map["created" := Fn(c), "mixins" := Arr([mixin])]);
      RawShape(child) && HookList(Get(map[], "created")) + ContributedHooks(child, "created") == [Fn(m), Fn(c)]
  {
    var mixin := Record(map["created" := Fn(m)]);
    var child := Record(map["created" := Fn(c), "mixins" := Arr([mixin])]);
    MixinOfOneHook(m);
    RecordOptions(child.own);
    assert RawShape(child);
    assert ContributedHooks(child, "created") == [Fn(m), Fn(c)] by {
      var o := Flatten(child);
      assert "_base" !in o && "extends" !in o && o["mixins"] == Arr([mixin]);
      assert FoldedHooks(child, "created") == [] + MixinHooks(Arr([mixin]), 0, "created");
    }
  }

  /** The mixin of MixinHookRunsFirst brings its one hook. */
  lemma MixinOfOneHook(m: FnId)
    ensures var mixin := Record(map["created" := Fn(m)]);
      RawShape(mixin) && MixinHooks(Arr([mixin]), 0, "created") == [Fn(m)]
  {
    var mixin := Record(map["created" := Fn(m)]);
    RecordOptions(mixin.own);
    assert RawShape(mixin);
    assert ContributedHooks(mixin, "created") == [Fn(m)] by {
      assert FoldedHooks(mixin, "created") == [];
    }
    assert MixinHooks(Arr([mixin]), 1, "created") == [];
  }

  /** Deduplicating a prefix first changes nothing. */
  lemma {:induction false} KeepFirstNested(a: seq<Val>, b: seq<Val>)
    ensures KeepFirst(KeepFirst(a) + b) == KeepFirst(a + b)
    decreases |b|
  {
    KeepFirstSpec(a);
    if |b| == 0 {
      assert KeepFirst(a) + b == KeepFirst(a) && a + b == a;
      KeepFirstOfDistinct(KeepFirst(a));
    } else {
      var n := |b| - 1;
      KeepFirstNested(a, b[..n]);
      var l := KeepFirst(a) + b;
      var r := a + b;
      assert l[..|l| - 1] == KeepFirst(a) + b[..n] && l[|l| - 1] == b[n];
      assert r[..|r| - 1] == a + b[..n] && r[|r| - 1] == b[n];
      assert b[n] in KeepFirst(a) + b[..n] <==> b[n] in a + b[..n];
    }
  }

  /** Deduplicating twice is deduplicating once. */
  lemma KeepFirstTwice(s: seq<Val>)
    ensures KeepFirst(KeepFirst(s)) == KeepFirst(s)
  {
    KeepFirstSpec(s);
    KeepFirstOfDistinct(KeepFirst(s));
  }

  /** A list that deduplicates like `a + b` may stand for `a + b` in front of more elements. */
  lemma KeepFirstChain(a: seq<Val>, b: seq<Val>, c: seq<Val>, e: seq<Val>)
    requires KeepFirst(e) == KeepFirst(a + b)
    ensures KeepFirst(e + c) == KeepFirst(a + (b + c))
  {
    KeepFirstCongruent(e, a + b, c);
    SeqAssoc(a, b, c);
  }

  /** Lists that deduplicate alike still do so with the same elements appended. */
  lemma KeepFirstCongruent(x: seq<Val>, y: seq<Val>, c: seq<Val>)
    requires KeepFirst(x) == KeepFirst(y)
    ensures KeepFirst(x + c) == KeepFirst(y + c)
  {
    KeepFirstNested(x, c);
    KeepFirstNested(y, c);
  }

  lemma SeqAssoc(a: seq<Val>, b: seq<Val>, c: seq<Val>)
    ensures a + b + c == a + (b + c)
  {
  }

  /**
   * For every lifecycle hook, the merged list is the parent's hooks, then
   * those of the child's `extends`, then those of each mixin in order, then
   * the child's own, each hook kept at its first occurrence.
   */
  lemma {:induction false} MergedHooksInOrder(parent: map<string, Val>, child: Val, vm: bool, key: string)
    requires MergedShape(parent) && RawShape(child) && key in LifecycleHooks
    ensures HookList(Get(MergeOptions(parent, child, vm), key))
         == KeepFirst(HookList(Get(parent, key)) + ContributedHooks(child, key))
    decreases child, 3
  {
    var f := FoldedParent(parent, child, vm);
    var own := Get(OptionsOf(child), key);
    MergedHookField(parent, child, vm, key);
    FoldedHooksInOrder(parent, child, vm, key);
    KeepFirstChain(HookList(Get(parent, key)), FoldedHooks(child, key), HookList(own), HookList(Get(f, key)));
  }

  /** No hook name is a key with a strategy of its own or a normalised key. */
  lemma HookKeyIsPlain(key: string)
    requires key in LifecycleHooks
    ensures key != "data" && key != "provide" && key != "props" && key != "inject" && key != "directives"
  {
  }

  /** The merged value of a hook key is `mergeHook` of the folded parent's and the child's own. */
  lemma MergedHookField(parent: map<string, Val>, child: Val, vm: bool, key: string)
    requires MergedShape(parent) && RawShape(child) && key in LifecycleHooks
    ensures FieldShape(key, Get(FoldedParent(parent, child, vm), key))
    ensures Get(MergeOptions(parent, child, vm), key)
         == MergeHook(Get(FoldedParent(parent, child, vm), key), Get(OptionsOf(child), key))
  {
    var f := FoldedParent(parent, child, vm);
    var c := Normalize(OptionsOf(child));
    var r := MergeOptions(parent, child, vm);
    MergeOptionsFields(parent, child, vm);
    HookKeyIsPlain(key);
    assert Get(c, key) == Get(OptionsOf(child), key);
    assert FieldShape(key, Get(f, key));
    if key in r {
      assert r[key] == MergeField(key, Get(f, key), Get(c, key), vm);
    } else {
      assert key !in f && key !in OptionsOf(child);
    }
  }

  /** `extends`, then `mixins` left to right, reach the folded parent's hook list, unless `_base` is set. */
  lemma {:induction false} FoldedHooksInOrder(parent: map<string, Val>, child: Val, vm: bool, key: string)
    requires MergedShape(parent) && RawShape(child) && key in LifecycleHooks
    ensures KeepFirst(HookList(Get(FoldedParent(parent, child, vm), key)))
         == KeepFirst(HookList(Get(parent, key)) + FoldedHooks(child, key))
    decreases child, 2
  {
    var a := HookList(Get(parent, key));
    if child.Obj? && !(var o := Flatten(child); "_base" in o && Truthy(o["_base"])) {
      FoldedHooksOfRecord(parent, child, vm, key);
    } else {
      assert a + [] == a;
    }
  }

  /** FoldedHooksInOrder for a record child without `_base`. */
  lemma {:induction false} FoldedHooksOfRecord(parent: map<string, Val>, child: Val, vm: bool, key: string)
    requires MergedShape(parent) && RawShape(child) && key in LifecycleHooks && child.Obj?
    requires var o := Flatten(child); !("_base" in o && Truthy(o["_base"]))
    ensures KeepFirst(HookList(Get(FoldedParent(parent, child, vm), key)))
         == KeepFirst(HookList(Get(parent, key)) + FoldedHooks(child, key))
    decreases child, 1
  {
    var a := HookList(Get(parent, key));
    var o := Flatten(child);
    var hasExt := "extends" in o && Truthy(o["extends"]);
    var ext := if hasExt then ContributedHooks(o["extends"], key) else [];
    var afterExtends := if hasExt then MergeOptions(parent, o["extends"], vm) else parent;
    var e := HookList(Get(afterExtends, key));
    if hasExt {
      FlattenedSmaller(child, "extends");
      MergedHooksInOrder(parent, o["extends"], vm, key);
      KeepFirstTwice(a + ext);
    } else {
      assert a + ext == a;
    }
    if "mixins" in o && o["mixins"].Arr? {
      var mix := MixinHooks(o["mixins"], 0, key);
      FlattenedSmaller(child, "mixins");
      MixinHooksInOrder(afterExtends, o["mixins"], 0, vm, key);
      KeepFirstChain(a, ext, mix, e);
      assert FoldedHooks(child, key) == ext + mix;
    } else {
      KeepFirstChain(a, ext, [], e);
      assert e + [] == e;
      assert FoldedHooks(child, key) == ext + [];
    }
  }

  /** Mixins `mixins.items[i..]` reach the parent's hook list left to right. */
  lemma {:induction false} MixinHooksInOrder(parent: map<string, Val>, mixins: Val, i: nat, vm: bool, key: string)
    requires MergedShape(parent) && key in LifecycleHooks
    requires mixins.Arr? && i <= |mixins.items|
    requires forall j :: 0 <= j < |mixins.items| ==> RawShape(mixins.items[j])
    ensures KeepFirst(HookList(Get(FoldMixins(parent, mixins, i, vm), key)))
         == KeepFirst(HookList(Get(parent, key)) + MixinHooks(mixins, i, key))
    decreases mixins, |mixins.items| - i
  {
    var a := HookList(Get(parent, key));
    if i == |mixins.items| {
      assert a + [] == a;
    } else {
      var next := MergeOptions(parent, mixins.items[i], vm);
      var c := ContributedHooks(mixins.items[i], key);
      var rest := MixinHooks(mixins, i + 1, key);
      MergedHooksInOrder(parent, mixins.items[i], vm, key);
      MixinHooksInOrder(next, mixins, i + 1, vm, key);
      KeepFirstStep(a, c, rest, HookList(Get(next, key)), HookList(Get(FoldMixins(next, mixins, i + 1, vm), key)));
    }
  }

  /** One mixin step of MixinHooksInOrder, on the hook lists alone. */
  lemma KeepFirstStep(a: seq<Val>, c: seq<Val>, rest: seq<Val>, next: seq<Val>, folded: seq<Val>)
    requires next == KeepFirst(a + c)
    requires KeepFirst(folded) == KeepFirst(next + rest)
    ensures KeepFirst(folded) == KeepFirst(a + (c + rest))
  {
    KeepFirstTwice(a + c);
    KeepFirstChain(a, c, rest, next);
  }

  // ---------------------------------------------------------------------
  // override order of `defaultStrat` and the hash strategy
  // ---------------------------------------------------------------------

  /** How a merged key is read: its whole value (`defaultStrat` keys), or one entry of a hash. */
  datatype Reading = Whole | Entry(name: string)

  /** What a value offers under a reading: a defined value, or an entry found on the record or its chain. */
  function Pick(rd: Reading, v: Val): Option<Val>
  {
    match rd
    case Whole => if v != Undef then Some(v) else None
    case Entry(n) => if HasProp(v, n) then Some(Lookup(v, n)) else None
  }

  /** The first of two offers that is present. */
  function Else(a: Option<Val>, b: Option<Val>): Option<Val>
  {
    if a.Some? then a else b
  }

  /** Keys merged by overriding: `defaultStrat` keys read whole, hash keys read entry by entry. */
  predicate Overriding(key: string, rd: Reading)
  {
    if rd.Whole? then key !in StrategyKeys else key in HashKeys
  }

  /** One merge of an overriding key: the child's offer wins over the parent's. */
  lemma FieldOverrides(key: string, rd: Reading, parentVal: Val, childVal: Val, vm: bool)
    requires Overriding(key, rd) && FieldShape(key, parentVal)
    ensures Pick(rd, MergeField(key, parentVal, childVal, vm)) == Else(Pick(rd, childVal), Pick(rd, parentVal))
  {
    StrategyKeysApart(key);
    if rd.Entry? {
      assert MergeField(key, parentVal, childVal, vm) == StratHash(parentVal, childVal);
      HashEntryOverrides(rd.name, parentVal, childVal);
    }
  }

  /** An entry of the merged hash is the child's when the child defines it, the parent's otherwise. */
  lemma HashEntryOverrides(n: string, parentVal: Val, childVal: Val)
    ensures Pick(Entry(n), StratHash(parentVal, childVal)) == Else(Pick(Entry(n), childVal), Pick(Entry(n), parentVal))
  {
    if Truthy(parentVal) {
      RecordOptions(Flatten(parentVal) + (if Truthy(childVal) then Flatten(childVal) else map[]));
    }
  }

  /** The child's normalised value for `key`, the side `mergeOptions` merges last. */
  ghost function ChildValue(child: Val, key: string): Val
  {
    Get(Normalize(OptionsOf(child)), key)
  }

  /**
   * What a child offers for `key` under `rd`: its own value when it has one,
   * otherwise what its mixins and `extends` offer.
   */
  ghost function Contributed(child: Val, key: string, rd: Reading): Option<Val>
    requires RawShape(child)
    decreases child, 2
  {
    Else(Pick(rd, ChildValue(child, key)), FoldedContribution(child, key, rd))
  }

  /**
   * What a child's mixins offer, the last one that has an offer winning,
   * and otherwise its `extends`; nothing for a child with `_base` or a
   * constructor.
   */
  ghost function FoldedContribution(child: Val, key: string, rd: Reading): Option<Val>
    requires RawShape(child)
    decreases child, 1
  {
    match child
    case Ctor(_, _) => None
    case Obj(_, _) =>
      var o := Flatten(child);
      if "_base" in o && Truthy(o["_base"]) then None
      else
        Else(
          if "mixins" in o && o["mixins"].Arr? then FlattenedSmaller(child, "mixins"); MixinContribution(o["mixins"], 0, key, rd)
          else None,
          if "extends" in o && Truthy(o["extends"]) then FlattenedSmaller(child, "extends"); Contributed(o["extends"], key, rd)
          else None)
  }

  /** What `mixins.items[i..]` offer, a later mixin winning over an earlier one. */
  ghost function MixinContribution(mixins: Val, i: nat, key: string, rd: Reading): Option<Val>
    requires mixins.Arr? && i <= |mixins.items|
    requires forall j :: 0 <= j < |mixins.items| ==> RawShape(mixins.items[j])
    decreases mixins, |mixins.items| - i
  {
    if i == |mixins.items| then None
    else Else(MixinContribution(mixins, i + 1, key, rd), Contributed(mixins.items[i], key, rd))
  }

  /**
   * The override order of `mergeOptions`, for every input: a key merged by
   * `defaultStrat` ends with the child's defined value, else the last mixin's,
   * else the `extends`' (each counted the same way), else the parent's; and
   * each entry of a hash key (`props`, `methods`, `inject`, `computed`) comes
   * from the innermost side that defines it, in that same order.
   */
  lemma {:induction false} MergedOverridesInOrder(parent: map<string, Val>, child: Val, vm: bool, key: string, rd: Reading)
    requires MergedShape(parent) && RawShape(child) && Overriding(key, rd)
    ensures Pick(rd, Get(MergeOptions(parent, child, vm), key))
         == Else(Contributed(child, key, rd), Pick(rd, Get(parent, key)))
    decreases child, 3
  {
    MergedOverridingField(parent, child, vm, key, rd);
    FoldedOverridesInOrder(parent, child, vm, key, rd);
  }

  /** The merged value of an overriding key offers the child's value over the folded parent's. */
  lemma MergedOverridingField(parent: map<string, Val>, child: Val, vm: bool, key: string, rd: Reading)
    requires MergedShape(parent) && RawShape(child) && Overriding(key, rd)
    ensures Pick(rd, Get(MergeOptions(parent, child, vm), key))
         == Else(Pick(rd, ChildValue(child, key)), Pick(rd, Get(FoldedParent(parent, child, vm), key)))
  {
    var f := FoldedParent(parent, child, vm);
    var c := Normalize(OptionsOf(child));
    var r := MergeOptions(parent, child, vm);
    MergeOptionsFields(parent, child, vm);
    StrategyKeysApart(key);
    if key in r {
      assert FieldShape(key, Get(f, key));
      assert r[key] == MergeField(key, Get(f, key), Get(c, key), vm);
      FieldOverrides(key, rd, Get(f, key), Get(c, key), vm);
    } else {
      assert key !in f && key !in c;
    }
  }

  /** `extends`, then `mixins` left to right, offer their values over the parent's, unless `_base` is set. */
  lemma {:induction false} FoldedOverridesInOrder(parent: map<string, Val>, child: Val, vm: bool, key: string, rd: Reading)
    requires MergedShape(parent) && RawShape(child) && Overriding(key, rd)
    ensures Pick(rd, Get(FoldedParent(parent, child, vm), key))
         == Else(FoldedContribution(child, key, rd), Pick(rd, Get(parent, key)))
    decreases child, 2
  {
    if child.Obj? {
      var o := Flatten(child);
      if !("_base" in o && Truthy(o["_base"])) {
        if "mixins" in o && o["mixins"].Arr? {
          FoldedWithMixins(parent, child, vm, key, rd);
        } else {
          ExtendsOverrides(parent, child, vm, key, rd);
        }
      }
    }
  }

  /** FoldedOverridesInOrder for a record child with mixins and no `_base`. */
  lemma {:induction false} FoldedWithMixins(parent: map<string, Val>, child: Val, vm: bool, key: string, rd: Reading)
    requires MergedShape(parent) && RawShape(child) && Overriding(key, rd) && child.Obj?
    requires var o := Flatten(child); !("_base" in o && Truthy(o["_base"])) && "mixins" in o && o["mixins"].Arr?
    ensures Pick(rd, Get(FoldedParent(parent, child, vm), key))
         == Else(FoldedContribution(child, key, rd), Pick(rd, Get(parent, key)))
    decreases child, 1
  {
    var o := Flatten(child);
    ExtendsOverrides(parent, child, vm, key, rd);
    var afterExtends := if "extends" in o && Truthy(o["extends"]) then MergeOptions(parent, o["extends"], vm) else parent;
    FlattenedSmaller(child, "mixins");
    MixinOverridesInOrder(afterExtends, o["mixins"], 0, vm, key, rd);
  }

  /** The `extends` of a record child offers its value over the parent's. */
  lemma {:induction false} ExtendsOverrides(parent: map<string, Val>, child: Val, vm: bool, key: string, rd: Reading)
    requires MergedShape(parent) && RawShape(child) && Overriding(key, rd) && child.Obj?
    ensures var o := Flatten(child);
      "extends" in o && Truthy(o["extends"]) ==>
        Pick(rd, Get(MergeOptions(parent, o["extends"], vm), key))
        == Else(Contributed(o["extends"], key, rd), Pick(rd, Get(parent, key)))
    decreases child, 0
  {
    var o := Flatten(child);
    if "extends" in o && Truthy(o["extends"]) {
      FlattenedSmaller(child, "extends");
      MergedOverridesInOrder(parent, o["extends"], vm, key, rd);
    }
  }

  /** Mixins `mixins.items[i..]` offer their values over the parent's, a later one winning. */
  lemma {:induction false} MixinOverridesInOrder(parent: map<string, Val>, mixins: Val, i: nat, vm: bool, key: string, rd: Reading)
    requires MergedShape(parent) && Overriding(key, rd)
    requires mixins.Arr? && i <= |mixins.items|
    requires forall j :: 0 <= j < |mixins.items| ==> RawShape(mixins.items[j])
    ensures Pick(rd, Get(FoldMixins(parent, mixins, i, vm), key))
         == Else(MixinContribution(mixins, i, key, rd), Pick(rd, Get(parent, key)))
    decreases mixins, |mixins.items| - i
  {
    if i < |mixins.items| {
      var next := MergeOptions(parent, mixins.items[i], vm);
      MergedOverridesInOrder(parent, mixins.items[i], vm, key, rd);
      MixinOverridesInOrder(next, mixins, i + 1, vm, key, rd);
    }
  }

  /**
   * Registered means found: in a registry built by `mergeAssets`, an entry
   * the child registers under the id is found, and so is a truthy entry of
   * the parent's registry under the id that the child does not shadow.
   */
  lemma RegisteredAssetFound(global: Val, local: Val, assetType: string, id: string)
    requires CanBeProto(global)
    ensures var options := map[assetType := MergeAssets(global, local)];
      (Truthy(local) && HasProp(local, id) ==> ResolveAsset(options, assetType, Str(id)) == Lookup(local, id))
      && (!(Truthy(local) && (HasProp(local, id) || HasProp(local, Camelize(id))
                              || HasProp(local, Capitalize(Camelize(id)))))
          && Truthy(Lookup(global, id))
          ==> ResolveAsset(options, assetType, Str(id)) == Lookup(global, id))
  {
    var m := MergeAssets(global, local);
    AssetLookupDelegates(global, local, id);
  }

  /** An entry already of the form `{from: …}` is its own normalisation. */
  lemma InjectSpecFixed(key: string, v: Val)
    requires v.Obj? && v.proto == Null && "from" in v.own
    ensures InjectSpec(key, v) == v
  {
    assert Flatten(v) == v.own;
    assert map["from" := Str(key)] + v.own == v.own;
  }

  /** A normalised `inject`: a plain record of `{from: …}` records. */
  predicate InjectNormalForm(r: Val)
  {
    r.Obj? && r.proto == Null
    && forall k :: k in r.own ==> r.own[k].Obj? && r.own[k].proto == Null && "from" in r.own[k].own
  }

  /** Every truthy `inject` normalises to the normal form. */
  lemma NormalizeInjectNormalForm(inject: Val)
    requires Truthy(inject)
    ensures InjectNormalForm(NormalizeInject(inject))
  {
  }

  /** The normal form is left as it is. */
  lemma NormalFormInjectFixed(r: Val)
    requires InjectNormalForm(r)
    ensures NormalizeInject(r) == r
  {
    var m := r.own;
    assert Flatten(r) == m;
    forall k | k in m ensures InjectSpec(k, m[k]) == m[k] {
      InjectSpecFixed(k, m[k]);
    }
    assert InjectFromRecord(m) == m;
  }

  /**
   * Normalising `inject` twice is normalising it once, so `mergeOptions`
   * may normalise options it already normalised.
   */
  lemma NormalizeInjectIdempotent(inject: Val)
    ensures NormalizeInject(NormalizeInject(inject)) == NormalizeInject(inject)
  {
    if Truthy(inject) {
      NormalizeInjectNormalForm(inject);
      NormalFormInjectFixed(NormalizeInject(inject));
    }
  }

  /** Normalising `directives` twice is normalising them once: no function entry is left. */
  lemma NormalizeDirectivesIdempotent(dirs: Val)
    ensures NormalizeDirectives(NormalizeDirectives(dirs)) == NormalizeDirectives(dirs)
  {
    if dirs.Obj? {
      var r := NormalizeDirectives(dirs);
      NoDirectiveFunctionLeft(dirs);
      NoFunctionNoDirective(Flatten(r));
      assert r.own + map[] == r.own;
    } else if dirs.Arr? {
      var r := NormalizeDirectives(dirs);
      assert forall i :: 0 <= i < |r.items| ==> DirectiveItem(r.items[i]) == r.items[i];
    }
  }

  lemma NoFunctionNoDirective(f: map<string, Val>)
    requires forall k :: k in f ==> !IsFunction(f[k])
    ensures FunctionDirectives(f) == map[]
  {
  }

  /** After normalisation no directive is a function. */
  lemma NoDirectiveFunctionLeft(dirs: Val)
    requires dirs.Obj?
    ensures forall k :: k in Flatten(NormalizeDirectives(dirs)) ==> !IsFunction(Flatten(NormalizeDirectives(dirs))[k])
  {
    var r := NormalizeDirectives(dirs);
    forall k | k in Flatten(r) ensures !IsFunction(Flatten(r)[k]) {
      assert k in Flatten(dirs);
    }
  }


  /** A normalised `props` whose names camelize to themselves: a plain record of records. */
  predicate PropsNormalForm(r: Val)
  {
    r.Obj? && r.proto == Null && forall n :: n in r.own ==> r.own[n].Obj? && Camelize(n) == n
  }

  /** Such a record is left as it is. */
  lemma NormalFormPropsFixed(r: Val)
    requires PropsNormalForm(r)
    ensures NormalizeProps(r) == r
  {
    var m := r.own;
    assert Flatten(r) == m;
    var q := PropsFromRecord(m);
    forall n | n in m ensures n in q && q[n] == m[n] {
      assert Camelize(n) == n;
    }
    forall n | n in q ensures n in m {
      var k :| k in m && Camelize(k) == n;
    }
    assert q == m;
  }

  /**
   * Normalising `props` twice is normalising them once, provided camelizing
   * the normalised names changes none of them (it can change a name that
   * still holds a hyphen, as `a--b` camelizes to `a-B`).
   */
  lemma NormalizePropsIdempotent(props: Val)
    requires Truthy(props) ==> forall n :: n in NormalizeProps(props).own ==> Camelize(n) == n
    ensures NormalizeProps(NormalizeProps(props)) == NormalizeProps(props)
  {
    if Truthy(props) {
      var r := NormalizeProps(props);
      NormalizedPropsAreRecords(props);
      assert PropsNormalForm(r);
      NormalFormPropsFixed(r);
    }
  }

  /** Every normalised prop definition is a record, held in a record without delegation. */
  lemma NormalizedPropsAreRecords(props: Val)
    requires Truthy(props)
    ensures NormalizeProps(props).Obj? && NormalizeProps(props).proto == Null
    ensures forall n :: n in NormalizeProps(props).own ==> NormalizeProps(props).own[n].Obj?
  {
    if props.Obj? {
      PropsFromRecordRecords(Flatten(props));
    }
  }

  lemma PropsFromRecordRecords(f: map<string, Val>)
    ensures forall n :: n in PropsFromRecord(f) ==> PropsFromRecord(f)[n].Obj?
  {
    var m := PropsFromRecord(f);
    forall n | n in m ensures m[n].Obj? {
      var k :| k in f && Camelize(k) == n && m[n] == PropSpec(f[k]);
    }
  }
}

=== FILE: ref.dfy ===
/**
 * The `ref` module of the patch (src/core/vdom/modules/ref.js): a vnode with
 * `data.ref` registers its component instance or element in the context
 * instance's `$refs`, as a single value or, inside `v-for`, in an array.
 */
module Ref {
  import opened JsValue

  /** What `$refs[key]` holds: nothing (absent or `undefined`), one target, or the `v-for` array. */
  datatype Slot = Unset | One(target: nat) | Many(targets: seq<nat>)

  /**
   * A vnode as the module sees it: `data.ref`, `data.refInFor`, and its
   * target, `componentInstance || elm`, identified by a number.
   */
  datatype RefNode = RefNode(key: Option<string>, inFor: bool, target: nat)

  type Refs = map<string, Slot>

  function SlotOf(refs: Refs, key: string): Slot
  {
    if key in refs then refs[key] else Unset
  }

  /** Whether `$refs[key]` points at `t`, directly or through its array. */
  predicate Refers(refs: Refs, key: string, t: nat)
  {
    match SlotOf(refs, key)
    case Unset => false
    case One(x) => x == t
    case Many(ts) => t in ts
  }

  /** Every `v-for` array lists each target once. */
  predicate RefsOk(refs: Refs)
  {
    forall k :: k in refs && refs[k].Many? ==> NoDup(refs[k].targets)
  }

  /** `remove(arr, item)` of shared/util: drop the first occurrence, if any. */
  function RemoveFirst(s: seq<nat>, x: nat): (r: seq<nat>)
    ensures x !in s ==> r == s
    ensures x in s ==> multiset(r) + multiset{x} == multiset(s)
    ensures forall y :: y in r ==> y in s
    ensures NoDup(s) ==> NoDup(r) && x !in r
  {
    if |s| == 0 then s
    else if s[0] == x then
      assert s == [s[0]] + s[1..];
      s[1..]
    else
      assert s == [s[0]] + s[1..];
      var rest := RemoveFirst(s[1..], x);
      assert NoDup(s) ==> s[0] !in s[1..];
      [s[0]] + rest
  }

  /** `arr.indexOf(item)` for an item that is present. */
  function IndexOf(s: seq<nat>, x: nat): (i: nat)
    requires x in s
    ensures i < |s| && s[i] == x && x !in s[..i]
  {
    if s[0] == x then 0
    else
      assert s == [s[0]] + s[1..];
      var j := IndexOf(s[1..], x);
      assert s[..j + 1] == [s[0]] + s[1..][..j];
      j + 1
  }

  /** `remove` cuts out exactly the first occurrence and keeps everything else in order. */
  lemma {:induction false} RemoveFirstSplits(s: seq<nat>, x: nat)
    requires x in s
    ensures RemoveFirst(s, x) == s[..IndexOf(s, x)] + s[IndexOf(s, x) + 1..]
  {
    if s[0] == x {
      assert s[..0] + s[1..] == s[1..];
    } else {
      assert s == [s[0]] + s[1..];
      var t := s[1..];
      RemoveFirstSplits(t, x);
      var i := IndexOf(t, x);
      assert IndexOf(s, x) == i + 1;
      assert RemoveFirst(s, x) == [s[0]] + (t[..i] + t[i + 1..]);
      assert s[..i + 1] == [s[0]] + t[..i];
      assert s[i + 2..] == t[i + 1..];
      ConcatAssoc([s[0]], t[..i], t[i + 1..]);
    }
  }

  /** `registerRef(vnode, isRemoval)` against the context's `$refs`. */
  function RegisterRef(refs: Refs, v: RefNode, isRemoval: bool): (r: Refs)
    ensures v.key.None? ==> r == refs
    ensures v.key.Some? ==> forall k :: k != v.key.value ==> SlotOf(r, k) == SlotOf(refs, k)
    ensures v.key.Some? && !isRemoval ==> Refers(r, v.key.value, v.target)
    ensures v.key.Some? && !isRemoval && !v.inFor ==> SlotOf(r, v.key.value) == One(v.target)
    ensures v.key.Some? && isRemoval && RefsOk(refs) ==> !Refers(r, v.key.value, v.target)
    ensures v.key.Some? && isRemoval && SlotOf(refs, v.key.value).Many? ==>
      SlotOf(r, v.key.value) == Many(RemoveFirst(SlotOf(refs, v.key.value).targets, v.target))
    ensures v.key.Some? && !isRemoval && v.inFor && SlotOf(refs, v.key.value).Many? ==>
      var ts := SlotOf(refs, v.key.value).targets;
      SlotOf(r, v.key.value) == Many(if v.target in ts then ts else ts + [v.target])
    ensures v.key.Some? && !isRemoval && v.inFor && !SlotOf(refs, v.key.value).Many? ==>
      SlotOf(r, v.key.value) == Many([v.target])
    ensures RefsOk(refs) ==> RefsOk(r)
  {
    if v.key.None? then refs
    else
      var key := v.key.value;
      var slot := SlotOf(refs, key);
      if isRemoval then
        match slot
        case Many(ts) =>
          assert key in refs;
          refs[key := Many(RemoveFirst(ts, v.target))]
        case One(x) => if x == v.target then refs[key := Unset] else refs
        case Unset => refs
      else if v.inFor then
        match slot
        case Many(ts) => if v.target !in ts then refs[key := Many(ts + [v.target])] else refs
        case _ => refs[key := Many([v.target])]
      else refs[key := One(v.target)]
  }

  /** The create hook. */
  function Create(refs: Refs, v: RefNode): (r: Refs)
    ensures v.key.Some? ==> Refers(r, v.key.value, v.target)
  {
    RegisterRef(refs, v, false)
  }

  /** The update hook: when the ref name changed, the old registration goes and the new one comes. */
  function Update(refs: Refs, prev: RefNode, v: RefNode): (r: Refs)
    ensures prev.key == v.key ==> r == refs
    ensures prev.key != v.key && v.key.Some? ==> Refers(r, v.key.value, v.target)
    ensures prev.key != v.key && prev.key.Some? && RefsOk(refs) ==>
      !Refers(r, prev.key.value, prev.target)
  {
    if prev.key != v.key then RegisterRef(RegisterRef(refs, prev, true), v, false) else refs
  }

  /** The destroy hook. */
  function Destroy(refs: Refs, v: RefNode): (r: Refs)
    ensures v.key.Some? && RefsOk(refs) ==> !Refers(r, v.key.value, v.target)
  {
    RegisterRef(refs, v, true)
  }

  // =====================================================================
  // laws
  // =====================================================================

  /** Registering a `v-for` target twice lists it once: the array behaves as a set. */
  lemma InForRegistrationIdempotent(refs: Refs, v: RefNode)
    requires v.key.Some? && v.inFor
    ensures var once := RegisterRef(refs, v, false);
      RegisterRef(once, v, false) == once
  {
  }

  /**
   * Destroying a vnode whose plain ref was already taken over by a newer
   * vnode under the same name leaves the newer one registered.
   */
  lemma DestroySparesNewerOwner(refs: Refs, older: RefNode, newer: RefNode)
    requires older.key.Some? && older.key == newer.key && !older.inFor && !newer.inFor
    requires older.target != newer.target
    ensures var r := Destroy(Create(Create(refs, older), newer), older);
      SlotOf(r, older.key.value) == One(newer.target)
  {
  }

  /** Registering then destroying a `v-for` entry leaves the other entries of its array in order. */
  lemma {:induction false} InForDestroyRestores(ts: seq<nat>, t: nat)
    requires t !in ts
    ensures RemoveFirst(ts + [t], t) == ts
    decreases |ts|
  {
    if |ts| == 0 {
      assert ts + [t] == [t];
    } else {
      assert (ts + [t])[1..] == ts[1..] + [t];
      InForDestroyRestores(ts[1..], t);
      assert ts == [ts[0]] + ts[1..];
    }
  }

  /** A `v-for` array that existed before creation is given back unchanged by the matching destroy. */
  lemma InForCreateThenDestroy(refs: Refs, v: RefNode)
    requires v.key.Some? && v.inFor && SlotOf(refs, v.key.value).Many?
    requires v.target !in SlotOf(refs, v.key.value).targets
    ensures Destroy(Create(refs, v), v) == refs
  {
    var key := v.key.value;
    var ts := refs[key].targets;
    var created := Create(refs, v);
    assert created == refs[key := Many(ts + [v.target])];
    InForDestroyRestores(ts, v.target);
    assert Destroy(created, v) == created[key := Many(ts)];
    assert refs[key := Many(ts)] == refs;
  }
}

=== FILE: render_slot.dfy ===
/**
 * `renderSlot` of src/core/instance/render-helpers/render-slot.js (the `_t`
 * render helper): the nodes for a `<slot>`, from the scoped slot function or
 * the normal slot, with the fallback content when there are none.
 */
module RenderSlot {
  import opened JsValue
  import opened NormalizeScopedSlots

  /** The nodes `<slot>` renders, or, when they go on into another component's slot, a `template` around them. */
  datatype SlotOut = Plain(nodes: Option<seq<Node>>) | Template(slot: Val, children: Option<seq<Node>>)

  /** `extend(extend({}, bindObject), props)`: `props` entries over `bindObject`'s enumerable ones. */
  function SlotProps(props: map<string, Val>, bindObject: Val): (r: map<string, Val>)
    ensures forall k :: k in r <==> k in props || HasProp(bindObject, k)
    ensures forall k :: k in props ==> r[k] == props[k]
    ensures forall k :: k in r && k !in props ==> r[k] == Lookup(bindObject, k)
  {
    Flatten(bindObject) + props
  }

  /**
   * `renderSlot(name, fallback, props, bindObject)` on an instance with
   * `$scopedSlots` and `$slots`; `callSlot(fn, props)` is what the scoped
   * slot function returns (already normalised).
   */
  function Render(scopedSlots: map<string, Val>, slots: map<string, seq<Node>>, name: string,
                  fallback: Option<seq<Node>>, props: Option<map<string, Val>>, bindObject: Val,
                  callSlot: (Val, map<string, Val>) -> Option<seq<Node>>): (r: SlotOut)
    ensures Truthy(Get(scopedSlots, name)) ==>
      var p := ScopedProps(props, bindObject);
      var fromFn := callSlot(Get(scopedSlots, name), p);
      && NodesOf(r) == (if fromFn.Some? then fromFn else fallback)
      && (r.Template? <==> Truthy(Get(p, "slot")))
      && (r.Template? ==> r.slot == Get(p, "slot"))
    ensures !Truthy(Get(scopedSlots, name)) ==>
      && NodesOf(r) == (if name in slots then Some(slots[name]) else fallback)
      && (r.Template? <==> props.Some? && Truthy(Get(props.value, "slot")))
      && (r.Template? ==> r.slot == Get(props.value, "slot"))
  {
    var scopedSlotFn := Get(scopedSlots, name);
    if Truthy(scopedSlotFn) then
      var p := ScopedProps(props, bindObject);
      var fromFn := callSlot(scopedSlotFn, p);
      var nodes := if fromFn.Some? then fromFn else fallback;
      var target := Get(p, "slot");
      if Truthy(target) then Template(target, nodes) else Plain(nodes)
    else
      var nodes := if name in slots then Some(slots[name]) else fallback;
      if props.Some? && Truthy(Get(props.value, "slot")) then Template(Get(props.value, "slot"), nodes)
      else Plain(nodes)
  }

  /** The nodes of an outcome, wrapped or not. */
  function NodesOf(o: SlotOut): Option<seq<Node>>
  {
    match o
    case Plain(n) => n
    case Template(_, n) => n
  }

  /** The props a scoped slot function receives: `props` (or `{}`) over `bindObject`'s keys when it is given. */
  function ScopedProps(props: Option<map<string, Val>>, bindObject: Val): map<string, Val>
  {
    var p0 := if props.Some? then props.value else map[];
    if Truthy(bindObject) then SlotProps(p0, bindObject) else p0
  }

  /**
   * `bindObject` and the slot function matter only for a scoped slot:
   * without one, any two choices of them render the same, so a `slot`
   * key in `bindObject` does not wrap a normal slot.
   */
  lemma BindObjectOnlyForScopedSlots(scopedSlots: map<string, Val>, slots: map<string, seq<Node>>, name: string,
                                     fallback: Option<seq<Node>>, props: Option<map<string, Val>>,
                                     bind1: Val, bind2: Val,
                                     call1: (Val, map<string, Val>) -> Option<seq<Node>>,
                                     call2: (Val, map<string, Val>) -> Option<seq<Node>>)
    requires !Truthy(Get(scopedSlots, name))
    ensures Render(scopedSlots, slots, name, fallback, props, bind1, call1)
         == Render(scopedSlots, slots, name, fallback, props, bind2, call2)
  {
  }

  /** The `template` wrapper changes only the shape: with or without a target, the same nodes. */
  lemma SlotTargetKeepsNodes(scopedSlots: map<string, Val>, slots: map<string, seq<Node>>, name: string,
                             fallback: Option<seq<Node>>, props: map<string, Val>, target: Val,
                             callSlot: (Val, map<string, Val>) -> Option<seq<Node>>)
    requires !Truthy(Get(scopedSlots, name)) && Truthy(target)
    ensures var wrapped := Render(scopedSlots, slots, name, fallback, Some(props["slot" := target]), Undef, callSlot);
      var bare := Render(scopedSlots, slots, name, fallback, Some(props - {"slot"}), Undef, callSlot);
      wrapped == Template(target, NodesOf(bare)) && bare.Plain?
  {
    assert Get(props - {"slot"}, "slot") == Undef;
  }

  /**
   * `bindObject` supplies the keys `props` lacks; a `slot` key coming from
   * `bindObject` alone still makes the result a `template`.
   */
  lemma BoundSlotTargetWraps(f: FnId, callSlot: (Val, map<string, Val>) -> Option<seq<Node>>)
    ensures var bind := Record(map["slot" := Str("header")]);
      var r := Render(map["default" := Fn(f)], map[], "default", None, None, bind, callSlot);
      r.Template? && r.slot == Str("header")
  {
    var bind := Record(map["slot" := Str("header")]);
    assert HasProp(bind, "slot");
    var p := SlotProps(map[], bind);
    assert "slot" in p && p["slot"] == Str("header");
  }
}

=== FILE: resolve_scoped_slots.dfy ===
/**
 * `resolveScopedSlots` of src/core/instance/render-helpers/resolve-scoped-slots.js
 * (the `_u` render helper): flattens the compiled scoped-slot descriptors,
 * nested arrays included, into one record from slot name to slot function.
 */
module ResolveScopedSlots {
  import opened JsValue

  /** One element of `fns`: a nested array, a falsy hole, or `{key, fn, proxy}`. */
  datatype SlotEntry =
    | Nested(items: seq<SlotEntry>)
    | Hole
    | Desc(key: string, fn: FnId, proxy: bool)

  /**
   * The record being filled: `$stable`, the slot functions, `$key` when set,
   * and the functions marked `fn.proxy = true` along the way.
   */
  datatype Resolved = Resolved(stable: bool, fns: map<string, FnId>, key: Option<nat>, proxied: set<FnId>)

  /** The `for` loop over `fns`, writing into `res`. */
  function ResolveInto(items: seq<SlotEntry>, res: Resolved): (r: Resolved)
    ensures r.stable == res.stable && r.key == res.key
    ensures res.fns.Keys <= r.fns.Keys && res.proxied <= r.proxied
    decreases items
  {
    if |items| == 0 then res else ResolveInto(items[1..], ResolveEntry(items[0], res))
  }

  /** One iteration: recurse into an array with the same `res`, skip a hole, write a descriptor. */
  function ResolveEntry(e: SlotEntry, res: Resolved): (r: Resolved)
    ensures r.stable == res.stable && r.key == res.key
    ensures res.fns.Keys <= r.fns.Keys && res.proxied <= r.proxied
    decreases e
  {
    match e
    case Nested(items) => ResolveInto(items, res)
    case Hole => res
    case Desc(key, fn, proxy) =>
      res.(fns := res.fns[key := fn], proxied := if proxy then res.proxied + {fn} else res.proxied)
  }

  /**
   * `resolveScopedSlots(fns, res, hasDynamicKeys, contentHashKey)`: a missing
   * `res` starts as `{$stable: !hasDynamicKeys}`; `$key` is set only for a
   * truthy (non-zero) `contentHashKey`.
   */
  function Resolve(fns: seq<SlotEntry>, res: Option<Resolved>, hasDynamicKeys: bool, contentHashKey: nat): (r: Resolved)
    ensures res.None? ==> r.stable == !hasDynamicKeys
    ensures res.Some? ==> r.stable == res.value.stable
    ensures contentHashKey != 0 ==> r.key == Some(contentHashKey)
    ensures contentHashKey == 0 ==> r.key == (if res.Some? then res.value.key else None)
  {
    var start := if res.Some? then res.value else Resolved(!hasDynamicKeys, map[], None, {});
    var filled := ResolveInto(fns, start);
    if contentHashKey != 0 then filled.(key := Some(contentHashKey)) else filled
  }

  // =====================================================================
  // reference: the descriptors in order, then one write each
  // =====================================================================

  /** The descriptors of `fns` in visiting order, nested arrays spliced in place and holes dropped. */
  function Flat(items: seq<SlotEntry>): (r: seq<SlotEntry>)
    ensures forall i :: 0 <= i < |r| ==> r[i].Desc?
    decreases items
  {
    if |items| == 0 then [] else FlatEntry(items[0]) + Flat(items[1..])
  }

  function FlatEntry(e: SlotEntry): (r: seq<SlotEntry>)
    ensures forall i :: 0 <= i < |r| ==> r[i].Desc?
    decreases e
  {
    match e
    case Nested(items) => Flat(items)
    case Hole => []
    case Desc(_, _, _) => [e]
  }

  /** Writing a flat list of descriptors one after the other. */
  function WriteAll(ds: seq<SlotEntry>, res: Resolved): Resolved
  {
    if |ds| == 0 then res else WriteAll(ds[1..], ResolveEntry(if ds[0].Desc? then ds[0] else Hole, res))
  }

  lemma {:induction false} WriteAllAppend(a: seq<SlotEntry>, b: seq<SlotEntry>, res: Resolved)
    ensures WriteAll(a + b, res) == WriteAll(b, WriteAll(a, res))
    decreases |a|
  {
    if |a| == 0 {
      assert a + b == b;
    } else {
      assert (a + b)[1..] == a[1..] + b;
      WriteAllAppend(a[1..], b, ResolveEntry(if a[0].Desc? then a[0] else Hole, res));
    }
  }

  /** Walking the nested arrays is the same as writing the flattened descriptors in order. */
  lemma {:induction false} ResolveIntoIsFlatWrite(items: seq<SlotEntry>, res: Resolved)
    ensures ResolveInto(items, res) == WriteAll(Flat(items), res)
    decreases items, 1
  {
    if |items| > 0 {
      ResolveEntryIsFlatWrite(items[0], res);
      ResolveIntoIsFlatWrite(items[1..], ResolveEntry(items[0], res));
      WriteAllAppend(FlatEntry(items[0]), Flat(items[1..]), res);
    }
  }

  lemma {:induction false} ResolveEntryIsFlatWrite(e: SlotEntry, res: Resolved)
    ensures ResolveEntry(e, res) == WriteAll(FlatEntry(e), res)
    decreases e, 0
  {
    match e
    case Nested(items) => ResolveIntoIsFlatWrite(items, res);
    case Hole =>
    case Desc(_, _, _) =>
      assert FlatEntry(e)[1..] == [];
  }

  /**
   * After writing descriptors in order, a name is bound iff it was bound
   * before or some descriptor has it, and it is bound to the function of the
   * LAST such descriptor.
   */
  lemma {:induction false} WriteAllLastWins(ds: seq<SlotEntry>, res: Resolved, k: string)
    requires forall i :: 0 <= i < |ds| ==> ds[i].Desc?
    ensures k in WriteAll(ds, res).fns <==> k in res.fns || exists i :: 0 <= i < |ds| && ds[i].key == k
    ensures forall i :: 0 <= i < |ds| && ds[i].key == k && (forall j :: i < j < |ds| ==> ds[j].key != k) ==>
      k in WriteAll(ds, res).fns && WriteAll(ds, res).fns[k] == ds[i].fn
    ensures (forall i :: 0 <= i < |ds| ==> ds[i].key != k) ==>
      (k in res.fns ==> k in WriteAll(ds, res).fns && WriteAll(ds, res).fns[k] == res.fns[k])
    decreases |ds|
  {
    if |ds| > 0 {
      var next := ResolveEntry(ds[0], res);
      WriteAllLastWins(ds[1..], next, k);
      assert forall i :: 0 < i < |ds| ==> ds[i] == ds[1..][i - 1];
      if exists i :: 0 <= i < |ds| && ds[i].key == k {
        var i :| 0 <= i < |ds| && ds[i].key == k;
        if i > 0 {
          assert ds[1..][i - 1].key == k;
        }
      }
    }
  }

  /** The law of `res[slot.key] = slot.fn` over the whole nested input: the last descriptor for a name wins. */
  lemma ResolveLastWins(fns: seq<SlotEntry>, hasDynamicKeys: bool, k: string, i: nat)
    requires i < |Flat(fns)| && Flat(fns)[i].key == k
    requires forall j :: i < j < |Flat(fns)| ==> Flat(fns)[j].key != k
    ensures var r := Resolve(fns, None, hasDynamicKeys, 0);
      k in r.fns && r.fns[k] == Flat(fns)[i].fn
  {
    var start := Resolved(!hasDynamicKeys, map[], None, {});
    ResolveIntoIsFlatWrite(fns, start);
    WriteAllLastWins(Flat(fns), start, k);
  }

  /** Nesting never hides a descriptor: `[[a], [b]]` resolves like `[a, b]`. */
  lemma NestingIsTransparent(a: SlotEntry, b: SlotEntry, res: Resolved)
    ensures ResolveInto([Nested([a]), Nested([b])], res) == ResolveInto([a, b], res)
  {
    ResolveIntoIsFlatWrite([Nested([a]), Nested([b])], res);
    ResolveIntoIsFlatWrite([a, b], res);
    assert [Nested([a]), Nested([b])][1..] == [Nested([b])];
    assert [a, b][1..] == [b];
    assert Flat([a]) == FlatEntry(a) + Flat([]) by { assert [a][1..] == []; }
    assert Flat([b]) == FlatEntry(b) + Flat([]) by { assert [b][1..] == []; }
    assert Flat([Nested([b])]) == FlatEntry(Nested([b])) + Flat([]) by { assert [Nested([b])][1..] == []; }
    assert Flat([b]) == FlatEntry(b);
    assert Flat([a, b]) == FlatEntry(a) + Flat([b]);
    assert Flat([Nested([a]), Nested([b])]) == FlatEntry(Nested([a])) + Flat([Nested([b])]);
    assert FlatEntry(b) + [] == FlatEntry(b);
    assert FlatEntry(a) + [] == FlatEntry(a);
    assert Flat([Nested([a]), Nested([b])]) == Flat([a, b]);
  }
}

=== FILE: state.dfy ===
/**
 * The decision rules of src/core/instance/state.js: the order `initState`
 * initialises an instance's state in, which data keys `initData` proxies,
 * the fallback of `getData`, how `initMethods` fills the instance, how
 * `initWatch`/`createWatcher` normalise watch handlers, and how
 * `initComputed`/`defineComputed`/`createComputedGetter` choose and cache
 * computed getters. Observers and watchers are abstract: a watcher is the
 * record of what it was created with.
 */
module State {
  import opened JsValue

  // =====================================================================
  // initState
  // =====================================================================

  /** One step of `initState`. */
  datatype InitStep = InitProps | InitMethods | InitData | ObserveEmptyData | InitComputed | InitWatch

  /** The position a step may take in the order. */
  function Rank(s: InitStep): nat
  {
    match s
    case InitProps => 0
    case InitMethods => 1
    case InitData => 2
    case ObserveEmptyData => 2
    case InitComputed => 3
    case InitWatch => 4
  }

  /** A step when its condition holds. */
  function StepIf(b: bool, s: InitStep): (r: seq<InitStep>)
    ensures |r| <= 1 && (forall x :: x in r <==> b && x == s)
    ensures forall i :: 0 <= i < |r| ==> r[i] == s
  {
    if b then [s] else []
  }

  /** The steps for the options that are present, `watch` already checked against the host's native one. */
  function Steps(props: bool, methods: bool, data: bool, computed: bool, watch: bool): seq<InitStep>
  {
    StepIf(props, InitProps) + StepIf(methods, InitMethods)
    + (StepIf(data, InitData) + StepIf(!data, ObserveEmptyData))
    + StepIf(computed, InitComputed) + StepIf(watch, InitWatch)
  }

  /**
   * `initState(vm)` on `vm.$options`; `nativeWatch` is the host's
   * `Object.prototype.watch` (`undefined` where there is none).
   */
  function InitStateSteps(opts: map<string, Val>, nativeWatch: Val): (r: seq<InitStep>)
    ensures InitProps in r <==> Truthy(Get(opts, "props"))
    ensures InitMethods in r <==> Truthy(Get(opts, "methods"))
    ensures InitData in r <==> Truthy(Get(opts, "data"))
    ensures ObserveEmptyData in r <==> !Truthy(Get(opts, "data"))
    ensures InitComputed in r <==> Truthy(Get(opts, "computed"))
    ensures InitWatch in r <==> Truthy(Get(opts, "watch")) && Get(opts, "watch") != nativeWatch
  {
    Steps(Truthy(Get(opts, "props")), Truthy(Get(opts, "methods")), Truthy(Get(opts, "data")),
          Truthy(Get(opts, "computed")), Truthy(Get(opts, "watch")) && Get(opts, "watch") != nativeWatch)
  }

  /** Ranks strictly increase along `r`. */
  predicate Ascending(r: seq<InitStep>)
  {
    forall i, j :: 0 <= i < j < |r| ==> Rank(r[i]) < Rank(r[j])
  }

  /** Every rank of `a` is below `k`, every rank of `b` at least `k`: the concatenation stays ascending. */
  lemma AppendAscending(a: seq<InitStep>, b: seq<InitStep>, k: nat)
    requires Ascending(a) && Ascending(b)
    requires forall x :: x in a ==> Rank(x) < k
    requires forall x :: x in b ==> k <= Rank(x)
    ensures Ascending(a + b)
  {
    forall i, j | 0 <= i < j < |a + b|
      ensures Rank((a + b)[i]) < Rank((a + b)[j])
    {
      if j < |a| {
        assert (a + b)[i] == a[i] && (a + b)[j] == a[j];
      } else if i < |a| {
        assert (a + b)[i] == a[i] && (a + b)[j] == b[j - |a|];
        assert a[i] in a && b[j - |a|] in b;
      } else {
        assert (a + b)[i] == b[i - |a|] && (a + b)[j] == b[j - |a|];
      }
    }
  }

  /**
   * The steps run in the order props, methods, data, computed, watch,
   * each at most once: computed getters and watchers can read data, and
   * data functions can read props and methods.
   */
  lemma InitStateOrder(opts: map<string, Val>, nativeWatch: Val)
    ensures Ascending(InitStateSteps(opts, nativeWatch))
  {
    StepsAscending(Truthy(Get(opts, "props")), Truthy(Get(opts, "methods")), Truthy(Get(opts, "data")),
                   Truthy(Get(opts, "computed")), Truthy(Get(opts, "watch")) && Get(opts, "watch") != nativeWatch);
  }

  /** The ordering, for any combination of present options. */
  lemma StepsAscending(props: bool, methods: bool, data: bool, computed: bool, watch: bool)
    ensures Ascending(Steps(props, methods, data, computed, watch))
  {
    var front := StepIf(props, InitProps) + StepIf(methods, InitMethods)
                 + (StepIf(data, InitData) + StepIf(!data, ObserveEmptyData));
    FrontAscending(props, methods, data);
    AppendAscending(front, StepIf(computed, InitComputed), 3);
    AppendAscending(front + StepIf(computed, InitComputed), StepIf(watch, InitWatch), 4);
  }

  /** The props, methods and data steps are in order and all come before computed. */
  lemma FrontAscending(props: bool, methods: bool, data: bool)
    ensures var front := StepIf(props, InitProps) + StepIf(methods, InitMethods)
                         + (StepIf(data, InitData) + StepIf(!data, ObserveEmptyData));
      Ascending(front) && forall x :: x in front ==> Rank(x) < 3
  {
    var p := StepIf(props, InitProps);
    var m := StepIf(methods, InitMethods);
    var d := StepIf(data, InitData) + StepIf(!data, ObserveEmptyData);
    assert |d| == 1;
    AppendAscending(p, m, 1);
    AppendAscending(p + m, d, 2);
  }


  /** A watch option that is the host's native `watch` is never initialised as watchers. */
  lemma NativeWatchIsSkipped(opts: map<string, Val>)
    requires "watch" in opts
    ensures InitWatch !in InitStateSteps(opts, opts["watch"])
  {
  }

  // =====================================================================
  // initData and getData
  // =====================================================================

  /**
   * `getData(data, vm)`: the data function's return value, or `{}` when it
   * throws (the error goes to `handleError`).
   */
  function GetData(outcome: Ret): (r: Val)
    ensures outcome.Threw? ==> r.Obj? && r.own == map[]
    ensures outcome.Returned? ==> r == outcome.v
  {
    match outcome
    case Returned(v) => v
    case Threw => Record(map[])
  }

  /** `isReserved(key)`: the key starts with `$` or `_`. */
  predicate IsReserved(key: string)
  {
    |key| > 0 && (key[0] == '$' || key[0] == '_')
  }

  /** `isPlainObject`: a plain record (an array, a function or another object is not). */
  predicate IsPlainObject(v: Val)
  {
    v.Obj?
  }

  /** What `initData` leaves behind: `vm._data`, the object it observes, and the keys proxied on the instance. */
  datatype DataInit = DataInit(vmData: Val, observed: Val, proxied: set<string>)

  /** Whether `initData` proxies `key` of the (plain) data object. */
  predicate Proxies(props: Val, key: string)
  {
    !(Truthy(props) && HasOwn(props, key)) && !IsReserved(key)
  }

  /**
   * `initData(vm)` with `vm.$options.data` = `optData`, `call` the outcome
   * of calling it when it is a function, and `props` = `vm.$options.props`.
   */
  function InitDataOf(optData: Val, call: Ret, props: Val): (r: DataInit)
    ensures r.vmData == (if IsFunction(optData) then GetData(call) else if Truthy(optData) then optData else Record(map[]))
    ensures IsPlainObject(r.vmData) ==> r.observed == r.vmData
    ensures !IsPlainObject(r.vmData) ==> r.observed == Record(map[]) && r.proxied == {}
    ensures forall k :: k in r.proxied <==> HasOwn(r.observed, k) && Proxies(props, k)
  {
    var data := if IsFunction(optData) then GetData(call) else if Truthy(optData) then optData else Record(map[]);
    var local := if IsPlainObject(data) then data else Record(map[]);
    DataInit(data, local, set k | k in local.own && Proxies(props, k))
  }

  /**
   * A key of a plain data object is proxied exactly when it is neither a
   * prop nor reserved, and a proxied key reads back the data value through
   * `vm._data`.
   */
  lemma ProxiedKeysReadData(optData: Val, call: Ret, props: Val, k: string)
    requires IsPlainObject(InitDataOf(optData, call, props).vmData)
    requires k in InitDataOf(optData, call, props).vmData.own
    ensures var r := InitDataOf(optData, call, props);
      && (k in r.proxied <==> !(Truthy(props) && HasOwn(props, k)) && !IsReserved(k))
      && (k in r.proxied ==> Lookup(r.vmData, k) == r.observed.own[k])
  {
  }

  /**
   * A data function returning something that is not a plain object leaves
   * that value in `vm._data` while `{}` is what gets observed, and nothing is
   * proxied; a throwing data function behaves as one returning `{}`.
   */
  lemma NonPlainDataResult(f: FnId, props: Val)
    ensures var r := InitDataOf(Fn(f), Returned(Num(1)), props);
      r.vmData == Num(1) && r.observed == Record(map[]) && r.proxied == {}
    ensures var r := InitDataOf(Fn(f), Threw, props);
      r.vmData == Record(map[]) && r.observed == r.vmData && r.proxied == {}
  {
  }

  // =====================================================================
  // initMethods
  // =====================================================================

  /** An instance property as `initMethods` writes it. */
  datatype InstProp = NoopFn | BoundMethod(fn: Val) | Plain(v: Val)

  /**
   * `initMethods(vm, methods)`: for every key `for..in` visits, `vm[key]`
   * becomes `noop` for a non-function and the function bound to `vm`
   * otherwise.
   */
  function InitMethodsOf(vm: map<string, InstProp>, methods: Val): (r: map<string, InstProp>)
    ensures forall k :: k in r <==> k in vm || HasProp(methods, k)
    ensures forall k :: HasProp(methods, k) ==> r[k] == (if IsFunction(Lookup(methods, k)) then BoundMethod(Lookup(methods, k)) else NoopFn)
    ensures forall k :: k in vm && !HasProp(methods, k) ==> r[k] == vm[k]
  {
    var m := Flatten(methods);
    vm + map k | k in m :: if IsFunction(m[k]) then BoundMethod(m[k]) else NoopFn
  }

  /** Every method slot `initMethods` writes is callable: a bound function or `noop`. */
  lemma MethodsAreCallable(vm: map<string, InstProp>, methods: Val, k: string)
    requires HasProp(methods, k)
    ensures var r := InitMethodsOf(vm, methods);
      r[k].NoopFn? || (r[k].BoundMethod? && IsFunction(r[k].fn))
  {
  }

  // =====================================================================
  // initWatch and createWatcher
  // =====================================================================

  /** The `vm.$watch(expOrFn, handler, options)` call `createWatcher` ends in. */
  datatype WatchCall = WatchCall(expOrFn: string, handler: Val, options: Val)

  /**
   * `createWatcher(vm, expOrFn, handler)`: a plain-object handler supplies
   * the options and its `handler` property; a string handler then names an
   * instance property, read through `vmGet`.
   */
  function CreateWatcher(vmGet: string -> Val, expOrFn: string, handler: Val): (r: WatchCall)
    ensures r.expOrFn == expOrFn
    ensures IsPlainObject(handler) ==> r.options == handler
    ensures !IsPlainObject(handler) ==> r.options == Undef
    ensures var h := if IsPlainObject(handler) then Lookup(handler, "handler") else handler;
      r.handler == (if h.Str? then vmGet(h.s) else h)
  {
    var options := if IsPlainObject(handler) then handler else Undef;
    var h := if IsPlainObject(handler) then Lookup(handler, "handler") else handler;
    var h' := if h.Str? then vmGet(h.s) else h;
    WatchCall(expOrFn, h', options)
  }

  /** The watchers one key asks for: one per element of an array handler, else one. */
  function WatchersFor(vmGet: string -> Val, key: string, handler: Val): (r: seq<WatchCall>)
    ensures |r| == (if handler.Arr? then |handler.items| else 1)
    ensures forall i :: 0 <= i < |r| ==> r[i].expOrFn == key
    ensures handler.Arr? ==> forall i :: 0 <= i < |r| ==> r[i] == CreateWatcher(vmGet, key, handler.items[i])
  {
    if handler.Arr? then seq(|handler.items|, i requires 0 <= i < |handler.items| => CreateWatcher(vmGet, key, handler.items[i]))
    else [CreateWatcher(vmGet, key, handler)]
  }

  /** `initWatch(vm, watch)`, visiting the keys of `watch` in the order `keys`. */
  function InitWatchOf(vmGet: string -> Val, watch: Val, keys: seq<string>): (r: seq<WatchCall>)
    ensures forall i :: 0 <= i < |r| ==> r[i].expOrFn in keys
    decreases |keys|
  {
    if |keys| == 0 then []
    else WatchersFor(vmGet, keys[0], Lookup(watch, keys[0])) + InitWatchOf(vmGet, watch, keys[1..])
  }

  /** How many calls watch `key`. */
  function CountFor(calls: seq<WatchCall>, key: string): nat
  {
    if |calls| == 0 then 0
    else (if calls[0].expOrFn == key then 1 else 0) + CountFor(calls[1..], key)
  }

  lemma CountForAppend(a: seq<WatchCall>, b: seq<WatchCall>, key: string)
    ensures CountFor(a + b, key) == CountFor(a, key) + CountFor(b, key)
  {
    if |a| == 0 {
      assert a + b == b;
    } else {
      assert (a + b)[0] == a[0];
      assert (a + b)[1..] == a[1..] + b;
      CountForAppend(a[1..], b, key);
    }
  }

  lemma CountForAbsent(calls: seq<WatchCall>, key: string)
    requires forall i :: 0 <= i < |calls| ==> calls[i].expOrFn != key
    ensures CountFor(calls, key) == 0
  {
  }

  lemma CountForAll(calls: seq<WatchCall>, key: string)
    requires forall i :: 0 <= i < |calls| ==> calls[i].expOrFn == key
    ensures CountFor(calls, key) == |calls|
  {
  }

  /**
   * Every watch key gets exactly as many watchers as its handler asks for:
   * one per element of an array, one otherwise.
   */
  lemma {:induction false} WatchersPerKey(vmGet: string -> Val, watch: Val, keys: seq<string>, key: string)
    requires NoDup(keys) && key in keys
    ensures var n := if Lookup(watch, key).Arr? then |Lookup(watch, key).items| else 1;
      CountFor(InitWatchOf(vmGet, watch, keys), key) == n
    decreases |keys|
  {
    var first := WatchersFor(vmGet, keys[0], Lookup(watch, keys[0]));
    var rest := InitWatchOf(vmGet, watch, keys[1..]);
    CountForAppend(first, rest, key);
    if keys[0] == key {
      CountForAll(first, key);
      assert key !in keys[1..] by {
        forall i | 1 <= i < |keys| ensures keys[i] != key { assert keys[0] != keys[i]; }
      }
      CountForAbsent(rest, key);
    } else {
      CountForAbsent(first, key);
      assert NoDup(keys[1..]) by {
        forall i, j | 0 <= i < j < |keys[1..]| ensures keys[1..][i] != keys[1..][j] { assert keys[i + 1] != keys[j + 1]; }
      }
      WatchersPerKey(vmGet, watch, keys[1..], key);
    }
  }

  /** A string inside a plain-object handler still names an instance method. */
  lemma ObjectHandlerNamingMethod(vmGet: string -> Val, key: string, name: string)
    ensures var handler := Record(map["handler" := Str(name), "deep" := Bool(true)]);
      CreateWatcher(vmGet, key, handler) == WatchCall(key, vmGet(name), handler)
  {
    var handler := Record(map["handler" := Str(name), "deep" := Bool(true)]);
    assert Lookup(handler, "handler") == Str(name);
  }

  // =====================================================================
  // initComputed, defineComputed, createComputedGetter
  // =====================================================================

  /** The getter `defineComputed` installs. */
  datatype Getter = CachedGetter(key: string) | GetterInvoker(fn: Val) | NoopGetter

  /** The setter `defineComputed` installs; `NoopSetter` stands for `noop` and the warning that replaces it. */
  datatype Setter = UserSetter(fn: Val) | NoopSetter

  /**
   * `defineComputed(target, key, userDef)`; `shouldCache` is
   * `!isServerRendering()`.
   */
  function DefineComputed(key: string, userDef: Val, shouldCache: bool): (r: (Getter, Setter))
    ensures IsFunction(userDef) ==>
      && r.1 == NoopSetter
      && (shouldCache <==> r.0 == CachedGetter(key))
      && (!shouldCache ==> r.0 == GetterInvoker(userDef))
    ensures !IsFunction(userDef) ==>
      && (r.1 == if Truthy(Lookup(userDef, "set")) then UserSetter(Lookup(userDef, "set")) else NoopSetter)
      && (r.0 == CachedGetter(key) <==>
            Truthy(Lookup(userDef, "get")) && shouldCache && Lookup(userDef, "cache") != Bool(false))
      && (r.0.NoopGetter? <==> !Truthy(Lookup(userDef, "get")))
      && (r.0.GetterInvoker? ==> r.0.fn == Lookup(userDef, "get"))
  {
    if IsFunction(userDef) then
      (if shouldCache then CachedGetter(key) else GetterInvoker(userDef), NoopSetter)
    else
      var get := Lookup(userDef, "get");
      var setter := Lookup(userDef, "set");
      var getter :=
        if Truthy(get) then
          if shouldCache && Lookup(userDef, "cache") != Bool(false) then CachedGetter(key) else GetterInvoker(get)
        else NoopGetter;
      (getter, if Truthy(setter) then UserSetter(setter) else NoopSetter)
  }

  /** What a computed watcher evaluates: the user's getter, or `noop`, which returns `undefined`. */
  datatype WatcherGetter = UserGetter(fn: Val) | NoopWatcherGetter

  /** A lazy computed watcher: its getter, whether it must re-evaluate, and its cached value. */
  datatype ComputedWatcher = ComputedWatcher(getter: WatcherGetter, dirty: bool, value: Val)

  /** `typeof userDef === 'function' ? userDef : userDef.get` */
  function GetterOf(userDef: Val): Val
  {
    if IsFunction(userDef) then userDef else Lookup(userDef, "get")
  }

  /** The getter a computed watcher is created with: `getter || noop`. */
  function WatcherGetterOf(userDef: Val): (r: WatcherGetter)
    ensures r.NoopWatcherGetter? <==> !Truthy(GetterOf(userDef))
    ensures r.UserGetter? ==> r.fn == GetterOf(userDef)
  {
    if Truthy(GetterOf(userDef)) then UserGetter(GetterOf(userDef)) else NoopWatcherGetter
  }

  /** What `initComputed` leaves: `vm._computedWatchers` and the properties it defines on the instance. */
  datatype ComputedInit = ComputedInit(watchers: map<string, ComputedWatcher>, defined: map<string, (Getter, Setter)>)

  /**
   * `initComputed(vm, computed)`; `inVm` are the keys already `in vm`
   * (defined on the component prototype by `Vue.extend`, or data, props,
   * methods), and `isSSR` is `isServerRendering()`.
   */
  function InitComputedOf(computed: Val, inVm: set<string>, isSSR: bool): (r: ComputedInit)
    ensures forall k :: k in r.watchers <==> HasProp(computed, k) && !isSSR
    ensures forall k :: k in r.watchers ==>
      && r.watchers[k].dirty && r.watchers[k].value == Undef
      && r.watchers[k].getter == WatcherGetterOf(Lookup(computed, k))
    ensures forall k :: k in r.defined <==> HasProp(computed, k) && k !in inVm
    ensures forall k :: k in r.defined ==> r.defined[k] == DefineComputed(k, Lookup(computed, k), !isSSR)
  {
    var c := Flatten(computed);
    var watchers := if isSSR then map[] else
      map k | k in c :: ComputedWatcher(WatcherGetterOf(c[k]), true, Undef);
    ComputedInit(watchers, map k | k in c && k !in inVm :: DefineComputed(k, c[k], !isSSR))
  }

  /**
   * Reading a cached computed property (`computedGetter`): with no watcher
   * for the key, `undefined`; otherwise a dirty watcher is evaluated first
   * (`evaluated` is what its getter returns), and the watcher's value is
   * returned.
   */
  function ReadComputed(watchers: map<string, ComputedWatcher>, key: string, evaluated: Val): (r: (Val, map<string, ComputedWatcher>))
    ensures key !in watchers ==> r == (Undef, watchers)
    ensures key in watchers && !watchers[key].dirty ==> r == (watchers[key].value, watchers)
    ensures key in watchers && watchers[key].dirty ==>
      r.0 == evaluated && r.1 == watchers[key := watchers[key].(dirty := false, value := evaluated)]
  {
    if key !in watchers then (Undef, watchers)
    else
      var w := watchers[key];
      if w.dirty then (evaluated, watchers[key := w.(dirty := false, value := evaluated)])
      else (w.value, watchers)
  }

  /** A dependency changed: the lazy watcher only marks itself dirty (`Watcher.update` with `lazy`). */
  function Invalidate(watchers: map<string, ComputedWatcher>, key: string): (r: map<string, ComputedWatcher>)
    ensures r.Keys == watchers.Keys
    ensures key in watchers ==> r[key].dirty && r[key].value == watchers[key].value
    ensures forall k :: k in watchers && k != key ==> r[k] == watchers[k]
  {
    if key in watchers then watchers[key := watchers[key].(dirty := true)] else watchers
  }

  /**
   * Caching: a second read without an invalidation in between returns the
   * first read's value, whatever the getter would return now; after an
   * invalidation the next read re-evaluates.
   */
  lemma ComputedCaching(watchers: map<string, ComputedWatcher>, key: string, v1: Val, v2: Val)
    requires key in watchers
    ensures var (first, ws) := ReadComputed(watchers, key, v1);
      && ReadComputed(ws, key, v2).0 == first
      && ReadComputed(ws, key, v2).1 == ws
      && ReadComputed(Invalidate(ws, key), key, v2).0 == v2
  {
  }

  /**
   * Running a computed watcher's getter (`Watcher.get`): `noop` returns
   * `undefined`; a user getter is called with the outcome `call` gives it.
   * A computed watcher is not a user watcher, so an exception propagates.
   */
  function RunGetter(g: WatcherGetter, call: Val -> Ret): (r: Ret)
  {
    match g
    case NoopWatcherGetter => Returned(Undef)
    case UserGetter(fn) => call(fn)
  }

  /**
   * A computed entry with no getter reads `undefined` on its first read,
   * whatever the user functions would return; one with a getter reads what
   * calling that getter returns.
   */
  lemma FirstReadRunsGetter(computed: Val, inVm: set<string>, key: string, call: Val -> Ret)
    requires HasProp(computed, key)
    ensures var ws := InitComputedOf(computed, inVm, false).watchers;
      && (!Truthy(GetterOf(Lookup(computed, key))) ==> RunGetter(ws[key].getter, call) == Returned(Undef))
      && (Truthy(GetterOf(Lookup(computed, key))) ==> RunGetter(ws[key].getter, call) == call(GetterOf(Lookup(computed, key))))
  {
  }

  /**
   * Reading a property `defineComputed` installed: `noop` gives `undefined`;
   * `createGetterInvoker` calls the getter on every read; `computedGetter`
   * reads through its watcher, evaluating it first when it is dirty. An
   * evaluation that throws propagates and leaves the watcher dirty, since
   * `Watcher.evaluate` clears `dirty` only after `get` returns.
   */
  function ReadProperty(g: Getter, watchers: map<string, ComputedWatcher>, call: Val -> Ret): (r: (Ret, map<string, ComputedWatcher>))
    ensures r.1.Keys == watchers.Keys
    ensures r.0.Threw? ==> r.1 == watchers
  {
    match g
    case NoopGetter => (Returned(Undef), watchers)
    case GetterInvoker(fn) => (call(fn), watchers)
    case CachedGetter(key) =>
      if key in watchers && watchers[key].dirty then
        match RunGetter(watchers[key].getter, call)
        case Threw => (Threw, watchers)
        case Returned(v) =>
          var (value, ws) := ReadComputed(watchers, key, v);
          (Returned(value), ws)
      else (Returned(ReadComputed(watchers, key, Undef).0), watchers)
  }

  /**
   * A cached property over a dirty watcher: the first read runs the
   * watcher's getter; once it has returned, the next read gives the same
   * value and state without calling anything, and after an invalidation the
   * getter runs again; after a throw the next read runs it again.
   */
  lemma CachedPropertyReads(watchers: map<string, ComputedWatcher>, key: string, call1: Val -> Ret, call2: Val -> Ret)
    requires key in watchers && watchers[key].dirty
    ensures var g := CachedGetter(key);
      var (first, ws) := ReadProperty(g, watchers, call1);
      && first == RunGetter(watchers[key].getter, call1)
      && (first.Returned? ==>
            && ReadProperty(g, ws, call2) == (first, ws)
            && ReadProperty(g, Invalidate(ws, key), call2).0 == RunGetter(watchers[key].getter, call2))
      && (first.Threw? ==> ReadProperty(g, ws, call2).0 == RunGetter(watchers[key].getter, call2))
  {
  }

  /**
   * What reading a computed property that `initComputed` defined does, for
   * every definition: a cached property sits on a fresh dirty watcher over
   * `getter || noop`, so CachedPropertyReads applies; an uncached property
   * calls the definition's getter on every read, and one without a getter
   * reads `undefined`; neither touches the watchers.
   */
  lemma ComputedPropertyReads(computed: Val, inVm: set<string>, isSSR: bool, key: string, call: Val -> Ret)
    requires HasProp(computed, key) && key !in inVm
    ensures var init := InitComputedOf(computed, inVm, isSSR);
      var g := init.defined[key].0;
      var def := Lookup(computed, key);
      && (g.CachedGetter? ==>
            !isSSR && g.key == key && key in init.watchers && init.watchers[key].dirty
            && init.watchers[key].getter == WatcherGetterOf(def))
      && (g.GetterInvoker? ==>
            g.fn == GetterOf(def) && ReadProperty(g, init.watchers, call) == (call(GetterOf(def)), init.watchers))
      && (g.NoopGetter? ==>
            !Truthy(GetterOf(def)) && ReadProperty(g, init.watchers, call) == (Returned(Undef), init.watchers))
  {
    var init := InitComputedOf(computed, inVm, isSSR);
    var def := Lookup(computed, key);
    var g := DefineComputed(key, def, !isSSR).0;
    assert init.defined[key].0 == g;
    if g.CachedGetter? {
      assert key in init.watchers;
    } else if g.GetterInvoker? {
      assert g.fn == GetterOf(def);
    }
  }

  /** The first read after `initComputed` evaluates the getter. */
  lemma FirstReadEvaluates(computed: Val, inVm: set<string>, key: string, v: Val)
    requires HasProp(computed, key)
    ensures ReadComputed(InitComputedOf(computed, inVm, false).watchers, key, v).0 == v
  {
  }
}

=== FILE: update_listeners.dfy ===
/**
 * The listener diff of src/core/vdom/helpers/update-listeners.js, shared by
 * DOM events and component events: event-name modifiers, the invoker
 * wrapper whose `fns` is swapped in place, and `updateListeners`, which
 * yields the `add`/`remove` calls it makes instead of performing them.
 *
 * Invokers and once-handlers are objects the diff mutates (`old.fns = cur`)
 * and that stay registered by identity, so they live in a heap and are
 * referred to by `Ref(id)`.
 */
module UpdateListeners {
  import opened JsValue

  // =====================================================================
  // normalizeEvent
  // =====================================================================

  /** An event name with its modifier prefixes decoded. */
  datatype EventSpec = EventSpec(name: string, once: bool, capture: bool, passive: bool)

  /** Strips the single-character prefix `c` if present. */
  function StripPrefix(s: string, c: char): (string, bool)
  {
    if |s| > 0 && s[0] == c then (s[1..], true) else (s, false)
  }

  /**
   * `normalizeEvent`: `&` (passive), then `~` (once), then `!` (capture),
   * each read off the front of the name at most once, in that order.
   */
  function NormalizeEvent(raw: string): (e: EventSpec)
    ensures |e.name| <= |raw|
    ensures e.passive <==> |raw| > 0 && raw[0] == '&'
    ensures !e.passive && !e.once && !e.capture ==> e.name == raw
  {
    var (n1, passive) := StripPrefix(raw, '&');
    var (n2, once) := StripPrefix(n1, '~');
    var (n3, capture) := StripPrefix(n2, '!');
    EventSpec(n3, once, capture, passive)
  }

  /** The modifier character `c` when `b` holds. */
  function Mark(b: bool, c: char): string
  {
    if b then [c] else []
  }

  /** The prefixed name the template compiler writes for an event with modifiers. */
  function EncodeEvent(e: EventSpec): string
  {
    Mark(e.passive, '&') + (Mark(e.once, '~') + (Mark(e.capture, '!') + e.name))
  }

  lemma StripPrefixSplits(s: string, c: char)
    ensures Mark(StripPrefix(s, c).1, c) + StripPrefix(s, c).0 == s
  {
    if |s| > 0 && s[0] == c {
      assert [c] + s[1..] == s;
    }
  }

  lemma StripMark(b: bool, c: char, rest: string)
    requires |rest| == 0 || rest[0] != c
    ensures StripPrefix(Mark(b, c) + rest, c) == (rest, b)
  {
    if b {
      assert (Mark(b, c) + rest)[1..] == rest;
    } else {
      assert Mark(b, c) + rest == rest;
    }
  }

  /** Decoding loses nothing: re-encoding a decoded name gives it back. */
  lemma EncodeNormalized(raw: string)
    ensures EncodeEvent(NormalizeEvent(raw)) == raw
  {
    var (n1, passive) := StripPrefix(raw, '&');
    var (n2, once) := StripPrefix(n1, '~');
    var (n3, capture) := StripPrefix(n2, '!');
    StripPrefixSplits(raw, '&');
    StripPrefixSplits(n1, '~');
    StripPrefixSplits(n2, '!');
  }

  /** A name that starts with no modifier character decodes back to the flags it was encoded with. */
  lemma NormalizeEncoded(e: EventSpec)
    requires |e.name| == 0 || (e.name[0] != '&' && e.name[0] != '~' && e.name[0] != '!')
    ensures NormalizeEvent(EncodeEvent(e)) == e
  {
    var s2 := Mark(e.capture, '!') + e.name;
    var s1 := Mark(e.once, '~') + s2;
    assert |s2| == 0 || (s2[0] != '~' && s2[0] != '&') by {
      if e.capture { assert s2[0] == '!'; } else { assert s2 == e.name; }
    }
    assert |s1| == 0 || s1[0] != '&' by {
      if e.once { assert s1[0] == '~'; } else { assert s1 == s2; }
    }
    StripMark(e.passive, '&', s1);
    StripMark(e.once, '~', s2);
    StripMark(e.capture, '!', e.name);
  }

  // =====================================================================
  // handlers, invokers, heap
  // =====================================================================

  /**
   * A value of an `on` record: nothing (`undefined`/`null`), a user
   * function, an array of user functions, or a runtime-made wrapper.
   */
  datatype Handler = Missing | User(f: FnId) | UserList(fs: seq<FnId>) | Ref(id: nat)

  /**
   * A runtime-made wrapper: `createFnInvoker`'s `invoker` with its `fns`, or
   * the once-handler that calls `inner`; `fnsProp` is whatever the diff
   * later stored in its `fns` property.
   */
  datatype HObj =
    | Invoker(fns: Handler)
    | OnceWrapper(event: string, inner: Handler, fnsProp: Option<Handler>)

  datatype Heap = Heap(objs: map<nat, HObj>, next: nat)

  /** Every allocated id is below the allocation counter. */
  predicate HeapOk(h: Heap)
  {
    forall id :: id in h.objs ==> id < h.next
  }

  /** `h2` keeps every object of `h1` (possibly with another `fns`) and allocates past it. */
  predicate Grows(h2: Heap, h1: Heap)
  {
    h1.objs.Keys <= h2.objs.Keys && h1.next <= h2.next
    && forall id :: id in h1.objs ==> h2.objs[id].Invoker? == h1.objs[id].Invoker?
  }

  function Alloc(heap: Heap, o: HObj): (r: (Heap, Handler))
    requires HeapOk(heap)
    ensures r.0.objs.Keys == heap.objs.Keys + {heap.next}
    ensures HeapOk(r.0) && Grows(r.0, heap)
    ensures r.1 == Ref(heap.next) && heap.next !in heap.objs && r.0.objs[heap.next] == o
    ensures forall id :: id in heap.objs ==> r.0.objs[id] == heap.objs[id]
  {
    (Heap(heap.objs[heap.next := o], heap.next + 1), Ref(heap.next))
  }

  /** `h.fns !== undefined` */
  predicate HasFns(heap: Heap, h: Handler)
  {
    h.Ref? && h.id in heap.objs
    && (heap.objs[h.id].Invoker? || heap.objs[h.id].fnsProp.Some?)
  }

  /** `old.fns = cur` */
  function SetFns(heap: Heap, prev: Handler, cur: Handler): (r: Heap)
    requires prev.Ref? && prev.id in heap.objs
    ensures r.objs.Keys == heap.objs.Keys && r.next == heap.next
    ensures forall id :: id in heap.objs && id != prev.id ==> r.objs[id] == heap.objs[id]
    ensures r.objs[prev.id].Invoker? == heap.objs[prev.id].Invoker?
  {
    var o := heap.objs[prev.id];
    var o' := match o
      case Invoker(_) => Invoker(cur)
      case OnceWrapper(ev, inner, _) => OnceWrapper(ev, inner, Some(cur));
    Heap(heap.objs[prev.id := o'], heap.next)
  }

  /** The handlers a call of `h` reaches directly. */
  function Targets(heap: Heap, h: Handler): seq<Handler>
  {
    match h
    case Ref(id) =>
      if id !in heap.objs then []
      else (match heap.objs[id]
            case Invoker(fns) => if fns.UserList? then seq(|fns.fs|, i requires 0 <= i < |fns.fs| => User(fns.fs[i])) else [fns]
            case OnceWrapper(_, inner, _) => [inner])
    case _ => []
  }

  /**
   * What `invoker()` returns for its `fns`: a single function's result, or
   * `undefined` when it threw, since `invokeWithErrorHandling` reports the
   * error and returns nothing; an array's functions are all called and
   * nothing is returned, and so is a once-handler's.
   */
  function InvokerResult(fns: Handler, call: Handler -> Ret): (r: Val)
    ensures fns.User? && call(fns).Returned? ==> r == call(fns).v
    ensures !(fns.User? && call(fns).Returned?) ==> r == Undef
  {
    if fns.User? && call(fns).Returned? then call(fns).v else Undef
  }

  /**
   * Calling a handler value: a user function is `call`; an invoker answers
   * with `InvokerResult` and so never throws; a once-handler returns
   * nothing (what it calls in turn is not followed here).
   */
  function CallHandler(heap: Heap, h: Handler, call: Handler -> Ret): (r: Ret)
    ensures h.Ref? && h.id in heap.objs ==> r.Returned?
    ensures h.Ref? && h.id in heap.objs && heap.objs[h.id].Invoker? ==> r.v == InvokerResult(heap.objs[h.id].fns, call)
    ensures !(h.Ref? && h.id in heap.objs) ==> r == call(h)
  {
    if h.Ref? && h.id in heap.objs then
      match heap.objs[h.id]
      case Invoker(fns) => Returned(InvokerResult(fns, call))
      case OnceWrapper(_, _, _) => Returned(Undef)
    else call(h)
  }

  /** Handler maps read `undefined` at absent keys. */
  function HGet(m: map<string, Handler>, k: string): Handler
  {
    if k in m then m[k] else Missing
  }

  /** Every wrapper an `on` record refers to exists. */
  predicate Known(on: map<string, Handler>, heap: Heap)
  {
    forall k :: k in on && on[k].Ref? ==> on[k].id in heap.objs
  }

  /** An `on` record a previous diff produced: every handler is missing or a wrapper. */
  predicate Processed(on: map<string, Handler>, heap: Heap)
  {
    forall k :: k in on ==> on[k].Missing? || (on[k].Ref? && on[k].id in heap.objs)
  }

  /** `order` lists the keys of `keys` once each: the enumeration order of `for..in`. */
  predicate IsOrderOf(order: seq<string>, keys: set<string>)
  {
    NoDup(order) && (forall i :: 0 <= i < |order| ==> order[i] in keys) && (forall k :: k in keys ==> k in order)
  }

  // =====================================================================
  // updateListeners
  // =====================================================================

  /** The calls `updateListeners` makes: a warning, `add`, or `remove`. */
  datatype Op =
    | Warn(event: string)
    | Add(event: string, h: Handler, capture: bool, passive: bool)
    | Remove(event: string, h: Handler, capture: bool)

  datatype State = State(on: map<string, Handler>, heap: Heap, ops: seq<Op>)

  predicate StateOk(s: State, oldOn: map<string, Handler>)
  {
    HeapOk(s.heap) && Known(s.on, s.heap) && Processed(oldOn, s.heap)
  }

  /** A new binding: wrap in an invoker unless it already is one, then in a once-handler for `~`. */
  function Bind(heap: Heap, cur: Handler, e: EventSpec): (r: (Heap, Handler))
    requires HeapOk(heap) && cur != Missing && (cur.Ref? ==> cur.id in heap.objs)
    ensures HeapOk(r.0) && Grows(r.0, heap) && r.1.Ref? && r.1.id in r.0.objs
    ensures forall id :: id in heap.objs ==> r.0.objs[id] == heap.objs[id]
    ensures !HasFns(heap, cur) ==> heap.next in r.0.objs && r.0.objs[heap.next] == Invoker(cur)
    ensures !e.once ==> r.1 == (if HasFns(heap, cur) then cur else Ref(heap.next))
    ensures e.once ==> r.0.objs[r.1.id] == OnceWrapper(e.name, if HasFns(heap, cur) then cur else Ref(heap.next), None)
    ensures !HasFns(heap, cur) || e.once ==> r.1.id !in heap.objs
    ensures !e.once && HasFns(heap, cur) ==> r.0 == heap
  {
    var (h1, c1) := if !HasFns(heap, cur) then Alloc(heap, Invoker(cur)) else (heap, cur);
    if e.once then Alloc(h1, OnceWrapper(e.name, c1, None)) else (h1, c1)
  }

  /** One iteration of the first loop of `updateListeners`, for key `name`. */
  function Step(s: State, oldOn: map<string, Handler>, name: string): (r: State)
    requires name in s.on && StateOk(s, oldOn)
    ensures StateOk(r, oldOn) && Grows(r.heap, s.heap)
    ensures r.on.Keys == s.on.Keys
    ensures forall k :: k in s.on && k != name ==> r.on[k] == s.on[k]
    ensures r.on[name].Missing? <==> s.on[name].Missing?
    ensures !s.on[name].Missing? ==> r.on[name].Ref? && r.on[name].id in r.heap.objs
    ensures s.on[name].Missing? ==> r.ops == s.ops + [Warn(NormalizeEvent(name).name)]
    ensures !s.on[name].Missing? && HGet(oldOn, name).Missing? ==>
      r.ops == s.ops + [Add(NormalizeEvent(name).name, r.on[name], NormalizeEvent(name).capture, NormalizeEvent(name).passive)]
    ensures !s.on[name].Missing? && !HGet(oldOn, name).Missing? ==>
      r.ops == s.ops && r.on[name] == oldOn[name]
  {
    var cur := s.on[name];
    var prev := HGet(oldOn, name);
    var e := NormalizeEvent(name);
    if cur.Missing? then
      State(s.on, s.heap, s.ops + [Warn(e.name)])
    else if prev.Missing? then
      var (heap', bound) := Bind(s.heap, cur, e);
      State(s.on[name := bound], heap', s.ops + [Add(e.name, bound, e.capture, e.passive)])
    else if cur != prev then
      State(s.on[name := prev], SetFns(s.heap, prev, cur), s.ops)
    else
      State(s.on[name := prev], s.heap, s.ops)
  }

  lemma NoDupTail(names: seq<string>)
    requires NoDup(names) && |names| > 0
    ensures NoDup(names[1..]) && names[0] !in names[1..]
    ensures forall k :: k in names ==> k == names[0] || k in names[1..]
  {
    forall i, j | 0 <= i < j < |names[1..]| ensures names[1..][i] != names[1..][j] {
      assert names[1..][i] == names[i + 1] && names[1..][j] == names[j + 1];
    }
    forall i | 0 <= i < |names[1..]| ensures names[1..][i] != names[0] {
      assert names[1..][i] == names[i + 1];
    }
    forall k | k in names ensures k == names[0] || k in names[1..] {
      var i :| 0 <= i < |names| && names[i] == k;
      if i > 0 { assert names[1..][i - 1] == k; }
    }
  }

  /** The first loop of `updateListeners`, over `names` in order. */
  function AddPass(s: State, oldOn: map<string, Handler>, names: seq<string>): (r: State)
    requires StateOk(s, oldOn) && NoDup(names)
    requires forall i :: 0 <= i < |names| ==> names[i] in s.on
    ensures StateOk(r, oldOn) && Grows(r.heap, s.heap)
    ensures r.on.Keys == s.on.Keys
    ensures |s.ops| <= |r.ops| && r.ops[..|s.ops|] == s.ops
    decreases |names|
  {
    if |names| == 0 then s
    else
      NoDupTail(names);
      var s1 := Step(s, oldOn, names[0]);
      var r := AddPass(s1, oldOn, names[1..]);
      GrowsTrans(r.heap, s1.heap, s.heap);
      PrefixTrans(r.ops, s1.ops, s.ops);
      r
  }

  /** The tail of `a` past `n`, where `a` extends `b`: the tail of `b`, then what `a` adds. */
  lemma SuffixSplit<T>(a: seq<T>, b: seq<T>, n: nat)
    requires n <= |b| <= |a| && a[..|b|] == b
    ensures a[n..] == b[n..] + a[|b|..]
    ensures forall x :: x in b[n..] ==> x in a[n..]
  {
    assert a == b + a[|b|..];
  }

  lemma GrowsTrans(h3: Heap, h2: Heap, h1: Heap)
    requires Grows(h3, h2) && Grows(h2, h1)
    ensures Grows(h3, h1)
  {
  }

  lemma PrefixTrans<T>(a: seq<T>, b: seq<T>, c: seq<T>)
    requires |b| <= |a| && a[..|b|] == b
    requires |c| <= |b| && b[..|c|] == c
    ensures a[..|c|] == c
  {
    assert a[..|c|] == a[..|b|][..|c|];
  }

  /** What the first loop leaves at one key: untouched if not enumerated, else bound, kept or re-pointed. */
  lemma {:induction false} AddPassEntry(s: State, oldOn: map<string, Handler>, names: seq<string>, k: string)
    requires StateOk(s, oldOn) && NoDup(names)
    requires forall i :: 0 <= i < |names| ==> names[i] in s.on
    requires k in s.on
    ensures var r := AddPass(s, oldOn, names);
      && (k !in names ==> r.on[k] == s.on[k])
      && (k in names ==> (r.on[k].Missing? <==> s.on[k].Missing?))
      && (k in names && !s.on[k].Missing? ==> r.on[k].Ref? && r.on[k].id in r.heap.objs)
      && (k in names && !s.on[k].Missing? && !HGet(oldOn, k).Missing? ==> r.on[k] == oldOn[k])
    decreases |names|
  {
    if |names| > 0 {
      NoDupTail(names);
      var s1 := Step(s, oldOn, names[0]);
      AddPassEntry(s1, oldOn, names[1..], k);
      if k == names[0] {
        AddPassEntry(s1, oldOn, names[1..], k);
        var r := AddPass(s1, oldOn, names[1..]);
        assert r.heap.objs.Keys >= s1.heap.objs.Keys;
      }
    }
  }

  /** The first loop calls `add` for every new key and warns about every key without a handler. */
  lemma {:induction false} AddPassOp(s: State, oldOn: map<string, Handler>, names: seq<string>, k: string)
    requires StateOk(s, oldOn) && NoDup(names)
    requires forall i :: 0 <= i < |names| ==> names[i] in s.on
    requires k in names
    ensures var r := AddPass(s, oldOn, names);
      && (s.on[k].Missing? ==> Warn(NormalizeEvent(k).name) in r.ops[|s.ops|..])
      && (!s.on[k].Missing? && HGet(oldOn, k).Missing? ==>
            Add(NormalizeEvent(k).name, r.on[k], NormalizeEvent(k).capture, NormalizeEvent(k).passive) in r.ops[|s.ops|..])
    decreases |names|
  {
    NoDupTail(names);
    var s1 := Step(s, oldOn, names[0]);
    var r := AddPass(s1, oldOn, names[1..]);
    SuffixSplit(r.ops, s1.ops, |s.ops|);
    if k == names[0] {
      AddPassEntry(s1, oldOn, names[1..], k);
      var e := NormalizeEvent(k);
      if s.on[k].Missing? {
        assert s1.ops[|s.ops|..] == [Warn(e.name)];
      } else if HGet(oldOn, k).Missing? {
        assert s1.ops[|s.ops|..] == [Add(e.name, s1.on[k], e.capture, e.passive)];
      }
    } else {
      AddPassOp(s1, oldOn, names[1..], k);
    }
  }

  /** The first loop makes no `remove` call. */
  lemma {:induction false} AddPassOpsKinds(s: State, oldOn: map<string, Handler>, names: seq<string>)
    requires StateOk(s, oldOn) && NoDup(names)
    requires forall i :: 0 <= i < |names| ==> names[i] in s.on
    ensures forall i :: |s.ops| <= i < |AddPass(s, oldOn, names).ops| ==>
      AddPass(s, oldOn, names).ops[i].Warn? || AddPass(s, oldOn, names).ops[i].Add?
    decreases |names|
  {
    if |names| > 0 {
      NoDupTail(names);
      var s1 := Step(s, oldOn, names[0]);
      AddPassOpsKinds(s1, oldOn, names[1..]);
      var r := AddPass(s1, oldOn, names[1..]);
      forall i | |s.ops| <= i < |r.ops| ensures r.ops[i].Warn? || r.ops[i].Add? {
        if i < |s1.ops| {
          assert r.ops[..|s1.ops|][i] == s1.ops[i];
          var k := names[0];
          if s.on[k].Missing? {
            assert s1.ops == s.ops + [Warn(NormalizeEvent(k).name)];
          } else if HGet(oldOn, k).Missing? {
            assert s1.ops[|s.ops|].Add?;
          }
        } else {
          assert r.ops[i] == AddPass(s1, oldOn, names[1..]).ops[i];
        }
      }
    }
  }

  /** When every enumerated key has a handler now and had one before, the first loop calls nothing. */
  lemma {:induction false} AddPassQuiet(s: State, oldOn: map<string, Handler>, names: seq<string>)
    requires StateOk(s, oldOn) && NoDup(names)
    requires forall i :: 0 <= i < |names| ==> names[i] in s.on
    requires forall i :: 0 <= i < |names| ==> !s.on[names[i]].Missing? && !HGet(oldOn, names[i]).Missing?
    ensures AddPass(s, oldOn, names).ops == s.ops
    decreases |names|
  {
    if |names| > 0 {
      NoDupTail(names);
      var s1 := Step(s, oldOn, names[0]);
      forall i | 0 <= i < |names[1..]|
        ensures !s1.on[names[1..][i]].Missing? && !HGet(oldOn, names[1..][i]).Missing?
      {
        assert names[1..][i] == names[i + 1];
      }
      AddPassQuiet(s1, oldOn, names[1..]);
    }
  }

  /** The second loop: `remove` for each old key the new record leaves undefined. */
  function RemovePass(on: map<string, Handler>, oldOn: map<string, Handler>, names: seq<string>): (ops: seq<Op>)
    requires forall i :: 0 <= i < |names| ==> names[i] in oldOn
    ensures forall i :: 0 <= i < |ops| ==> ops[i].Remove?
    ensures forall k :: k in names && HGet(on, k).Missing? ==>
      Remove(NormalizeEvent(k).name, oldOn[k], NormalizeEvent(k).capture) in ops
    ensures forall o :: o in ops ==>
      exists k :: k in names && HGet(on, k).Missing? && o == Remove(NormalizeEvent(k).name, oldOn[k], NormalizeEvent(k).capture)
  {
    if |names| == 0 then []
    else
      var k := names[0];
      var rest := RemovePass(on, oldOn, names[1..]);
      if HGet(on, k).Missing? then
        [Remove(NormalizeEvent(k).name, oldOn[k], NormalizeEvent(k).capture)] + rest
      else rest
  }

  /** No old key lost its handler: the second loop removes nothing. */
  lemma {:induction false} RemovePassNone(on: map<string, Handler>, oldOn: map<string, Handler>, names: seq<string>)
    requires forall i :: 0 <= i < |names| ==> names[i] in oldOn && !HGet(on, names[i]).Missing?
    ensures RemovePass(on, oldOn, names) == []
  {
    if |names| > 0 {
      RemovePassNone(on, oldOn, names[1..]);
    }
  }

  /**
   * `updateListeners(on, oldOn, add, remove, createOnceHandler)`: binds the
   * new keys, re-points the surviving invokers at the new handlers, then
   * removes the vanished keys. Returns the processed `on`, the heap and the
   * calls made, in order.
   */
  function Update(on: map<string, Handler>, onOrder: seq<string>,
                  oldOn: map<string, Handler>, oldOrder: seq<string>, heap: Heap): (r: State)
    requires IsOrderOf(onOrder, on.Keys) && IsOrderOf(oldOrder, oldOn.Keys)
    requires HeapOk(heap) && Known(on, heap) && Processed(oldOn, heap)
    ensures HeapOk(r.heap) && Grows(r.heap, heap)
    ensures r.on.Keys == on.Keys
  {
    var s := AddPass(State(on, heap, []), oldOn, onOrder);
    State(s.on, s.heap, s.ops + RemovePass(s.on, oldOn, oldOrder))
  }

  /**
   * The wrappers after one diff: every key has a registered wrapper exactly
   * when it has a handler, and surviving keys keep the wrapper they had.
   */
  lemma UpdateBindings(on: map<string, Handler>, onOrder: seq<string>,
                       oldOn: map<string, Handler>, oldOrder: seq<string>, heap: Heap)
    requires IsOrderOf(onOrder, on.Keys) && IsOrderOf(oldOrder, oldOn.Keys)
    requires HeapOk(heap) && Known(on, heap) && Processed(oldOn, heap)
    ensures var r := Update(on, onOrder, oldOn, oldOrder, heap);
      && Processed(r.on, r.heap)
      && (forall k :: k in on ==> (r.on[k].Missing? <==> on[k].Missing?))
      && (forall k :: k in on && !on[k].Missing? && !HGet(oldOn, k).Missing? ==> r.on[k] == oldOn[k])
  {
    var s0 := State(on, heap, []);
    forall k | k in on
      ensures var s := AddPass(s0, oldOn, onOrder);
        && (s.on[k].Missing? <==> on[k].Missing?)
        && (!on[k].Missing? ==> s.on[k].Ref? && s.on[k].id in s.heap.objs)
        && (!on[k].Missing? && !HGet(oldOn, k).Missing? ==> s.on[k] == oldOn[k])
    {
      AddPassEntry(s0, oldOn, onOrder, k);
    }
  }

  /**
   * One diff warns about every key without a handler and calls `add` exactly
   * once for each key that has a handler now and had none before, in
   * enumeration order, and for no other key.
   */
  lemma UpdateAdds(on: map<string, Handler>, onOrder: seq<string>,
                   oldOn: map<string, Handler>, oldOrder: seq<string>, heap: Heap)
    requires IsOrderOf(onOrder, on.Keys) && IsOrderOf(oldOrder, oldOn.Keys)
    requires HeapOk(heap) && Known(on, heap) && Processed(oldOn, heap)
    ensures var r := Update(on, onOrder, oldOn, oldOrder, heap);
      && (forall k :: k in on && on[k].Missing? ==> Warn(NormalizeEvent(k).name) in r.ops)
      && (forall k :: k in on && !on[k].Missing? && HGet(oldOn, k).Missing? ==>
            Add(NormalizeEvent(k).name, r.on[k], NormalizeEvent(k).capture, NormalizeEvent(k).passive) in r.ops)
    ensures var r := Update(on, onOrder, oldOn, oldOrder, heap);
      && AddsOf(r.ops) == AddsFor(r.on, NewKeys(on, oldOn, onOrder))
      && NoDup(NewKeys(on, oldOn, onOrder))
      && (forall k :: k in NewKeys(on, oldOn, onOrder) <==> k in on && !on[k].Missing? && HGet(oldOn, k).Missing?)
    ensures forall o :: o in Update(on, onOrder, oldOn, oldOrder, heap).ops && o.Add? ==>
      exists k :: k in on && !on[k].Missing? && HGet(oldOn, k).Missing? && o == AddFor(Update(on, onOrder, oldOn, oldOrder, heap).on, k)
  {
    var s0 := State(on, heap, []);
    var s := AddPass(s0, oldOn, onOrder);
    assert s.ops[0..] == s.ops;
    forall k | k in on
      ensures on[k].Missing? ==> Warn(NormalizeEvent(k).name) in s.ops
      ensures !on[k].Missing? && HGet(oldOn, k).Missing? ==>
        Add(NormalizeEvent(k).name, s.on[k], NormalizeEvent(k).capture, NormalizeEvent(k).passive) in s.ops
    {
      AddPassOp(s0, oldOn, onOrder, k);
    }
    UpdateAddsExactly(on, onOrder, oldOn, oldOrder, heap);
  }

  /** The `add` calls of a diff are those of `NewKeys`, in order. */
  lemma UpdateAddsExactly(on: map<string, Handler>, onOrder: seq<string>,
                          oldOn: map<string, Handler>, oldOrder: seq<string>, heap: Heap)
    requires IsOrderOf(onOrder, on.Keys) && IsOrderOf(oldOrder, oldOn.Keys)
    requires HeapOk(heap) && Known(on, heap) && Processed(oldOn, heap)
    ensures AddsOf(Update(on, onOrder, oldOn, oldOrder, heap).ops) == AddsFor(Update(on, onOrder, oldOn, oldOrder, heap).on, NewKeys(on, oldOn, onOrder))
    ensures NoDup(NewKeys(on, oldOn, onOrder))
    ensures forall k :: k in NewKeys(on, oldOn, onOrder) <==> k in on && !on[k].Missing? && HGet(oldOn, k).Missing?
    ensures forall o :: o in Update(on, onOrder, oldOn, oldOrder, heap).ops && o.Add? ==>
      exists k :: k in on && !on[k].Missing? && HGet(oldOn, k).Missing? && o == AddFor(Update(on, onOrder, oldOn, oldOrder, heap).on, k)
  {
    AddPassAddsInOrder(State(on, heap, []), oldOn, onOrder);
    AddsOfAppend(AddPass(State(on, heap, []), oldOn, onOrder).ops,
                 RemovePass(AddPass(State(on, heap, []), oldOn, onOrder).on, oldOn, oldOrder));
    AddsOfNone(RemovePass(AddPass(State(on, heap, []), oldOn, onOrder).on, oldOn, oldOrder));
    NewKeysNoDup(on, oldOn, onOrder);
    NewKeysMembers(on, oldOn, onOrder);
    AddsOfMembers(Update(on, onOrder, oldOn, oldOrder, heap).ops);
    forall o | o in Update(on, onOrder, oldOn, oldOrder, heap).ops && o.Add?
      ensures exists k :: k in on && !on[k].Missing? && HGet(oldOn, k).Missing? && o == AddFor(Update(on, onOrder, oldOn, oldOrder, heap).on, k)
    {
      var keys := NewKeys(on, oldOn, onOrder);
      AddsForIndex(Update(on, onOrder, oldOn, oldOrder, heap).on, keys);
      var i :| 0 <= i < |keys| && AddsFor(Update(on, onOrder, oldOn, oldOrder, heap).on, keys)[i] == o;
      assert keys[i] in keys;
    }
  }

  /** Without `add` calls there is nothing to keep. */
  lemma {:induction false} AddsOfNone(ops: seq<Op>)
    requires forall i :: 0 <= i < |ops| ==> !ops[i].Add?
    ensures AddsOf(ops) == []
  {
    if |ops| > 0 {
      AddsOfNone(ops[1..]);
    }
  }

  /**
   * One diff calls `remove` exactly for the old keys the new record leaves
   * without a handler, and only after every `add`.
   */
  lemma UpdateRemoves(on: map<string, Handler>, onOrder: seq<string>,
                      oldOn: map<string, Handler>, oldOrder: seq<string>, heap: Heap)
    requires IsOrderOf(onOrder, on.Keys) && IsOrderOf(oldOrder, oldOn.Keys)
    requires HeapOk(heap) && Known(on, heap) && Processed(oldOn, heap)
    ensures var r := Update(on, onOrder, oldOn, oldOrder, heap);
      && (forall k :: k in oldOn && HGet(r.on, k).Missing? ==>
            Remove(NormalizeEvent(k).name, oldOn[k], NormalizeEvent(k).capture) in r.ops)
      && (forall o :: o in r.ops && o.Remove? ==>
            exists k :: k in oldOn && HGet(r.on, k).Missing? && o == Remove(NormalizeEvent(k).name, oldOn[k], NormalizeEvent(k).capture))
      && (forall i, j :: 0 <= i < j < |r.ops| && r.ops[i].Remove? ==> r.ops[j].Remove?)
  {
    var s0 := State(on, heap, []);
    var s := AddPass(s0, oldOn, onOrder);
    var removes := RemovePass(s.on, oldOn, oldOrder);
    var r := Update(on, onOrder, oldOn, oldOrder, heap);
    assert r.ops == s.ops + removes && r.on == s.on;
    AddPassOpsKinds(s0, oldOn, onOrder);
    RemovesLast(s.ops, removes);
  }

  /** Calls without a `remove` followed by `remove` calls only: every `remove` is from the tail, and none precedes another call. */
  lemma RemovesLast(adds: seq<Op>, removes: seq<Op>)
    requires forall i :: 0 <= i < |adds| ==> !adds[i].Remove?
    requires forall i :: 0 <= i < |removes| ==> removes[i].Remove?
    ensures forall o :: o in adds + removes && o.Remove? ==> o in removes
    ensures forall i, j :: 0 <= i < j < |adds + removes| && (adds + removes)[i].Remove? ==> (adds + removes)[j].Remove?
  {
    var ops := adds + removes;
    forall o | o in ops && o.Remove? ensures o in removes {
      var i :| 0 <= i < |ops| && ops[i] == o;
      assert i >= |adds| && ops[i] == removes[i - |adds|];
    }
  }

  /** The `add` call the diff makes for a newly bound key. */
  function AddFor(on: map<string, Handler>, k: string): Op
  {
    Add(NormalizeEvent(k).name, HGet(on, k), NormalizeEvent(k).capture, NormalizeEvent(k).passive)
  }

  /** The `add` calls for `keys`, in order. */
  function AddsFor(on: map<string, Handler>, keys: seq<string>): seq<Op>
  {
    if |keys| == 0 then [] else [AddFor(on, keys[0])] + AddsFor(on, keys[1..])
  }

  /** `AddsFor` holds one call per key, at the key's index. */
  lemma {:induction false} AddsForIndex(on: map<string, Handler>, keys: seq<string>)
    ensures |AddsFor(on, keys)| == |keys|
    ensures forall i :: 0 <= i < |keys| ==> AddsFor(on, keys)[i] == AddFor(on, keys[i])
  {
    if |keys| > 0 {
      AddsForIndex(on, keys[1..]);
    }
  }

  /** The `add` calls among `ops`, in order. */
  function AddsOf(ops: seq<Op>): seq<Op>
  {
    if |ops| == 0 then [] else (if ops[0].Add? then [ops[0]] else []) + AddsOf(ops[1..])
  }

  /** `AddsOf` keeps exactly the `add` calls. */
  lemma {:induction false} AddsOfMembers(ops: seq<Op>)
    ensures forall o :: o in AddsOf(ops) <==> o in ops && o.Add?
  {
    if |ops| > 0 {
      AddsOfMembers(ops[1..]);
      assert forall o :: o in ops <==> o == ops[0] || o in ops[1..];
    }
  }

  lemma {:induction false} AddsOfAppend(a: seq<Op>, b: seq<Op>)
    ensures AddsOf(a + b) == AddsOf(a) + AddsOf(b)
  {
    if |a| == 0 {
      assert a + b == b;
    } else {
      assert (a + b)[1..] == a[1..] + b;
      AddsOfAppend(a[1..], b);
    }
  }

  /** The keys of `names`, in order, that have a handler in `on` and had none in `oldOn`. */
  function NewKeys(on: map<string, Handler>, oldOn: map<string, Handler>, names: seq<string>): seq<string>
  {
    if |names| == 0 then [] else NewHead(on, oldOn, names[0]) + NewKeys(on, oldOn, names[1..])
  }

  /** `[k]` when `k` is new, else nothing. */
  function NewHead(on: map<string, Handler>, oldOn: map<string, Handler>, k: string): seq<string>
  {
    if !HGet(on, k).Missing? && HGet(oldOn, k).Missing? then [k] else []
  }

  lemma NewKeysCons(on: map<string, Handler>, oldOn: map<string, Handler>, names: seq<string>)
    requires |names| > 0
    ensures NewKeys(on, oldOn, names) == NewHead(on, oldOn, names[0]) + NewKeys(on, oldOn, names[1..])
  {
  }

  /** `NewKeys` lists exactly the keys of `names` with a handler now and none before. */
  lemma {:induction false} NewKeysMembers(on: map<string, Handler>, oldOn: map<string, Handler>, names: seq<string>)
    ensures forall k :: k in NewKeys(on, oldOn, names) <==> k in names && !HGet(on, k).Missing? && HGet(oldOn, k).Missing?
  {
    if |names| > 0 {
      NewKeysMembers(on, oldOn, names[1..]);
      assert forall k :: k in names <==> k == names[0] || k in names[1..];
    }
  }

  lemma {:induction false} NewKeysNoDup(on: map<string, Handler>, oldOn: map<string, Handler>, names: seq<string>)
    requires NoDup(names)
    ensures NoDup(NewKeys(on, oldOn, names))
  {
    if |names| > 0 {
      NoDupTail(names);
      NewKeysNoDup(on, oldOn, names[1..]);
      NewKeysMembers(on, oldOn, names[1..]);
      var rest := NewKeys(on, oldOn, names[1..]);
      var keys := NewKeys(on, oldOn, names);
      if !HGet(on, names[0]).Missing? && HGet(oldOn, names[0]).Missing? {
        forall i, j | 0 <= i < j < |keys| ensures keys[i] != keys[j] {
          if i == 0 {
            assert keys[j] == rest[j - 1];
          } else {
            assert keys[i] == rest[i - 1] && keys[j] == rest[j - 1];
          }
        }
      }
    }
  }

  /** `NewKeys` reads only whether each handler is missing. */
  lemma {:induction false} NewKeysSameMissing(on1: map<string, Handler>, on2: map<string, Handler>,
                                               oldOn: map<string, Handler>, names: seq<string>)
    requires forall k :: HGet(on1, k).Missing? == HGet(on2, k).Missing?
    ensures NewKeys(on1, oldOn, names) == NewKeys(on2, oldOn, names)
  {
    if |names| > 0 {
      NewKeysSameMissing(on1, on2, oldOn, names[1..]);
    }
  }

  /** The `add` calls of the first loop are those of its new keys, one each, in enumeration order. */
  lemma {:induction false} AddPassAddsInOrder(s: State, oldOn: map<string, Handler>, names: seq<string>)
    requires StateOk(s, oldOn) && NoDup(names)
    requires forall i :: 0 <= i < |names| ==> names[i] in s.on
    ensures var r := AddPass(s, oldOn, names);
      AddsOf(r.ops) == AddsOf(s.ops) + AddsFor(r.on, NewKeys(s.on, oldOn, names))
    decreases |names|
  {
    if |names| == 0 {
      assert NewKeys(s.on, oldOn, names) == [];
    } else {
      NoDupTail(names);
      AddPassAddsInOrder(Step(s, oldOn, names[0]), oldOn, names[1..]);
      AddPassAddsCons(s, oldOn, names);
    }
  }

  /** The inductive step of `AddPassAddsInOrder`: the first key's call, then the rest's. */
  lemma AddPassAddsCons(s: State, oldOn: map<string, Handler>, names: seq<string>)
    requires StateOk(s, oldOn) && NoDup(names) && |names| > 0
    requires forall i :: 0 <= i < |names| ==> names[i] in s.on
    requires NoDup(names[1..]) && names[0] !in names[1..]
    requires var s1 := Step(s, oldOn, names[0]);
      var r1 := AddPass(s1, oldOn, names[1..]);
      AddsOf(r1.ops) == AddsOf(s1.ops) + AddsFor(r1.on, NewKeys(s1.on, oldOn, names[1..]))
    ensures var r := AddPass(s, oldOn, names);
      AddsOf(r.ops) == AddsOf(s.ops) + AddsFor(r.on, NewKeys(s.on, oldOn, names))
  {
    AddPassAddsTail(s, oldOn, names);
    AddPassAddsHead(s, oldOn, names);
    NewKeysCons(s.on, oldOn, names);
    AddsForAppend(AddPass(s, oldOn, names).on, NewHead(s.on, oldOn, names[0]), NewKeys(s.on, oldOn, names[1..]));
    ConcatAssoc(AddsOf(s.ops), AddsFor(AddPass(s, oldOn, names).on, NewHead(s.on, oldOn, names[0])),
                AddsFor(AddPass(s, oldOn, names).on, NewKeys(s.on, oldOn, names[1..])));
  }

  lemma AddPassAddsTail(s: State, oldOn: map<string, Handler>, names: seq<string>)
    requires StateOk(s, oldOn) && NoDup(names) && |names| > 0
    requires forall i :: 0 <= i < |names| ==> names[i] in s.on
    requires NoDup(names[1..]) && names[0] !in names[1..]
    requires var s1 := Step(s, oldOn, names[0]);
      var r1 := AddPass(s1, oldOn, names[1..]);
      AddsOf(r1.ops) == AddsOf(s1.ops) + AddsFor(r1.on, NewKeys(s1.on, oldOn, names[1..]))
    ensures var r := AddPass(s, oldOn, names);
      AddsOf(r.ops) == AddsOf(Step(s, oldOn, names[0]).ops) + AddsFor(r.on, NewKeys(s.on, oldOn, names[1..]))
  {
    AddPassUnfold(s, oldOn, names);
    StepKeepsMissing(s, oldOn, names[0]);
    NewKeysSameMissing(Step(s, oldOn, names[0]).on, s.on, oldOn, names[1..]);
  }

  lemma AddPassUnfold(s: State, oldOn: map<string, Handler>, names: seq<string>)
    requires StateOk(s, oldOn) && NoDup(names) && |names| > 0
    requires forall i :: 0 <= i < |names| ==> names[i] in s.on
    requires NoDup(names[1..]) && names[0] !in names[1..]
    ensures AddPass(s, oldOn, names) == AddPass(Step(s, oldOn, names[0]), oldOn, names[1..])
  {
  }

  lemma AddPassAddsHead(s: State, oldOn: map<string, Handler>, names: seq<string>)
    requires StateOk(s, oldOn) && NoDup(names) && |names| > 0
    requires forall i :: 0 <= i < |names| ==> names[i] in s.on
    requires NoDup(names[1..]) && names[0] !in names[1..]
    ensures AddsOf(Step(s, oldOn, names[0]).ops) == AddsOf(s.ops) + AddsFor(AddPass(s, oldOn, names).on, NewHead(s.on, oldOn, names[0]))
  {
    AddPassUnfold(s, oldOn, names);
    AddPassEntry(Step(s, oldOn, names[0]), oldOn, names[1..], names[0]);
    StepAdds(s, oldOn, names[0], AddPass(s, oldOn, names).on);
  }

  lemma {:induction false} AddsForAppend(on: map<string, Handler>, a: seq<string>, b: seq<string>)
    ensures AddsFor(on, a + b) == AddsFor(on, a) + AddsFor(on, b)
  {
    if |a| == 0 {
      assert a + b == b;
    } else {
      assert (a + b)[1..] == a[1..] + b;
      AddsForAppend(on, a[1..], b);
    }
  }

  /** One step leaves every key's handler missing exactly when it was. */
  lemma StepKeepsMissing(s: State, oldOn: map<string, Handler>, name: string)
    requires name in s.on && StateOk(s, oldOn)
    ensures forall x :: HGet(Step(s, oldOn, name).on, x).Missing? == HGet(s.on, x).Missing?
  {
    var s1 := Step(s, oldOn, name);
    forall x ensures HGet(s1.on, x).Missing? == HGet(s.on, x).Missing? {
      if x in s.on && x != name {
        assert s1.on[x] == s.on[x];
      }
    }
  }

  /** One step adds the `add` call of its key exactly when the key is new; `on` agrees with the step there. */
  lemma StepAdds(s: State, oldOn: map<string, Handler>, name: string, on: map<string, Handler>)
    requires name in s.on && StateOk(s, oldOn)
    requires name in on && on[name] == Step(s, oldOn, name).on[name]
    ensures AddsOf(Step(s, oldOn, name).ops) == AddsOf(s.ops) + AddsFor(on, NewHead(s.on, oldOn, name))
  {
    var s1 := Step(s, oldOn, name);
    if s.on[name].Missing? {
      AddsOfAppend(s.ops, [Warn(NormalizeEvent(name).name)]);
    } else if HGet(oldOn, name).Missing? {
      AddsOfAppend(s.ops, [AddFor(on, name)]);
    }
  }

  /** A key the first loop binds gets its own handler back or a wrapper allocated by this loop. */
  lemma {:induction false} AddPassFresh(s: State, oldOn: map<string, Handler>, names: seq<string>, k: string)
    requires StateOk(s, oldOn) && NoDup(names)
    requires forall i :: 0 <= i < |names| ==> names[i] in s.on
    requires k in names && !s.on[k].Missing? && HGet(oldOn, k).Missing?
    ensures var r := AddPass(s, oldOn, names);
      r.on[k] == s.on[k] || (r.on[k].Ref? && r.on[k].id !in s.heap.objs)
    decreases |names|
  {
    NoDupTail(names);
    var s1 := Step(s, oldOn, names[0]);
    if names[0] == k {
      AddPassEntry(s1, oldOn, names[1..], k);
    } else {
      AddPassFresh(s1, oldOn, names[1..], k);
    }
  }

  // =====================================================================
  // laws
  // =====================================================================

  /**
   * A surviving binding keeps its registered invoker, which from now on
   * reaches the new handler: listeners are re-pointed, not re-registered.
   */
  lemma SurvivingInvokerReachesNewHandler(on: map<string, Handler>, onOrder: seq<string>,
                                          oldOn: map<string, Handler>, oldOrder: seq<string>,
                                          heap: Heap, name: string)
    requires IsOrderOf(onOrder, on.Keys) && IsOrderOf(oldOrder, oldOn.Keys)
    requires HeapOk(heap) && Known(on, heap) && Processed(oldOn, heap)
    requires name in on && !on[name].Missing? && !on[name].Ref?
    requires HGet(oldOn, name).Ref? && heap.objs[oldOn[name].id].Invoker?
    requires forall k :: k in oldOn && k != name ==> oldOn[k] != oldOn[name]
    ensures Update(on, onOrder, oldOn, oldOrder, heap).on[name] == oldOn[name]
    ensures Update(on, onOrder, oldOn, oldOrder, heap).heap.objs[oldOn[name].id] == Invoker(on[name])
  {
    var s0 := State(on, heap, []);
    AddPassEntry(s0, oldOn, onOrder, name);
    FnsAfterPass(s0, oldOn, onOrder, name);
  }

  /** `old.fns` after the first loop: the new handler of the one key that owned it. */
  lemma {:induction false} FnsAfterPass(s: State, oldOn: map<string, Handler>, names: seq<string>, name: string)
    requires StateOk(s, oldOn) && NoDup(names)
    requires forall i :: 0 <= i < |names| ==> names[i] in s.on
    requires name in names && !s.on[name].Missing? && !s.on[name].Ref?
    requires HGet(oldOn, name).Ref? && s.heap.objs[oldOn[name].id].Invoker?
    requires forall k :: k in oldOn && k != name ==> oldOn[k] != oldOn[name]
    ensures AddPass(s, oldOn, names).heap.objs[oldOn[name].id] == Invoker(s.on[name])
    decreases |names|
  {
    NoDupTail(names);
    var s1 := Step(s, oldOn, names[0]);
    var prev := oldOn[name];
    if names[0] == name {
      assert s1.heap.objs[prev.id] == Invoker(s.on[name]);
      InvokerKept(s1, oldOn, names[1..], name);
    } else {
      var k := names[0];
      assert s1.heap.objs[prev.id] == s.heap.objs[prev.id] by {
        if !s.on[k].Missing? && !HGet(oldOn, k).Missing? && s.on[k] != oldOn[k] {
          assert oldOn[k] != prev;
        }
      }
      FnsAfterPass(s1, oldOn, names[1..], name);
    }
  }

  /** Keys other than `name` leave the wrapper only `name` owned alone. */
  lemma {:induction false} InvokerKept(s: State, oldOn: map<string, Handler>, names: seq<string>, name: string)
    requires StateOk(s, oldOn) && NoDup(names)
    requires forall i :: 0 <= i < |names| ==> names[i] in s.on
    requires name !in names
    requires HGet(oldOn, name).Ref? && oldOn[name].id in s.heap.objs
    requires forall k :: k in oldOn && k != name ==> oldOn[k] != oldOn[name]
    ensures AddPass(s, oldOn, names).heap.objs[oldOn[name].id] == s.heap.objs[oldOn[name].id]
    decreases |names|
  {
    if |names| > 0 {
      NoDupTail(names);
      var s1 := Step(s, oldOn, names[0]);
      var prev := oldOn[name];
      var k := names[0];
      assert s1.heap.objs[prev.id] == s.heap.objs[prev.id] by {
        if !s.on[k].Missing? && !HGet(oldOn, k).Missing? && s.on[k] != oldOn[k] {
          assert oldOn[k] != prev;
        }
      }
      InvokerKept(s1, oldOn, names[1..], name);
    }
  }

  /**
   * A `~` binding made by the diff keeps reaching the invoker it was
   * created with: re-pointing stores the new handler in the once-handler's
   * own `fns`, which it never reads.
   */
  lemma OnceHandlerKeepsFirstTarget(heap: Heap, prev: Handler, cur: Handler)
    requires prev.Ref? && prev.id in heap.objs && heap.objs[prev.id].OnceWrapper?
    ensures Targets(SetFns(heap, prev, cur), prev) == Targets(heap, prev)
  {
  }

  /**
   * `createFnInvoker`: calling the wrapper a new key without `~` is bound to
   * reaches the key's handler and never throws; a single function's result
   * comes back, `undefined` when it threw, and an array gives `undefined`.
   */
  lemma BoundInvokerCallsHandler(heap: Heap, cur: Handler, e: EventSpec, call: Handler -> Ret)
    requires HeapOk(heap) && (cur.User? || cur.UserList?) && !e.once
    ensures var (h, b) := Bind(heap, cur, e);
      CallHandler(h, b, call) == Returned(if cur.User? && call(cur).Returned? then call(cur).v else Undef)
  {
  }

  /** Diffing a processed record against itself binds nothing, removes nothing and keeps every wrapper. */
  lemma UpdateAgainstSelfIsQuiet(on: map<string, Handler>, order: seq<string>, heap: Heap)
    requires IsOrderOf(order, on.Keys)
    requires HeapOk(heap) && Processed(on, heap)
    requires forall k :: k in on ==> !on[k].Missing?
    ensures Update(on, order, on, order, heap).ops == []
    ensures Update(on, order, on, order, heap).on == on
  {
    var s0 := State(on, heap, []);
    assert Known(on, heap);
    AddPassQuiet(s0, on, order);
    var s := AddPass(s0, on, order);
    forall k | k in on ensures s.on[k] == on[k] {
      AddPassEntry(s0, on, order, k);
    }
    RemovePassNone(s.on, on, order);
  }
}

=== FILE: use.dfy ===
/**
 * `Vue.use` of src/core/global-api/use.js: installs a plugin at most once
 * per constructor, remembering it in `_installedPlugins`.
 */
module Use {
  import opened JsValue

  /** A plugin: its identity, whether it is itself a function, and its `install` property. */
  datatype Plugin = Plugin(ref: nat, isFunction: bool, install: Val)

  /** The call `Vue.use` makes: `plugin.install(Vue, ...args)`, `plugin(Vue, ...args)`, or none. */
  datatype Call = CallInstall(plugin: Plugin, args: seq<Val>) | CallPlugin(plugin: Plugin, args: seq<Val>) | NoCall

  /**
   * After the call: the installed list, the call made, and whether it threw
   * (then the exception leaves `use` before the plugin is recorded).
   */
  datatype UseResult = UseResult(installed: seq<Plugin>, call: Call, threw: bool)

  /** `installedPlugins.indexOf(plugin) > -1`, by identity. */
  predicate Installed(installed: seq<Plugin>, p: Plugin)
  {
    exists i :: 0 <= i < |installed| && installed[i].ref == p.ref
  }

  /** The call `use` makes for a plugin it has not seen. */
  function CallFor(p: Plugin, args: seq<Val>): Call
  {
    if IsFunction(p.install) then CallInstall(p, args)
    else if p.isFunction then CallPlugin(p, args)
    else NoCall
  }

  /**
   * `Vue.use(plugin, ...rest)` on a constructor whose `_installedPlugins`
   * is `installed` (`None` when not yet created); `vue` is the constructor
   * and `outcome` what the install call does.
   */
  function Use(installed: Option<seq<Plugin>>, vue: Val, plugin: Plugin, rest: seq<Val>, outcome: Ret): (r: UseResult)
    ensures var before := if installed.Some? then installed.value else [];
      && (Installed(before, plugin) ==> r == UseResult(before, NoCall, false))
      && (!Installed(before, plugin) ==>
            && r.call == CallFor(plugin, [vue] + rest)
            && (r.threw <==> r.call != NoCall && outcome.Threw?)
            && r.installed == (if r.threw then before else before + [plugin]))
  {
    var list := if installed.Some? then installed.value else [];
    if Installed(list, plugin) then UseResult(list, NoCall, false)
    else
      var call := CallFor(plugin, [vue] + rest);
      if call != NoCall && outcome.Threw? then UseResult(list, call, true)
      else UseResult(list + [plugin], call, false)
  }

  /** The installed list never records a plugin twice. */
  predicate UniqueRefs(installed: seq<Plugin>)
  {
    forall i, j :: 0 <= i < j < |installed| ==> installed[i].ref != installed[j].ref
  }

  /** `use` keeps the installed list free of repeats. */
  lemma UsePreservesUnique(installed: Option<seq<Plugin>>, vue: Val, plugin: Plugin, rest: seq<Val>, outcome: Ret)
    requires installed.Some? ==> UniqueRefs(installed.value)
    ensures UniqueRefs(Use(installed, vue, plugin, rest, outcome).installed)
  {
    var before := if installed.Some? then installed.value else [];
    var r := Use(installed, vue, plugin, rest, outcome);
    if !Installed(before, plugin) && !r.threw {
      forall i, j | 0 <= i < j < |r.installed|
        ensures r.installed[i].ref != r.installed[j].ref
      {
        if j == |before| {
          assert r.installed[j] == plugin;
          assert r.installed[i] == before[i];
        }
      }
    }
  }

  /**
   * Installing is once only: after a successful `use`, a second `use` of the
   * same plugin, with any arguments, makes no call and changes nothing.
   */
  lemma SecondUseIsNoOp(installed: Option<seq<Plugin>>, vue: Val, plugin: Plugin, rest: seq<Val>, outcome: Ret,
                        rest2: seq<Val>, outcome2: Ret)
    requires !Use(installed, vue, plugin, rest, outcome).threw
    ensures var first := Use(installed, vue, plugin, rest, outcome);
      Use(Some(first.installed), vue, plugin, rest2, outcome2) == UseResult(first.installed, NoCall, false)
  {
    var before := if installed.Some? then installed.value else [];
    var first := Use(installed, vue, plugin, rest, outcome);
    if !Installed(before, plugin) {
      assert first.installed[|before|] == plugin;
    }
    assert Installed(first.installed, plugin);
  }

  /** A plugin whose install threw is not recorded, so a later `use` calls it again. */
  lemma ThrownInstallIsRetried(installed: Option<seq<Plugin>>, vue: Val, plugin: Plugin, rest: seq<Val>,
                               rest2: seq<Val>, outcome2: Ret)
    requires Use(installed, vue, plugin, rest, Threw).threw
    ensures var first := Use(installed, vue, plugin, rest, Threw);
      Use(Some(first.installed), vue, plugin, rest2, outcome2).call == CallFor(plugin, [vue] + rest2)
  {
  }

  /** An object whose `install` is a function is installed through it even when the plugin is itself a function. */
  lemma InstallWinsOverCallingThePlugin(ref: nat, f: FnId, vue: Val, rest: seq<Val>)
    ensures Use(None, vue, Plugin(ref, true, Fn(f)), rest, Returned(Undef)).call
      == CallInstall(Plugin(ref, true, Fn(f)), [vue] + rest)
  {
    assert !Installed([], Plugin(ref, true, Fn(f)));
  }
}

=== FILE: vnode_helpers.dfy ===
/**
 * src/core/vdom/helpers/is-async-placeholder.js and
 * src/core/vdom/helpers/get-first-component-child.js: recognising the
 * comment vnode an async component renders while it loads, and finding
 * the first component child of a list.
 */
module VNodeHelpers {
  import opened JsValue

  /**
   * An entry of a children array: a hole (`undefined` or `null`), or a vnode
   * with the fields the helpers read and an identity.
   */
  datatype Child =
    | Hole
    | VNode(id: nat, isComment: bool, asyncFactory: Val, componentOptions: Val)

  /**
   * `isAsyncPlaceholder(node)` returns `node.isComment && node.asyncFactory`:
   * `false` for a non-comment, the factory itself for a comment.
   */
  function AsyncPlaceholder(n: Child): (r: Val)
    requires n.VNode?
    ensures !n.isComment ==> r == Bool(false)
    ensures n.isComment ==> r == n.asyncFactory
    ensures Truthy(r) <==> n.isComment && Truthy(n.asyncFactory)
  {
    if n.isComment then n.asyncFactory else Bool(false)
  }

  /** The test `getFirstComponentChild` applies to each entry. */
  predicate IsComponentChild(c: Child)
  {
    c.VNode? && (IsDefined(c.componentOptions) || Truthy(AsyncPlaceholder(c)))
  }

  /**
   * `getFirstComponentChild(children)`: `None` when `children` is not an
   * array (`children` is `None`) or holds no component child; otherwise the
   * first one.
   */
  method FirstComponentChild(children: Option<seq<Child>>) returns (r: Option<Child>)
    ensures children.None? ==> r.None?
    ensures r.None? ==> children.None? || forall i :: 0 <= i < |children.value| ==> !IsComponentChild(children.value[i])
    ensures r.Some? ==>
      && children.Some?
      && exists k :: 0 <= k < |children.value| && children.value[k] == r.value && IsComponentChild(r.value)
           && forall i :: 0 <= i < k ==> !IsComponentChild(children.value[i])
  {
    r := None;
    if children.Some? {
      var cs := children.value;
      var i := 0;
      while i < |cs|
        invariant 0 <= i <= |cs|
        invariant forall j :: 0 <= j < i ==> !IsComponentChild(cs[j])
      {
        var c := cs[i];
        if c.VNode? && (IsDefined(c.componentOptions) || Truthy(AsyncPlaceholder(c))) {
          return Some(c);
        }
        i := i + 1;
      }
    }
  }

  /** The first index holding a component child, as a reference definition. */
  function FirstIndex(cs: seq<Child>): (k: nat)
    ensures k <= |cs|
    ensures k < |cs| ==> IsComponentChild(cs[k])
    ensures forall i :: 0 <= i < k ==> !IsComponentChild(cs[i])
  {
    if |cs| == 0 then 0
    else if IsComponentChild(cs[0]) then 0
    else 1 + FirstIndex(cs[1..])
  }

  /** The method returns the entry at the reference index, and nothing exactly when that index is past the end. */
  method FirstComponentChildIsFirstIndex(cs: seq<Child>) returns (r: Option<Child>)
    ensures r.None? <==> FirstIndex(cs) == |cs|
    ensures r.Some? ==> r.value == cs[FirstIndex(cs)]
  {
    r := FirstComponentChild(Some(cs));
    if r.Some? {
      var k :| 0 <= k < |cs| && cs[k] == r.value && IsComponentChild(r.value)
        && forall i :: 0 <= i < k ==> !IsComponentChild(cs[i]);
    }
  }

  /** A loading async component counts as a component child even without component options. */
  lemma PlaceholderCounts(id: nat, factory: FnId)
    ensures IsComponentChild(VNode(id, true, Fn(factory), Undef))
    ensures !IsComponentChild(VNode(id, false, Fn(factory), Undef))
  {
  }
}
